=== FILE: README.md ===
# MusicSharing.Api service rules in Dafny

A functional model of the service layer of MusicSharing.Api, an ASP.NET
Core back end for sharing songs. Its database is an in-memory state, with
one `seq` of rows per table shaped after `Models/*.cs`. Each service method
becomes a pure function from the tables it touches, its arguments and the
current time to the new tables and its result. The model covers:

- the single-use token flows for password reset and e-mail verification:
  issue with an hourly throttle, redeem an unused and unexpired token by
  hash, and mark it used;
- the account rules of `UserService`: creation with a case-insensitive
  e-mail check, selective overwrite on update, credential lookup, the
  profile-picture acceptance test and the user search;
- the decision logic of the account endpoints of `UserController`: which
  reply each one gives, what it stores and whom it mails;
- the follow graph, ratings (one per song and user), playlists, comments,
  and the delete-authorisation rules;
- the activity log: the feed over the follow graph, and the cleanup
  deletes that match a substring of the JSON payload;
- song update, delete, simple and advanced search, per-user analytics, and
  the site-wide search of `SearchController` (five queries merged,
  deduplicated by id, newest first, clamped page size);
- the admin moderation deletes, promotion to admin, and the dashboard.

Time is a whole number of seconds and is always passed in as `now`. These
are function parameters:

- SHA-256, as `hash`;
- the password hasher, as `hashPassword` and `verify`;
- the random raw token, as `raw`;
- the GUID of a saved picture, as `guid`.

A new row's identity column is above every id in the table.

Modules follow the source files:

| module | source |
|---|---|
| `Tokens` | shared token table |
| `PasswordReset` | `UserService.PasswordReset.cs` |
| `EmailVerification` | `UserService.EmailVerification.cs` |
| `Accounts` | `UserService.cs` |
| `UserController` | `Controllers/UserController.cs` |
| `Followers` | `FollowerService.cs` |
| `Activities` | `ActivityService.cs` |
| `Ratings` | `RatingService.cs` |
| `Comments` | `CommentService.cs` |
| `Playlists` | `PlaylistService.cs` |
| `Music` | `MusicService.cs` |
| `GlobalSearch` | `Controllers/SearchController.cs` |
| `Admin` | `AdminService.cs` |

`Models`, `Text`, `Ordering`, `Collections` and `Wrappers` hold the
entities and the LINQ and string primitives the services share.

## Model

| member | source | states |
|---|---|---|
| PasswordReset.CreatePasswordResetToken | MusicSharing.Api/Services/UserService.PasswordReset.cs:16-49 | Nothing is issued for an unknown login name or an unconfirmed account, nor when 5 or more tokens were created for that user strictly after now minus one hour. Otherwise exactly one row is appended. It stores only hash(raw), expires at now + lifetime (30 minutes by default), is unused, records ip and user agent, and has an id above every existing one. |
| PasswordReset.ResetPassword | MusicSharing.Api/Services/UserService.PasswordReset.cs:51-71 | Succeeds iff some token has the raw token's hash, is unused and has expiry at or after now (inclusive). On success that token is marked used at now and only the owner's password hash changes. A failure changes nothing. |
| PasswordReset.IssuedTokenRedeemable | MusicSharing.Api/Services/UserService.PasswordReset.cs:37-48 | Round trip: a token just issued redeems at any time up to and including its expiry. |
| PasswordReset.ResetIsSingleUse | MusicSharing.Api/Services/UserService.PasswordReset.cs:58-64 | After a successful reset, a second reset with the same raw token fails at any later time, when token hashes are distinct. |
| PasswordReset.IssueKeepsHourlyLimit | MusicSharing.Api/Services/UserService.PasswordReset.cs:28-32 | If no user had more than 5 reset tokens created in any rolling hour, that still holds after a request. |
| EmailVerification.CreateEmailVerificationToken | MusicSharing.Api/Services/UserService.EmailVerification.cs:19-44 | Nothing is issued for an unknown user id, an already confirmed account, or a user with 3 or more tokens created in the last hour. Otherwise one row with hash(raw) and expiry now + lifetime (4 hours by default) is appended. |
| EmailVerification.VerifyEmail | MusicSharing.Api/Services/UserService.EmailVerification.cs:46-62 | Succeeds iff a matching, unused, unexpired token exists. On success that token is marked used and exactly the users with the owner's id become confirmed. A failure changes nothing. |
| EmailVerification.VerifyNeverUnconfirms | MusicSharing.Api/Services/UserService.EmailVerification.cs:57-58 | Verification never clears EmailConfirmed and never changes an id. |
| EmailVerification.ConfirmedGetsNoToken | MusicSharing.Api/Services/UserService.EmailVerification.cs:21-22 | Once an account is confirmed, no verification token is issued for it. |
| EmailVerification.VerifyIsSingleUse | MusicSharing.Api/Services/UserService.EmailVerification.cs:50-58 | A redeemed verification token cannot be redeemed again, when token hashes are distinct. |
| EmailVerification.IssueKeepsHourlyLimit | MusicSharing.Api/Services/UserService.EmailVerification.cs:25-28 | At most 3 verification tokens per user in any rolling hour are kept invariant by issuing. |
| Tokens.IssueKeepsHourlyLimit | MusicSharing.Api/Services/UserService.PasswordReset.cs:28-32 | The throttle check on the last hour bounds every rolling hour: appending a token created now only when fewer than `limit` are recent keeps every user's hourly count within `limit`. |
| Accounts.CreateUser | MusicSharing.Api/Services/UserService.cs:46-59 | An e-mail equal to a stored one ignoring case is refused with the table unchanged. Otherwise one user is appended with a fresh id, the creation time now, and hashPassword of the supplied password rather than the password itself. |
| Accounts.CreateKeepsAccountsUnique | MusicSharing.Api/Services/UserService.cs:48-52 | Creation preserves case-insensitive e-mail uniqueness and id uniqueness. |
| Accounts.UpdateUser | MusicSharing.Api/Services/UserService.cs:61-79 | An unknown id gives null with no change. Otherwise username, e-mail, picture path and role are overwritten, and the password is rehashed only when the supplied value is not blank. |
| Accounts.UpdateUserKeepsIds | MusicSharing.Api/Services/UserService.cs:61-79 | An update keeps every id in place. So unique ids stay unique and every lookup by id finds the same position. |
| Accounts.UpdateUserIdempotent | MusicSharing.Api/Services/UserService.cs:61-79 | Applying the same update twice gives the same table and result as applying it once. |
| Accounts.UpdateMayDuplicateEmail | MusicSharing.Api/Services/UserService.cs:66-67 | Update makes no uniqueness check: a concrete update turns a store with unique e-mails into one with a duplicate. |
| Accounts.Authenticate | MusicSharing.Api/Services/UserService.cs:103-112 | Returns a user iff the first account whose username or e-mail equals the input exactly verifies the password. A later account with the same name is never tried. |
| Accounts.CreatedUserCanAuthenticate | MusicSharing.Api/Services/UserService.cs:46-59 | Round trip: a freshly created account logs in with the password it was created with, when the hasher accepts its own hashes and no existing account answers to that name. |
| Accounts.GetExtension | MusicSharing.Api/Services/UserService.cs:132 | The extension is non-empty iff the last dot after the last separator is not the final character, and it is the suffix from that dot. |
| Accounts.CheckProfilePicture | MusicSharing.Api/Services/UserService.cs:129-139 | A picture is accepted iff its content type starts with "image/" ignoring case, or its extension is non-empty and one of the 13 allowed ones ignoring case. Otherwise it is rejected as an unsupported image type. |
| Accounts.SearchUsers | MusicSharing.Api/Services/UserService.cs:152-164 | A blank query gives no users. Otherwise the result is sorted by username and each entry is a stored user whose username or e-mail contains the trimmed query ignoring case. No stored row appears more often than it is stored. For a non-negative `take` it holds min(take, number of matching users) users. |
| Accounts.SearchUsersKeepsFirstMatches | MusicSharing.Api/Services/UserService.cs:157-163 | The result is a sub-multiset of the matches with min(take, number of matches) entries. With at most `take` matches, all of them are returned, each as often as stored. A match left out never sorts before one returned. |
| Accounts.SearchOneIsLeast | MusicSharing.Api/Services/UserService.cs:161-162 | A one-row search returns a match that no other match sorts strictly before. |
| Accounts.SearchOneSortsFirst | MusicSharing.Api/Services/UserService.cs:157-163 | A one-row search for a query that some user matches returns exactly one row, and that row is the given match or sorts no later than it. |
| UserController.SavePicture | MusicSharing.Api/Services/UserService.cs:124-150 | The picture is stored iff it passes the acceptance test, under the picture folder with a fresh name and the original extension. |
| UserController.Create | MusicSharing.Api/Controllers/UserController.cs:58-102 | A rejected picture gives a server error with nothing stored. A duplicate e-mail gives Conflict, with no account, no token and no mail. Exactly when neither happens the account is created, unconfirmed; a verification token is stored and mailed exactly when the hourly limit allows. |
| UserController.Login | MusicSharing.Api/Controllers/UserController.cs:146-158 | Unauthorized iff authentication fails; Forbidden iff it succeeds for an unconfirmed account; otherwise a token for that user's id. |
| UserController.VerificationLiftsForbidden | MusicSharing.Api/Controllers/UserController.cs:149-157 | Redeeming the account's own verification token turns a Forbidden login into a successful one. |
| UserController.UpdateWith | MusicSharing.Api/Controllers/UserController.cs:106-135 | NotFound for an unknown id and a server error for a rejected picture, both with no change. Otherwise the account takes the form's name and e-mail, plus the new picture path only when a non-empty file is supplied, and is handed to the service update. |
| UserController.UpdateWithKeepsIds | MusicSharing.Api/Controllers/UserController.cs:106-135 | A profile update keeps every id in place, so ids stay unique and lookups by id are unchanged. An Ok reply shows the row now stored. |
| UserController.UpdateAsWritten | MusicSharing.Api/Controllers/UserController.cs:106-121 | As written, a successful profile update hashes the already stored, non-blank password hash again. |
| UserController.UpdateProfile | MusicSharing.Api/Controllers/UserController.cs:106-135 | Not found iff the id is unknown, and Ok iff the id is known and any non-empty picture is accepted. The intended update changes only that account's name, e-mail and (with a non-empty file) picture path; id, password hash, role, creation time and confirmation are kept. |
| UserController.UpdateAsWrittenLocksOut | MusicSharing.Api/Controllers/UserController.cs:106-121 | A concrete account that logs in before a profile edit cannot log in after the as-written update, but still can after the intended one. |
| UserController.LookupViaSearch | MusicSharing.Api/Controllers/UserController.cs:225-226 | The as-written lookup returns only a stored user whose name or e-mail equals the input exactly. |
| UserController.LookupByLogin | MusicSharing.Api/Services/UserService.PasswordReset.cs:18-19 | The intended lookup finds nobody iff no account is named exactly by the input; otherwise it finds the first such account. |
| UserController.RequestVerificationWith | MusicSharing.Api/Controllers/UserController.cs:222-239 | The reply is the same message in every case, and users and reset tokens never change. A token and a mail go out only for a found, unconfirmed account, and then to that account. |
| UserController.RequestEmailVerificationAsWritten | MusicSharing.Api/Controllers/UserController.cs:222-239 | The same generic reply always, with users and reset tokens untouched. |
| UserController.RequestEmailVerification | MusicSharing.Api/Controllers/UserController.cs:222-239 | Same reply always. A mail goes out iff an account is named exactly, is unconfirmed and is under the hourly limit, and it goes to that account. |
| UserController.LookupViaSearchMisses | MusicSharing.Api/Controllers/UserController.cs:225-226 | When another matching account sorts before every exactly named one, the as-written lookup finds nobody. |
| UserController.LookupViaSearchMissesExactUser | MusicSharing.Api/Controllers/UserController.cs:225-226 | On the store {"bob", "abob"} the query "bob" finds nobody as written but finds "bob" with the exact lookup. |
| UserController.RequestVerificationMissesExactUser | MusicSharing.Api/Controllers/UserController.cs:225-235 | On that store, with "bob" unconfirmed, the as-written request issues nothing, while the intended one mails "bob" a token. |
| UserController.ForgotPasswordWith | MusicSharing.Api/Controllers/UserController.cs:287-307 | The same message always. The reset tokens are exactly what the reset service issues. A mail goes out iff a token was issued, the recipient lookup found someone, and that account's stored e-mail is not blank (`SendPasswordResetEmailAsync` sends nothing otherwise). It is addressed to the account the lookup found. |
| UserController.ForgotPasswordAsWritten | MusicSharing.Api/Controllers/UserController.cs:287-307 | The same generic reply always, with users and verification tokens untouched. |
| UserController.ForgotPassword | MusicSharing.Api/Controllers/UserController.cs:287-307 | Either the reset tokens are unchanged or one token with the hash of the raw token is appended. A mail carrying the raw token goes out iff a token was issued and its owner's e-mail is not blank, and it goes to that token's owner. |
| UserController.ForgotPasswordMailsNobody | MusicSharing.Api/Controllers/UserController.cs:297-302 | On the {"bob", "abob"} store a reset token is stored for "bob" but, as written, no mail is sent; the intended lookup mails it. |
| UserController.LookupViaSearchFindsOtherAccount | MusicSharing.Api/Controllers/UserController.cs:297-298 | On the store {"zed" with e-mail "x@y", "x@y"} the query "x@y" finds account 2 as written, while the exact lookup finds account 1. |
| UserController.ForgotPasswordMailsWrongAccount | MusicSharing.Api/Controllers/UserController.cs:287-307 | On that store, when the unordered owner lookup returns account 1 (the model takes table order), a reset request for "x@y" stores a token for account 1. As written, the raw token is mailed to account 2; the intended lookup mails it to account 1. |
| UserController.VerifyEmailViaGet | MusicSharing.Api/Controllers/UserController.cs:253-282 | A missing or blank token gives BadRequest with nothing consulted or changed. Otherwise the success page is shown iff verification succeeds, and a failure changes nothing. |
| Followers.FollowUser | MusicSharing.Api/Services/FollowerService.cs:11-20 | Following yourself, or someone already followed, gives false with no change. Otherwise exactly one edge (follower, followed) is appended; the edge relation afterwards is the old one plus that edge. |
| Followers.UnfollowUser | MusicSharing.Api/Services/FollowerService.cs:22-30 | A missing edge gives false with no change. Otherwise the first row recording the edge is removed and nothing else. |
| Followers.UnfollowRemovesEdge | MusicSharing.Api/Services/FollowerService.cs:24-29 | In a well-formed graph, unfollow removes exactly that edge and keeps every other one. |
| Followers.FollowKeepsWellFormed | MusicSharing.Api/Services/FollowerService.cs:11-20 | Follow preserves "no self-edge and no duplicate edge". |
| Followers.UnfollowKeepsWellFormed | MusicSharing.Api/Services/FollowerService.cs:22-30 | Unfollow preserves the same invariant. |
| Followers.FollowThenUnfollow | MusicSharing.Api/Services/FollowerService.cs:11-30 | Round trip: a successful follow undone by unfollow restores the table exactly. |
| Followers.FollowerIds | MusicSharing.Api/Services/FollowerService.cs:32-38 | x is listed iff x follows the user. |
| Followers.FollowingIds | MusicSharing.Api/Services/FollowerService.cs:40-46 | x is listed iff the user follows x. |
| Followers.FollowerIdsDistinct | MusicSharing.Api/Services/FollowerService.cs:32-38 | In a well-formed graph nobody is listed twice and nobody is their own follower. |
| Activities.Latest | MusicSharing.Api/Services/ActivityService.cs:22-25 | Newest first, drawn from the pool, of length min(count, size of pool). It is the whole pool when that fits, and no activity left out is newer than one shown. |
| Activities.Feed | MusicSharing.Api/Services/ActivityService.cs:11-35 | A negative count is refused (the database rejects a negative LIMIT). Otherwise the result is newest first and holds min(count, number of eligible activities) of them, all of them when they fit, and none left out is newer than one shown. Eligible means every activity for a user following nobody, and otherwise the user's own and those of followed users. |
| Activities.FeedPoolIsEligible | MusicSharing.Api/Services/ActivityService.cs:13-31 | The rows the feed draws from are, as a multiset, exactly the eligible activities of the log. |
| Activities.FeedShowsOnlyFollowed | MusicSharing.Api/Services/ActivityService.cs:28-31 | A user following someone sees only their own activities and those of users they follow. |
| Activities.FeedKeepsNewest | MusicSharing.Api/Services/ActivityService.cs:30-33 | No eligible activity left out of the feed is newer than one shown. |
| Activities.ForUser | MusicSharing.Api/Services/ActivityService.cs:37-44 | A negative count is refused. Otherwise only the user's activities, newest first, min(count, number of them) of them, all of them when they fit, and none left out is newer than one shown. |
| Activities.ForUserOfSoleAuthor | MusicSharing.Api/Services/ActivityService.cs:37-44 | When every activity in the log is the user's, the user's newest `count` are the log's newest `count`, as `GetAll` gives them. |
| Activities.Add | MusicSharing.Api/Services/ActivityService.cs:46-51 | Exactly one activity is appended with a fresh id; nothing else changes. |
| Activities.AddKeepsIdsUnique | MusicSharing.Api/Services/ActivityService.cs:46-51 | Appending keeps activity ids unique. |
| Activities.DeleteByUser | MusicSharing.Api/Services/ActivityService.cs:55-60 | Removes exactly the user's activities, keeps every other one as often as it occurred, and returns how many were removed. |
| Activities.DeleteByUserIdempotent | MusicSharing.Api/Services/ActivityService.cs:55-60 | A second cleanup for the same user removes nothing. |
| Activities.DeleteById | MusicSharing.Api/Services/ActivityService.cs:62-84 | Removes exactly the activities whose payload exists and contains `"<field>":<id>`, keeps every other one as often as it occurred, and returns the number removed. The three source methods differ only in the field name. |
| Activities.DeleteByIdIdempotent | MusicSharing.Api/Services/ActivityService.cs:62-84 | A second cleanup with the same field and id removes nothing. |
| Activities.KeyMatchesLongerIds | MusicSharing.Api/Services/ActivityService.cs:64-66 | The match is not anchored: a payload naming id 10n+d also matches id n. |
| Activities.DeleteSongOneHitsTwelve | MusicSharing.Api/Services/ActivityService.cs:62-67 | Deleting by song 1 removes an activity about song 12. |
| Activities.GetAll | MusicSharing.Api/Services/ActivityService.cs:86-93 | A negative count is refused. Without a count, all activities newest first. With a count, min(count, size of the log) of them, newest first, and none left out is newer than one shown. |
| Ratings.AddOrUpdate | MusicSharing.Api/Services/RatingService.cs:31-48 | An existing rating of that song by that user takes the new value and time, with no row added. Otherwise the rating is inserted under a fresh id. The stored row is returned, and the value is not range-checked. |
| Ratings.AddOrUpdateKeepsOnePerSongAndUser | MusicSharing.Api/Services/RatingService.cs:31-48 | Preserves "at most one rating per song and user". Afterwards the user's rating of the song is the one just given. |
| Ratings.Delete | MusicSharing.Api/Services/RatingService.cs:50-61 | A missing id gives false. A caller who is neither admin nor owner gives false with no change. Otherwise exactly that row is removed. |
| Ratings.AnonymousCannotDeleteRating | MusicSharing.Api/Services/RatingService.cs:56 | A caller without an id, who is not an admin, can never delete a rating. |
| Comments.BySong | MusicSharing.Api/Services/CommentService.cs:16-23 | Exactly the song's comments, each as often as stored, newest first. |
| Comments.Add | MusicSharing.Api/Services/CommentService.cs:25-30 | Exactly one comment is appended with a fresh id. |
| Comments.AddKeepsIdsUnique | MusicSharing.Api/Services/CommentService.cs:25-30 | Appending keeps comment ids unique. |
| Comments.AddThenDelete | MusicSharing.Api/Services/CommentService.cs:25-43 | Round trip: an admin deleting the comment just added restores the table. |
| Comments.Delete | MusicSharing.Api/Services/CommentService.cs:32-43 | A missing id gives false. An admin deletes any comment. Anyone else deletes only when the owner equals the caller under nullable equality, and only that comment is removed. |
| Comments.AnonymousDeletesOwnerlessComment | MusicSharing.Api/Services/CommentService.cs:38 | A caller without an id can delete a comment that has no owner. |
| Playlists.ExistingSongIds | MusicSharing.Api/Services/PlaylistService.cs:35-37 | Keeps exactly the requested ids that name a stored song. |
| Playlists.ExistingSongIdsDistinct | MusicSharing.Api/Services/PlaylistService.cs:36 | With unique song ids the kept ids are distinct. |
| Playlists.Create | MusicSharing.Api/Services/PlaylistService.cs:28-42 | Appends one playlist with the given name, description and owner and a fresh id. It holds exactly the existing requested songs, or none when the list is null. |
| Playlists.Delete | MusicSharing.Api/Services/PlaylistService.cs:44-51 | Succeeds iff a playlist has that id and that owner, and then removes such a row. Otherwise nothing changes. |
| Playlists.DeleteRemovesOnlyThatPlaylist | MusicSharing.Api/Services/PlaylistService.cs:44-51 | With unique ids a successful delete leaves the playlist impossible to find and every other playlist in place. |
| Playlists.Update | MusicSharing.Api/Services/PlaylistService.cs:53-65 | A missing id gives null. The name is replaced only by a non-blank one, and the description whenever one is given. |
| Playlists.UpdateIdempotent | MusicSharing.Api/Services/PlaylistService.cs:53-65 | Applying the same update twice equals applying it once. |
| Playlists.AddSong | MusicSharing.Api/Services/PlaylistService.cs:67-82 | Succeeds iff playlist and song exist. The song is appended only if it is not yet a member, and nothing else changes. |
| Playlists.AddSongIdempotent | MusicSharing.Api/Services/PlaylistService.cs:77-81 | Adding a song twice equals adding it once. |
| Playlists.RemoveId | MusicSharing.Api/Services/PlaylistService.cs:91-94 | Removes one occurrence, and with distinct ids exactly that member. |
| Playlists.RemoveSong | MusicSharing.Api/Services/PlaylistService.cs:84-97 | Succeeds iff the playlist exists and holds the song, and then removes only that song. Otherwise nothing changes. |
| Playlists.AddThenRemoveSong | MusicSharing.Api/Services/PlaylistService.cs:67-97 | Round trip: adding a non-member and removing it again restores the playlists. |
| Music.UpdateSong | MusicSharing.Api/Services/MusicService.cs:63-78 | A missing id gives null with no change. Otherwise title, artist, file path, artwork path, genre and tags come from the body; id, upload date, play and download counts and uploader are kept. The body's categories are added to the stored links: no list keeps them, and a list that repeats an id or names an already linked category fails with no change. No other song changes. |
| Music.UpdateSongKeepsLinksDistinct | MusicSharing.Api/Services/MusicService.cs:74 | A song's category links stay free of repeats. |
| Music.UpdateSongTwice | MusicSharing.Api/Services/MusicService.cs:63-78 | Sending the same body twice: without categories the second update changes nothing; with a non-empty category list it fails, because those links now exist. |
| Music.DeleteSong | MusicSharing.Api/Services/MusicService.cs:80-91 | A missing id gives false with no change. Otherwise the activities `DeleteById` matches for the song's id are removed in every case. The song row is removed unless a comment still refers to it; then the delete is refused and the song stays. The admin delete (`AdminService.DeleteSongAsync`) is the same operation. |
| Music.DeleteSongRemovesOnlyThatSong | MusicSharing.Api/Services/MusicService.cs:80-91 | With unique ids a successful delete leaves the song impossible to find and every other song in place. A refused delete leaves the songs as they were, and retrying it changes nothing more. |
| Music.Search | MusicSharing.Api/Services/MusicService.cs:154-175 | Each song is kept, as often as stored, iff it meets every supplied filter. Null or empty filters impose nothing, and categories mean any overlap. |
| Music.SearchWithoutFilters | MusicSharing.Api/Services/MusicService.cs:162-174 | With no filters the whole table is returned. |
| Music.SearchFiltersNarrow | MusicSharing.Api/Services/MusicService.cs:162-174 | Adding any one filter can only narrow the result. |
| Music.Normalize | MusicSharing.Api/Services/MusicService.cs:237-240 | Null or white-space terms are ignored; others are trimmed and lowercased and are non-empty. |
| Music.AdvancedSearch | MusicSharing.Api/Services/MusicService.cs:220-274 | Each song is kept, as often as stored, iff it meets the conjunction of the supplied criteria. |
| Music.AdvancedSearchWithoutCriteria | MusicSharing.Api/Services/MusicService.cs:242-271 | With no criteria every song is returned. |
| Music.BlankTermIgnored | MusicSharing.Api/Services/MusicService.cs:237-240 | A blank title, artist, genre or uploader term behaves exactly like no term. |
| Music.RatingBoundNeedsRatings | MusicSharing.Api/Services/MusicService.cs:268-271 | Whenever a rating bound is supplied, every song returned has ratings. |
| Music.RangesInclusive | MusicSharing.Api/Services/MusicService.cs:256-263 | A song whose play count and upload date equal both bounds matches. |
| Music.UploaderTermNeedsUploader | MusicSharing.Api/Services/MusicService.cs:248-251 | A song without an uploader never matches an uploader term. |
| Music.Mean | MusicSharing.Api/Services/MusicService.cs:197-198 | 0 for no ratings; otherwise the value times the count equals the sum. |
| Music.Scan | MusicSharing.Api/Services/MusicService.cs:195-202 | One pass yields the play and download sums, all rating values, and the first song with the most plays and the first with the latest upload. |
| Music.UserSongAnalytics | MusicSharing.Api/Services/MusicService.cs:188-218 | The count of the user's songs, their play and download totals, and the mean rating. The most-popular and most-recent songs each have the maximum of their field, are the first such song, and are absent iff the user has no songs. |
| GlobalSearch.Clamp | MusicSharing.Api/Controllers/SearchController.cs:25 | The page size lies in 1..50 and is the requested size when that is in range. |
| GlobalSearch.TermMatchesMeans | MusicSharing.Api/Controllers/SearchController.cs:30-74 | A hit means: the trimmed, lowercased term occurs in the title, artist, genre or uploader's name or e-mail, or some tag equals the raw, untrimmed term. |
| GlobalSearch.Candidates | MusicSharing.Api/Controllers/SearchController.cs:30-74 | The five result lists together hold exactly the stored songs that match the term. |
| GlobalSearch.DedupById | MusicSharing.Api/Controllers/SearchController.cs:77-82 | No two songs share an id. Each is the first hit with its id, and every id among the hits is present. |
| Collections.DistinctBy | MusicSharing.Api/Controllers/SearchController.cs:77-82 | Dictionary TryAdd over a list: the values have unique keys, each is the first element with its key, and every key occurs. |
| GlobalSearch.Newest | MusicSharing.Api/Controllers/SearchController.cs:84-87 | The most recent `take` songs, newest first. All of them when they fit, and no song left out is newer than one kept. |
| GlobalSearch.Hit | MusicSharing.Api/Controllers/SearchController.cs:99-107 | The hit carries its song, and its uploader exactly when the song's user exists. |
| GlobalSearch.RankedSongs | MusicSharing.Api/Controllers/SearchController.cs:77-87 | At most n candidates, newest first, with distinct ids. |
| GlobalSearch.SongResults | MusicSharing.Api/Controllers/SearchController.cs:30-108 | At most n hits. Each is a stored matching song with its uploader, newest first, and no id repeats. |
| GlobalSearch.SongResultsComplete | MusicSharing.Api/Controllers/SearchController.cs:84-87 | With unique ids, a matching song is left off only when the page is full of songs uploaded no earlier than it. |
| GlobalSearch.Search | MusicSharing.Api/Controllers/SearchController.cs:18-112 | A blank term gives empty users and songs. Otherwise both lists use the page size, 20 when none is given and otherwise the given one clamped to 1..50; the users come from the user search, and neither list exceeds 50. |
| Admin.DeleteUser | MusicSharing.Api/Services/AdminService.cs:70-78 | A missing id gives false with no change. Otherwise exactly the user's activities are removed in every case. The user row is removed unless a song, comment, blog post or follow edge still refers to the user; then the delete is refused and the user stays. |
| Admin.DeleteUserRemovesOnlyThatUser | MusicSharing.Api/Services/AdminService.cs:72-77 | With unique ids a successful delete leaves the user impossible to find and every other user in place. Otherwise the user table is unchanged. |
| Admin.DeleteUserRetryAfterRefusal | MusicSharing.Api/Services/AdminService.cs:74-76 | After a refused delete, retrying is refused the same way and changes nothing more. |
| Admin.FollowerDeleteLosesActivity | MusicSharing.Api/Data/AppDbContext.cs:32-42 | A user who follows someone cannot be deleted, yet their activity is deleted all the same. |
| Admin.DeleteComment | MusicSharing.Api/Services/AdminService.cs:90-98 | A missing id gives false with no change. Otherwise the comment and exactly the activities mentioning `"CommentId":<id>` are removed. |
| Admin.DeleteBlogPost | MusicSharing.Api/Services/AdminService.cs:100-108 | A missing id gives false with no change. Otherwise exactly the activities mentioning `"BlogPostId":<id>` are removed in every case. The post is removed unless a comment still refers to it; then the delete is refused and the post stays. |
| Admin.DeleteBlogPostRemovesOnlyThatPost | MusicSharing.Api/Services/AdminService.cs:100-108 | With unique ids a successful delete leaves the post impossible to find and every other post in place. A refused delete leaves the posts as they were, and retrying it changes nothing more. |
| Admin.DeleteCommentTwice | MusicSharing.Api/Services/AdminService.cs:92-93 | With unique ids a second delete of the same comment returns false and changes nothing. |
| Admin.PromoteUserToAdmin | MusicSharing.Api/Services/AdminService.cs:110-117 | Succeeds iff the user exists. Then only that row's role becomes Admin; otherwise nothing changes. |
| Admin.PromoteIdempotent | MusicSharing.Api/Services/AdminService.cs:110-117 | Promoting twice equals promoting once. |
| Admin.ShowComment | MusicSharing.Api/Services/AdminService.cs:39-49 | Copies the comment's fields. An anonymous comment shows no username even when linked; otherwise the linked user's name, or none. |
| Admin.DashboardComments | MusicSharing.Api/Services/AdminService.cs:36-50 | One entry per stored comment, highest id first. The list is the comment table rearranged, each comment in its dashboard form. |
| Admin.DashboardCommentsShowStored | MusicSharing.Api/Services/AdminService.cs:36-50 | In such a list every entry shows a stored comment, and every stored comment is shown. |
| Admin.GetDashboard | MusicSharing.Api/Services/AdminService.cs:13-68 | Users, songs, activities and blog posts are each a permutation of their table sorted by id descending. The comments are the comment table rearranged highest id first, in dashboard form. |
| Admin.GetDashboardComplete | MusicSharing.Api/Services/AdminService.cs:13-68 | Each list holds exactly the rows of its table, with comments in their dashboard form. Nothing is left out and nothing is added. |

## Left out

- File I/O is not modelled: audio, artwork and picture writing, streaming and downloads. Only the acceptance test and the stored path of a profile picture are kept.
- Sending e-mail is not modelled. A mail is recorded as its recipient and raw token. A reset mail is recorded only when the recipient's stored address is not blank, because the reset sender returns early otherwise. The verification sender checks only that the account exists, and every verification mail goes to an account the controller has just found or created, so it is always recorded. A failure of the SMTP server is not modelled.
- SHA-256, the password hasher, JWT issuance and the random token bytes are opaque parameters.
- `DateTime.UtcNow` is the parameter `now`, in whole seconds.
- Concurrency is not modelled: the model is sequential, so races between token redemptions cannot be expressed.
- Database cascades are not modelled. Deleting a song or user would also remove its ratings, playlist and category links and tokens, but those tables are not parameters of the deletes. A delete refused by a foreign key with no delete action or with Restrict is modelled; the activity cleanup, which runs first as its own statement, stays done.
- Followers.FollowUser: a follow of an unknown user id would fail the foreign key when saved. The model appends the edge, since it does not take the user table.
- Ratings.AddOrUpdate: a rating naming an unknown song or user would fail the foreign key when saved. The model inserts it.
- Comments.Add: a comment naming an unknown song, blog post or user would fail the foreign key when saved. The model appends it.
- Music.UpdateSong: categories are modelled by id. Category rows are not, so a body category without an id (which would insert a new category) and an unknown category id (which fails the foreign key) are not modelled.
- Accounts.SearchUsers: the ILike pattern is modelled as plain substring matching, so `%`, `_` and `\` in the query are not treated as wildcards or escapes. The ordering by user name uses ordinal comparison, not the database collation. A negative `take` gives no users, where the database would reject the query; every caller passes at least 1.
- Accounts.Authenticate: `FirstOrDefaultAsync` has no ORDER BY, so the database may return any matching row. The model takes the first matching row in table order.
- PasswordReset.CreatePasswordResetToken: the token owner is found by `FirstOrDefaultAsync` on user name or e-mail with no ORDER BY, so when one account's user name is another's e-mail the database may return either row. The model takes the first matching row in table order, which stands for that unspecified row; the reset contracts and lemmas hold for the row so chosen.
- UserController.LookupByLogin: the intended exact lookup takes the first matching row in table order, standing for the unspecified row the unordered database lookup returns. The corrected `ForgotPassword` mails the owner of the token actually issued, so it is right whichever row that is.
- Accounts.GetExtension: only `/` separates directories. `Path.GetExtension` on Windows also treats `\` and `:` as separators.
- Collections.NextId: a new id is above every id still in the table. A PostgreSQL identity column never reuses a value, so it would not reuse the id of a deleted highest row; the model may.
- Music.UserSongAnalytics: the average is an exact rational (`Mean`), not a double, so rounding is not modelled.
- Music.AdvancedSearch: the rating bounds compare sum with bound times count, exactly, instead of a floating-point average.
- Integer columns are unbounded. The sums in analytics are not bounded to 32 bits; LINQ's checked `Sum` would throw on overflow.
- `ToLower` and case-insensitive comparison map only ASCII letters. The ILike and LIKE collation of the database is modelled as ordinal substring matching after lowering.
- Rows that tie under a database ORDER BY come out in insertion order in the model. The contracts only claim sortedness and permutation.
- DTO projections are not modelled field by field. The dashboard keeps User and Song rows; profiles in replies are User rows, including the hash the DTO omits.
- `Services/SearchController.cs` is not modelled. It declares the same controller class as `Controllers/SearchController.cs`, which is the version modelled.
- `CategoryService`, `BlogService`, `RatingService.GetAverageRatingAsync` and the thin HTTP-mapping controllers add no rule beyond "missing gives false or null" and are not modelled.
- `UserService.DeleteUserAsync` is not modelled separately; it does what `Admin.DeleteUser` does, refusal included.
- The POST `verify-email` and `reset-password` actions, and `UpdatePassword`, are not modelled separately. They map the service result straight to a reply.
- Followers.FollowerIds: returns the follower ids, not the loaded User rows, because user loading is a navigation property.
- Followers.FollowingIds: likewise returns ids rather than User rows.
- Playlists.Create: holds songs by id, so the ordering of the loaded `Songs` list is not modelled.

## Findings

| source | as written | input that shows it | evidently intended | confidence | as-written member | corrected member |
|---|---|---|---|---|---|---|
| MusicSharing.Api/Controllers/UserController.cs:106-121 | `Update` hands the tracked user, whose password field holds the stored hash, to `UpdateUserAsync`. That hash is not blank, so it is hashed again (`UserService.cs:70-73`). | User "ann" with hash "#pw", where the hasher prepends "#": after a profile edit the stored hash is "##pw" and the password "pw" no longer logs in. | A profile edit leaves the password hash alone. | not executed | UserController.UpdateAsWritten, UserController.UpdateAsWrittenLocksOut | UserController.UpdateProfile |
| MusicSharing.Api/Controllers/UserController.cs:225-226 | `RequestEmailVerification` takes the single row of `SearchUsersAsync(q, 1)` and keeps it only if it is named exactly by q. | Users "bob" (unconfirmed) and "abob": "abob" contains "bob" and sorts first, so the request for "bob" issues no token. | Look up the account named exactly, as the token services do. | not executed | UserController.RequestEmailVerificationAsWritten, UserController.LookupViaSearch, UserController.LookupViaSearchMisses, UserController.RequestVerificationMissesExactUser | UserController.RequestEmailVerification, UserController.LookupByLogin |
| MusicSharing.Api/Controllers/UserController.cs:297-298 | `ForgotPassword` finds the mail recipient by the same one-row search. | The same store with "bob" confirmed: a reset token is stored for "bob" but no mail is sent, so it can never be redeemed. | Mail the token to the owner of the token just issued. | not executed | UserController.ForgotPasswordAsWritten, UserController.ForgotPasswordMailsNobody | UserController.ForgotPassword |
| MusicSharing.Api/Controllers/UserController.cs:297-298 | `ForgotPassword` mails the raw token to the row of `SearchUsersAsync(q, 1)` that q names exactly, while the token is issued for whichever account q names that the unordered `FirstOrDefaultAsync` of `UserService.PasswordReset.cs:18-19` returns. | Account 1 "zed" with e-mail "x@y" and account 2 named "x@y", both confirmed, and q = "x@y", with the database returning account 1 for that unordered lookup: the token is stored for account 1, but the search sorts "x@y" before "zed", so account 1's raw token is mailed to account 2. | Mail the token to the owner of the token just issued. | not executed | UserController.ForgotPasswordAsWritten, UserController.LookupViaSearchFindsOtherAccount, UserController.ForgotPasswordMailsWrongAccount | UserController.ForgotPassword |

=== FILE: accounts.dfy ===
/** The account rules of `UserService`: creation with a case-insensitive
    e-mail uniqueness check, selective overwrite on update, credential
    lookup, the profile-picture acceptance test and the user search. The
    password hasher is opaque: `hashPassword` produces a stored hash and
    `verify(storedHash, password)` checks one. */
module Accounts {
  import opened Wrappers
  import opened Text
  import opened Collections
  import opened Ordering
  import opened Models

  datatype Error = DuplicateEmail | UnsupportedImageType

  datatype CreateOutcome = CreateOutcome(users: seq<User>, result: Result<User, Error>)

  datatype UpdateOutcome = UpdateOutcome(users: seq<User>, user: Option<User>)

  /** Some stored e-mail equals `email` ignoring case. */
  predicate EmailTaken(users: seq<User>, email: string) {
    exists j :: 0 <= j < |users| && EqualsIgnoreCase(users[j].email, email)
  }

  /** No two accounts share an e-mail address, ignoring case. */
  predicate EmailsUnique(users: seq<User>) {
    forall i, j :: 0 <= i < j < |users| ==> !EqualsIgnoreCase(users[i].email, users[j].email)
  }

  /** `CreateUserAsync`: refuses an e-mail already present in any letter case
      and then leaves the store as it was; otherwise appends the account
      under a fresh id, storing the hash of the supplied password, never the
      password itself. */
  function CreateUser(users: seq<User>, form: User, now: int, hashPassword: string -> string): (r: CreateOutcome)
    ensures EmailTaken(users, form.email) ==> r == CreateOutcome(users, Failure(DuplicateEmail))
    ensures !EmailTaken(users, form.email) ==>
              && r.result.Success?
              && r.users == users + [r.result.value]
              && var u := r.result.value;
                 && u.passwordHash == hashPassword(form.passwordHash)
                 && u.username == form.username && u.email == form.email && u.role == form.role
                 && u.profilePicturePath == form.profilePicturePath
                 && u.emailConfirmed == form.emailConfirmed && u.createdAt == now
                 && forall j :: 0 <= j < |users| ==> users[j].id < u.id
  {
    if EmailTaken(users, form.email) then CreateOutcome(users, Failure(DuplicateEmail))
    else
      var u := form.(id := NextId(users, UserId), passwordHash := hashPassword(form.passwordHash), createdAt := now);
      CreateOutcome(users + [u], Success(u))
  }

  /** Creation keeps e-mail addresses unique ignoring case, and ids unique. */
  lemma CreateKeepsAccountsUnique(users: seq<User>, form: User, now: int, hashPassword: string -> string)
    requires EmailsUnique(users) && UniqueBy(users, UserId)
    ensures var r := CreateUser(users, form, now, hashPassword);
            EmailsUnique(r.users) && UniqueBy(r.users, UserId)
  {
    var r := CreateUser(users, form, now, hashPassword);
    if r.result.Success? {
      var u := r.result.value;
      forall i, j | 0 <= i < j < |r.users|
        ensures !EqualsIgnoreCase(r.users[i].email, r.users[j].email)
      {
        if j == |users| {
          assert r.users[i] == users[i];
        }
      }
      AppendFreshKeepsUnique(users, u, UserId);
    }
  }

  /** `UpdateUserAsync`: an unknown id gives null and changes nothing.
      Otherwise the user name, e-mail, picture path and role are overwritten
      with the supplied values, the password is re-hashed only when the
      supplied one is not blank, and id, creation time and confirmation stay
      as they were. No e-mail uniqueness check is made. */
  function UpdateUser(users: seq<User>, id: int, updated: User, hashPassword: string -> string): (r: UpdateOutcome)
    ensures FindUser(users, id).None? ==> r == UpdateOutcome(users, None)
    ensures FindUser(users, id).Some? ==>
              var i := FindUser(users, id).value;
              && |r.users| == |users|
              && (forall j :: 0 <= j < |users| && j != i ==> r.users[j] == users[j])
              && r.user == Some(r.users[i])
              && var u := r.users[i];
                 && u.id == users[i].id == id
                 && u.createdAt == users[i].createdAt && u.emailConfirmed == users[i].emailConfirmed
                 && u.username == updated.username && u.email == updated.email
                 && u.profilePicturePath == updated.profilePicturePath && u.role == updated.role
                 && (IsBlank(updated.passwordHash) ==> u.passwordHash == users[i].passwordHash)
                 && (!IsBlank(updated.passwordHash) ==> u.passwordHash == hashPassword(updated.passwordHash))
  {
    match FindUser(users, id)
    case None => UpdateOutcome(users, None)
    case Some(i) =>
      var prev := users[i];
      var u := prev.(username := updated.username, email := updated.email,
                    profilePicturePath := updated.profilePicturePath,
                    passwordHash := if IsBlank(updated.passwordHash) then prev.passwordHash
                                    else hashPassword(updated.passwordHash),
                    role := updated.role);
      UpdateOutcome(users[i := u], Some(u))
  }

  /** Looking a user up by id only depends on the ids. */
  lemma FindUserSameIds(users: seq<User>, users': seq<User>, id: int)
    requires |users| == |users'|
    requires forall j :: 0 <= j < |users| ==> users'[j].id == users[j].id
    ensures FindUser(users', id) == FindUser(users, id)
  {
    var a := FindUser(users, id);
    var b := FindUser(users', id);
    if a.Some? && b.Some? {
      assert !(a.value < b.value) && !(b.value < a.value);
    }
  }

  /** Updating keeps every id where it was, so ids stay unique and every
      lookup by id finds the same position. */
  lemma UpdateUserKeepsIds(users: seq<User>, id: int, updated: User, hashPassword: string -> string, q: int)
    ensures var r := UpdateUser(users, id, updated, hashPassword);
            && |r.users| == |users|
            && (forall j :: 0 <= j < |users| ==> r.users[j].id == users[j].id)
            && FindUser(r.users, q) == FindUser(users, q)
            && (UniqueBy(users, UserId) ==> UniqueBy(r.users, UserId))
  {
    var r := UpdateUser(users, id, updated, hashPassword);
    assert forall j :: 0 <= j < |users| ==> r.users[j].id == users[j].id;
    FindUserSameIds(users, r.users, q);
    if UniqueBy(users, UserId) {
      forall i, j | 0 <= i < j < |r.users| ensures UserId(r.users[i]) != UserId(r.users[j]) {
        assert UserId(users[i]) != UserId(users[j]);
      }
    }
  }

  /** Applying the same update twice has the effect of applying it once:
      a blank password keeps the hash, and a non-blank one is hashed from
      the same supplied value again. */
  lemma UpdateUserIdempotent(users: seq<User>, id: int, updated: User, hashPassword: string -> string)
    ensures var once := UpdateUser(users, id, updated, hashPassword);
            UpdateUser(once.users, id, updated, hashPassword) == once
  {
    var once := UpdateUser(users, id, updated, hashPassword);
    UpdateUserKeepsIds(users, id, updated, hashPassword, id);
    match FindUser(users, id)
    case None =>
    case Some(i) =>
      var twice := UpdateUser(once.users, id, updated, hashPassword);
      assert twice.users[i] == once.users[i];
      assert twice.users == once.users;
  }

  /** Update makes no uniqueness check: two accounts can end up with the
      same e-mail address. */
  lemma UpdateMayDuplicateEmail()
    ensures var users := [User(1, "ann", "a@x", "h1", RegularUser, 0, None, true),
                          User(2, "bob", "b@x", "h2", RegularUser, 0, None, true)];
            && EmailsUnique(users)
            && !EmailsUnique(UpdateUser(users, 2, users[1].(email := "A@x", passwordHash := ""), s => s).users)
  {
    var users := [User(1, "ann", "a@x", "h1", RegularUser, 0, None, true),
                  User(2, "bob", "b@x", "h2", RegularUser, 0, None, true)];
    assert Lower("a@x")[0] != Lower("b@x")[0];
    assert IsBlank("");
    var r := UpdateUser(users, 2, users[1].(email := "A@x", passwordHash := ""), s => s);
    assert FindUser(users, 2) == Some(1);
    assert r.users[0].email == "a@x" && r.users[1].email == "A@x";
    assert Lower("A@x") == Lower("a@x");
  }

  /** `AuthenticateAsync`: the first account whose user name or e-mail
      equals the input exactly is returned when the password verifies
      against its stored hash; otherwise null, even if a later account with
      the same name would have accepted the password. */
  function Authenticate(users: seq<User>, usernameOrEmail: string, password: string,
                        verify: (string, string) -> bool): (r: Option<User>)
    ensures r.Some? <==> FindByLogin(users, usernameOrEmail).Some?
                         && verify(users[FindByLogin(users, usernameOrEmail).value].passwordHash, password)
    ensures r.Some? ==> r.value in users
                        && (r.value.username == usernameOrEmail || r.value.email == usernameOrEmail)
                        && forall k :: 0 <= k < |users| && users[k] != r.value
                             && (users[k].username == usernameOrEmail || users[k].email == usernameOrEmail)
                             ==> exists m :: 0 <= m < k && users[m] == r.value
  {
    match FindByLogin(users, usernameOrEmail)
    case None => None
    case Some(i) => if verify(users[i].passwordHash, password) then Some(users[i]) else None
  }

  /** Round trip: a freshly created account can log in with the password it
      was created with, when the hasher accepts its own hashes and no
      existing account already answers to that user name. */
  lemma CreatedUserCanAuthenticate(users: seq<User>, form: User, now: int, hashPassword: string -> string,
                                   verify: (string, string) -> bool)
    requires !EmailTaken(users, form.email)
    requires verify(hashPassword(form.passwordHash), form.passwordHash)
    requires forall j :: 0 <= j < |users| ==> users[j].username != form.username && users[j].email != form.username
    ensures var r := CreateUser(users, form, now, hashPassword);
            Authenticate(r.users, form.username, form.passwordHash, verify) == Some(r.result.value)
  {
    var r := CreateUser(users, form, now, hashPassword);
    var i := FindByLogin(r.users, form.username);
    assert r.users[|users|].username == form.username;
    assert i.Some? && i.value == |users|;
  }

  // ---- profile pictures ----

  /** The extensions accepted without an image content type, in lower case;
      the source compares them ignoring case. */
  const ImageExtensions: set<string> :=
    {".jpg", ".jpeg", ".png", ".gif", ".bmp", ".webp", ".tif", ".tiff", ".svg", ".ico", ".heic", ".heif", ".avif"}

  /** The extension of `path` starts at position `i`: a dot that is not the
      last character and is followed by neither another dot nor a
      directory separator. */
  predicate ExtensionAt(path: string, i: int) {
    0 <= i < |path| - 1 && path[i] == '.' && forall k :: i < k < |path| ==> path[k] != '.' && path[k] != '/'
  }

  /** The last dot before position `k` that no directory separator
      follows before `k`. */
  function LastDot(path: string, k: nat): (r: Option<nat>)
    requires k <= |path|
    ensures r.Some? ==> r.value < k && path[r.value] == '.'
                        && forall m :: r.value < m < k ==> path[m] != '.' && path[m] != '/'
    ensures r.None? ==> forall i :: 0 <= i < k && path[i] == '.' ==>
                          exists m :: i < m < k && (path[m] == '.' || path[m] == '/')
    decreases k
  {
    if k == 0 then None
    else if path[k - 1] == '.' then Some(k - 1)
    else if path[k - 1] == '/' then None
    else LastDot(path, k - 1)
  }

  /** `Path.GetExtension` with `/` as the only directory separator: the
      final dot and what follows it, or empty when the last segment has no
      dot or ends with one. */
  function GetExtension(path: string): (r: string)
    ensures r != [] <==> exists i :: ExtensionAt(path, i)
    ensures forall i :: ExtensionAt(path, i) ==> r == path[i..]
  {
    match LastDot(path, |path|)
    case None =>
      assert forall i :: !ExtensionAt(path, i) by {
        forall i | ExtensionAt(path, i) ensures false {
          var m :| i < m < |path| && (path[m] == '.' || path[m] == '/');
        }
      }
      []
    case Some(i) =>
      if i == |path| - 1 then
        assert forall j :: !ExtensionAt(path, j);
        []
      else
        assert ExtensionAt(path, i);
        path[i..]
  }

  /** The content type starts with `image/` in any letter case. */
  predicate ImageContentType(contentType: Option<string>) {
    StartsWith(Lower(contentType.GetOr("")), "image/")
  }

  /** The acceptance test of `SaveProfilePictureAsync`. */
  predicate LooksLikeImage(fileName: string, contentType: Option<string>) {
    var ext := GetExtension(fileName);
    ImageContentType(contentType) || (|ext| > 0 && Lower(ext) in ImageExtensions)
  }

  /** The checking half of `SaveProfilePictureAsync`: the extension the
      stored file keeps, or the "Unsupported image type" error. A picture is
      accepted exactly when its content type starts with `image/` in any
      letter case, or the file name ends in a dot-extension that is one of
      the thirteen image extensions in any letter case. */
  function CheckProfilePicture(fileName: string, contentType: Option<string>): (r: Result<string, Error>)
    ensures r.Success? <==>
              || (contentType.Some? && |contentType.value| >= 6 && Lower(contentType.value[..6]) == "image/")
              || exists i :: ExtensionAt(fileName, i) && Lower(fileName[i..]) in ImageExtensions
    ensures r.Success? ==> r.value == GetExtension(fileName)
    ensures r.Failure? ==> r.error == UnsupportedImageType
  {
    assert contentType.Some? && |contentType.value| >= 6 ==>
             Lower(contentType.value)[..6] == Lower(contentType.value[..6]);
    if LooksLikeImage(fileName, contentType) then Success(GetExtension(fileName))
    else Failure(UnsupportedImageType)
  }

  // ---- user search ----

  function ByUsername(): (User, User) -> bool {
    (a: User, b: User) => LexLe(a.username, b.username)
  }

  lemma ByUsernameIsTotalPreorder()
    ensures TotalPreorder(ByUsername())
  {
    forall a: User, b: User ensures ByUsername()(a, b) || ByUsername()(b, a) {
      LexLeTotal(a.username, b.username);
    }
    forall a: User, b: User, c: User | ByUsername()(a, b) && ByUsername()(b, c)
      ensures ByUsername()(a, c)
    {
      LexLeTransitive(a.username, b.username, c.username);
    }
  }

  /** The search pattern `%term%` matched case-insensitively against the
      user name or the e-mail address. */
  predicate MatchesUser(u: User, term: string) {
    Contains(Lower(u.username), Lower(term)) || Contains(Lower(u.email), Lower(term))
  }

  function UserMatcher(term: string): User -> bool {
    (u: User) => MatchesUser(u, term)
  }

  /** `SearchUsersAsync`: empty for a blank query; otherwise the users whose
      name or e-mail contains the trimmed query ignoring case, ordered by
      user name, at most `take` of them. */
  function SearchUsers(users: seq<User>, query: string, take: int): (r: seq<User>)
    ensures IsBlank(query) ==> r == []
    ensures SortedBy(r, ByUsername())
    ensures |r| <= |users| && (take <= 0 ==> r == []) && (take > 0 ==> |r| <= take)
    ensures forall u :: u in r ==> u in users && MatchesUser(u, Trim(query))
    ensures multiset(r) <= multiset(Filter(users, UserMatcher(Trim(query))))
    ensures !IsBlank(query) && 0 <= take ==>
              var n := Count(users, UserMatcher(Trim(query)));
              |r| == if take < n then take else n
  {
    if IsBlank(query) then []
    else
      ByUsernameIsTotalPreorder();
      var matches := Filter(users, UserMatcher(Trim(query)));
      var sorted := Sort(matches, ByUsername());
      TakeOfSorted(sorted, take, ByUsername());
      assert forall u :: u in Take(sorted, take) ==> u in multiset(sorted);
      Take(sorted, take)
  }

  /** The search returns every match when there are at most `take` of
      them, and otherwise never skips a match whose user name sorts before
      one it returns. */
  lemma SearchUsersKeepsFirstMatches(users: seq<User>, query: string, take: int)
    requires !IsBlank(query)
    ensures var matches := Filter(users, UserMatcher(Trim(query)));
            var r := SearchUsers(users, query, take);
            && multiset(r) <= multiset(matches)
            && (0 <= take ==> |r| == if take < |matches| then take else |matches|)
            && (|matches| <= take ==> multiset(r) == multiset(matches))
            && forall x, y :: x in multiset(matches) - multiset(r) && y in r ==> LexLe(y.username, x.username)
  {
    ByUsernameIsTotalPreorder();
    var matches := Filter(users, UserMatcher(Trim(query)));
    var sorted := Sort(matches, ByUsername());
    var r := SearchUsers(users, query, take);
    assert r == Take(sorted, take);
    TakeOfSorted(sorted, take, ByUsername());
    forall x, y | x in multiset(matches) - multiset(r) && y in r
      ensures LexLe(y.username, x.username)
    {
      assert ByUsername()(y, x);
    }
  }

  /** Of a result of at most one row, a different row is left over. */
  lemma OnlyOtherIsLeft(matches: seq<User>, r: seq<User>, x: User, y: User)
    requires x in matches && |r| <= 1 && y in r && x != y
    ensures x in multiset(matches) - multiset(r)
  {
    assert r == [y];
  }

  /** A one-row search returns a match that no other match sorts strictly
      before. */
  lemma SearchOneIsLeast(users: seq<User>, query: string, x: User, y: User)
    requires !IsBlank(query)
    requires x in users && MatchesUser(x, Trim(query))
    requires y in SearchUsers(users, query, 1) && x != y
    ensures LexLe(y.username, x.username)
  {
    var matches := Filter(users, UserMatcher(Trim(query)));
    assert x in matches;
    var r := SearchUsers(users, query, 1);
    OnlyOtherIsLeft(matches, r, x, y);
    SearchUsersKeepsFirstMatches(users, query, 1);
  }

  /** A one-row search for a query some user matches returns one row, and
      that row is the given match or sorts no later than it. */
  lemma SearchOneSortsFirst(users: seq<User>, query: string, x: User)
    requires !IsBlank(query)
    requires x in users && MatchesUser(x, Trim(query))
    ensures var r := SearchUsers(users, query, 1);
            |r| == 1 && (r[0] == x || LexLe(r[0].username, x.username))
  {
    var r := SearchUsers(users, query, 1);
    assert x in Filter(users, UserMatcher(Trim(query)));
    if r[0] != x {
      SearchOneIsLeast(users, query, x, r[0]);
    }
  }
}

=== FILE: activities.dfy ===
/** `ActivityService`: the activity log, the feed over the follow graph,
    and the cleanup deletes that match a key inside the JSON payload. */
module Activities {
  import opened Wrappers
  import opened Text
  import opened Ordering
  import opened Collections
  import opened Models
  import opened Followers

  /** `OrderByDescending(a => a.CreatedAt)`. */
  function NewestFirst(): (Activity, Activity) -> bool {
    (a: Activity, b: Activity) => a.createdAt >= b.createdAt
  }

  lemma NewestFirstIsTotalPreorder()
    ensures TotalPreorder(NewestFirst())
  {
  }

  /** What `OrderByDescending(a => a.CreatedAt).Take(count)` returns from
      the rows `pool` for a non-negative `count`: newest first, drawn from
      the pool, min(count, size of pool) rows, the whole pool when it fits,
      and no row left out newer than a row kept. */
  predicate IsLatest(pool: multiset<Activity>, count: nat, r: seq<Activity>) {
    && SortedBy(r, NewestFirst())
    && multiset(r) <= pool
    && |r| == (if count < |pool| then count else |pool|)
    && (|pool| <= count ==> multiset(r) == pool)
    && (forall x, y :: x in pool - multiset(r) && y in r ==> y.createdAt >= x.createdAt)
  }

  /** The newest `count` rows of `pool`; none for a `count` of zero. */
  function Latest(pool: seq<Activity>, count: int): (r: seq<Activity>)
    ensures count <= 0 ==> r == []
    ensures 0 <= count ==> IsLatest(multiset(pool), count, r)
  {
    NewestFirstIsTotalPreorder();
    var sorted := Sort(pool, NewestFirst());
    TakeOfSorted(sorted, count, NewestFirst());
    Take(sorted, count)
  }

  /** The rows `Latest` keeps come from the pool, and all of the pool is
      kept when it fits. */
  lemma LatestMembers(pool: seq<Activity>, count: int)
    ensures forall a :: a in Latest(pool, count) ==> a in pool
    ensures |pool| <= count ==> forall a :: a in pool ==> a in Latest(pool, count)
  {
    var r := Latest(pool, count);
    forall a | a in r ensures a in pool {
      assert a in multiset(r);
    }
    if |pool| <= count {
      forall a | a in pool ensures a in r {
        assert a in multiset(pool);
      }
    }
  }

  /** A row of the pool that `Latest` leaves out is no newer than any row
      it keeps. */
  lemma LatestKeepsNewest(pool: seq<Activity>, count: int, x: Activity, y: Activity)
    requires x in pool && x !in Latest(pool, count) && y in Latest(pool, count)
    ensures y.createdAt >= x.createdAt
  {
    var r := Latest(pool, count);
    assert x in multiset(pool) - multiset(r) by {
      assert x in multiset(pool) && x !in multiset(r);
    }
  }

  /** The feed is drawn from the user's own activities and those of the
      users they follow. */
  function ByUserOrFollowed(following: seq<int>, userId: int): Activity -> bool {
    (a: Activity) => a.userId in following || a.userId == userId
  }

  /** The activities the feed may show, stated on the follow graph: those
      of everyone when the user follows nobody, otherwise the user's own and
      those of the users they follow. */
  ghost function FeedEligible(follows: seq<Follow>, userId: int): Activity -> bool {
    (a: Activity) => (exists x :: HasEdge(follows, userId, x)) ==>
                       a.userId == userId || HasEdge(follows, userId, a.userId)
  }

  /** The rows the source's query runs over: the whole log when the list of
      followed ids is empty, otherwise the rows whose user is in that list
      with the user added. */
  function FeedPool(follows: seq<Follow>, activities: seq<Activity>, userId: int): seq<Activity> {
    var following := FollowingIds(follows, userId);
    if |following| == 0 then activities
    else Filter(activities, ByUserOrFollowed(following, userId))
  }

  /** The query's rows are exactly the eligible ones. */
  lemma FeedPoolIsEligible(follows: seq<Follow>, activities: seq<Activity>, userId: int)
    ensures multiset(FeedPool(follows, activities, userId)) == multiset(Filter(activities, FeedEligible(follows, userId)))
  {
    var following := FollowingIds(follows, userId);
    var eligible := Filter(activities, FeedEligible(follows, userId));
    if |following| == 0 {
      assert forall x :: !HasEdge(follows, userId, x) by {
        forall x ensures !HasEdge(follows, userId, x) {
          assert x !in following;
        }
      }
      assert forall a :: multiset(eligible)[a] == multiset(activities)[a];
    } else {
      assert HasEdge(follows, userId, following[0]);
      FilterNarrows(activities, ByUserOrFollowed(following, userId), FeedEligible(follows, userId));
      FilterNarrows(activities, FeedEligible(follows, userId), ByUserOrFollowed(following, userId));
    }
  }

  /** `GetRecentForUserAndFollowingAsync`: the newest `count` eligible
      activities. A negative `count` becomes a negative LIMIT, which the
      database rejects (None). */
  function Feed(follows: seq<Follow>, activities: seq<Activity>, userId: int, count: int): (r: Option<seq<Activity>>)
    ensures r.None? <==> count < 0
    ensures 0 <= count ==> r.Some? && IsLatest(multiset(Filter(activities, FeedEligible(follows, userId))), count, r.value)
  {
    if count < 0 then None
    else
      FeedPoolIsEligible(follows, activities, userId);
      Some(Latest(FeedPool(follows, activities, userId), count))
  }

  /** When the user follows anyone, the feed shows only the user's own
      activities and those of users they follow. */
  lemma FeedShowsOnlyFollowed(follows: seq<Follow>, activities: seq<Activity>, userId: int, count: int, a: Activity)
    requires exists x :: HasEdge(follows, userId, x)
    requires Feed(follows, activities, userId, count).Some? && a in Feed(follows, activities, userId, count).value
    ensures a.userId == userId || HasEdge(follows, userId, a.userId)
  {
    var eligible := Filter(activities, FeedEligible(follows, userId));
    assert a in multiset(Feed(follows, activities, userId, count).value);
    assert a in eligible;
  }

  /** The feed keeps the newest: every eligible activity left out is no
      newer than any activity shown. */
  lemma FeedKeepsNewest(follows: seq<Follow>, activities: seq<Activity>, userId: int, count: int, x: Activity, y: Activity)
    requires x in activities && (x.userId == userId || HasEdge(follows, userId, x.userId))
    requires Feed(follows, activities, userId, count).Some?
    requires x !in Feed(follows, activities, userId, count).value
    requires y in Feed(follows, activities, userId, count).value
    ensures y.createdAt >= x.createdAt
  {
    var r := Feed(follows, activities, userId, count).value;
    var eligible := Filter(activities, FeedEligible(follows, userId));
    assert x in eligible;
    assert x in multiset(eligible) - multiset(r) by {
      assert x in multiset(eligible) && x !in multiset(r);
    }
  }

  function ByUser(userId: int): Activity -> bool {
    (a: Activity) => a.userId == userId
  }

  /** `GetForUserAsync`: the user's newest `count` activities; a negative
      `count` is rejected by the database (None). */
  function ForUser(activities: seq<Activity>, userId: int, count: int): (r: Option<seq<Activity>>)
    ensures r.None? <==> count < 0
    ensures 0 <= count ==> r.Some? && IsLatest(multiset(Filter(activities, ByUser(userId))), count, r.value)
    ensures r.Some? ==> forall a :: a in r.value ==> a in activities && a.userId == userId
    ensures r.Some? && Count(activities, ByUser(userId)) <= count ==>
              forall a :: a in activities && a.userId == userId ==> a in r.value
  {
    if count < 0 then None
    else
      var pool := Filter(activities, ByUser(userId));
      LatestMembers(pool, count);
      Some(Latest(pool, count))
  }

  /** When the whole log is one user's, that user's activities are the
      whole log's: the newest `count` of either are the same list. */
  lemma ForUserOfSoleAuthor(activities: seq<Activity>, userId: int, count: int)
    requires forall a :: a in activities ==> a.userId == userId
    ensures ForUser(activities, userId, count) == GetAll(activities, Some(count))
  {
    FilterKeepsAll(activities, ByUser(userId));
  }

  /** `AddAsync`: the activity is appended with a fresh id; nothing else
      changes. */
  function Add(activities: seq<Activity>, activity: Activity): (r: (seq<Activity>, Activity))
    ensures r.0 == activities + [r.1]
    ensures r.1 == activity.(id := r.1.id)
    ensures forall k :: 0 <= k < |activities| ==> activities[k].id < r.1.id
  {
    var a := activity.(id := NextId(activities, ActivityId));
    (activities + [a], a)
  }

  /** Appending keeps activity ids unique. */
  lemma AddKeepsIdsUnique(activities: seq<Activity>, activity: Activity)
    requires UniqueBy(activities, ActivityId)
    ensures UniqueBy(Add(activities, activity).0, ActivityId)
  {
    var r := Add(activities, activity);
    AppendFreshKeepsUnique(activities, r.1, ActivityId);
  }

  function NotByUser(userId: int): Activity -> bool {
    (a: Activity) => a.userId != userId
  }

  /** `DeleteByUserAsync`: removes exactly the user's activities and
      returns how many there were. */
  function DeleteByUser(activities: seq<Activity>, userId: int): (r: (seq<Activity>, nat))
    ensures forall a :: a in r.0 <==> a in activities && a.userId != userId
    ensures forall a: Activity :: a.userId != userId ==> multiset(r.0)[a] == multiset(activities)[a]
    ensures r.1 == Count(activities, ByUser(userId))
    ensures |r.0| + r.1 == |activities|
  {
    var kept := Filter(activities, NotByUser(userId));
    FilterSplit(activities, NotByUser(userId), ByUser(userId));
    (kept, |activities| - |kept|)
  }

  /** A second `DeleteByUserAsync` for the same user finds nothing left to
      remove. */
  lemma DeleteByUserIdempotent(activities: seq<Activity>, userId: int)
    ensures var once := DeleteByUser(activities, userId).0;
            DeleteByUser(once, userId) == (once, 0)
  {
    FilterKeepsAll(DeleteByUser(activities, userId).0, NotByUser(userId));
  }

  /** The text the cleanup deletes look for: `"<field>":<id>`. */
  function Key(field: string, id: int): string {
    "\"" + field + "\":" + IntToString(id)
  }

  /** The payload is present and contains `key`. */
  function Mentions(key: string): Activity -> bool {
    (a: Activity) => a.data.Some? && Contains(a.data.value, key)
  }

  function Unmentioned(key: string): Activity -> bool {
    (a: Activity) => !(a.data.Some? && Contains(a.data.value, key))
  }

  /** The payload fields the cleanup deletes look for. */
  const SongIdField: string := "SongId"
  const CommentIdField: string := "CommentId"
  const BlogPostIdField: string := "BlogPostId"

  /** `DeleteBySongAsync`, `DeleteByCommentAsync` and `DeleteByBlogPostAsync`,
      which differ only in `field`: removes every activity whose payload
      contains `"<field>":<id>` and returns how many were removed. */
  function DeleteById(activities: seq<Activity>, field: string, id: int): (r: (seq<Activity>, nat))
    ensures forall a :: a in r.0 <==> a in activities && !Mentions(Key(field, id))(a)
    ensures forall a: Activity :: !Mentions(Key(field, id))(a) ==> multiset(r.0)[a] == multiset(activities)[a]
    ensures r.1 == Count(activities, Mentions(Key(field, id)))
    ensures |r.0| + r.1 == |activities|
  {
    var kept := Filter(activities, Unmentioned(Key(field, id)));
    FilterSplit(activities, Unmentioned(Key(field, id)), Mentions(Key(field, id)));
    (kept, |activities| - |kept|)
  }

  /** A second cleanup with the same key finds nothing left to remove. */
  lemma DeleteByIdIdempotent(activities: seq<Activity>, field: string, id: int)
    ensures var once := DeleteById(activities, field, id).0;
            DeleteById(once, field, id) == (once, 0)
  {
    FilterKeepsAll(DeleteById(activities, field, id).0, Unmentioned(Key(field, id)));
  }

  /** The substring match is not anchored: the key of a positive id is a
      prefix of the key of every id with one more digit, so deleting by id
      `n` also deletes what mentions id `10 n + d`. */
  lemma KeyMatchesLongerIds(field: string, n: nat, d: nat, a: Activity)
    requires 1 <= n && d < 10
    requires Mentions(Key(field, 10 * n + d))(a)
    ensures Mentions(Key(field, n))(a)
  {
    NatToStringAppendDigit(n, d);
    assert Key(field, 10 * n + d) == Key(field, n) + [DigitChar(d)];
    ContainsPrefix(a.data.value, Key(field, n), [DigitChar(d)]);
  }

  /** For instance, deleting the activities of song 1 also deletes an
      activity about song 12. */
  lemma DeleteSongOneHitsTwelve(a: Activity)
    requires a.data == Some("{\"SongId\":12}")
    ensures a !in DeleteById([a], SongIdField, 1).0
  {
    var data := a.data.value;
    assert IntToString(12) == "12" && IntToString(1) == "1";
    assert OccursAt(data, Key("SongId", 12), 1);
    KeyMatchesLongerIds("SongId", 1, 2, a);
  }

  /** `GetAllAsync`: every activity newest first, or only the newest
      `count` when a count is given; a negative count is rejected by the
      database (None). */
  function GetAll(activities: seq<Activity>, count: Option<int>): (r: Option<seq<Activity>>)
    ensures r.None? <==> count.Some? && count.value < 0
    ensures count.None? ==> r.Some? && SortedBy(r.value, NewestFirst()) && multiset(r.value) == multiset(activities)
    ensures count.Some? && 0 <= count.value ==> r.Some? && IsLatest(multiset(activities), count.value, r.value)
  {
    match count
    case None =>
      NewestFirstIsTotalPreorder();
      Some(Sort(activities, NewestFirst()))
    case Some(c) => if c < 0 then None else Some(Latest(activities, c))
  }
}

=== FILE: admin.dfy ===
/** `AdminService`: the moderation deletes, each of which first clears the
    activity-log entries that refer to the deleted row, promotion to the
    admin role, and the dashboard listing. `DeleteSongAsync` is the same
    rule as `MusicService.DeleteSongAsync` and is modelled once, by
    `Music.DeleteSong`. A delete the database refuses (another row still
    refers to the deleted one) happens after the activity cleanup has
    already run in its own statement, so the cleanup stays done. */
module Admin {
  import opened Wrappers
  import opened Collections
  import opened Models
  import opened Ordering
  import Activities

  // ---- deletes ----

  /** Rows that still refer to the user and whose foreign key either has
      no delete action (a song's uploader, a comment's author, a blog
      post's author) or restricts deletion (a follow edge at either end). */
  predicate UserReferenced(songs: seq<Song>, comments: seq<Comment>, posts: seq<BlogPost>,
                           follows: seq<Follow>, userId: int) {
    || (exists s :: s in songs && s.userId == Some(userId))
    || (exists c :: c in comments && c.userId == Some(userId))
    || (exists b :: b in posts && b.authorId == Some(userId))
    || (exists f :: f in follows && (f.followerUserId == userId || f.followedUserId == userId))
  }

  /** `DeleteUserAsync` (and `UserService.DeleteUserAsync`, which is the
      same): a missing id gives false and changes nothing. Otherwise the
      user's activities are deleted at once, in their own statement; the
      user row is then removed, unless some row still refers to the user,
      in which case the database refuses the delete and the user stays
      while the activities are already gone. */
  function DeleteUser(users: seq<User>, songs: seq<Song>, comments: seq<Comment>, posts: seq<BlogPost>,
                      follows: seq<Follow>, activities: seq<Activity>, userId: int)
    : (r: (seq<User>, seq<Activity>, Removal))
    ensures r.2 == Missing <==> FindUser(users, userId).None?
    ensures r.2 == Missing ==> r.0 == users && r.1 == activities
    ensures r.2 == Blocked <==> FindUser(users, userId).Some? && UserReferenced(songs, comments, posts, follows, userId)
    ensures r.2 == Blocked ==> r.0 == users
    ensures r.2 == Removed ==> var i := FindUser(users, userId).value;
                               r.0 == users[..i] + users[i + 1..]
    ensures r.2 != Missing ==>
              && (forall a :: a in r.1 <==> a in activities && a.userId != userId)
              && |r.1| + Count(activities, Activities.ByUser(userId)) == |activities|
  {
    match FindUser(users, userId)
    case None => (users, activities, Missing)
    case Some(i) =>
      var cleared := Activities.DeleteByUser(activities, userId).0;
      if UserReferenced(songs, comments, posts, follows, userId) then (users, cleared, Blocked)
      else (users[..i] + users[i + 1..], cleared, Removed)
  }

  /** With unique user ids a successful delete leaves the user impossible
      to find and every other user in place; a refused one leaves the user
      table as it was. */
  lemma DeleteUserRemovesOnlyThatUser(users: seq<User>, songs: seq<Song>, comments: seq<Comment>,
                                      posts: seq<BlogPost>, follows: seq<Follow>, activities: seq<Activity>,
                                      userId: int)
    requires UniqueBy(users, UserId)
    ensures var r := DeleteUser(users, songs, comments, posts, follows, activities, userId);
            && (r.2 == Removed ==> FindUser(r.0, userId).None?
                                   && forall u :: u in users && u.id != userId ==> u in r.0)
            && (r.2 != Removed ==> r.0 == users)
  {
    match FindUser(users, userId)
    case None =>
    case Some(i) => RemoveAtKeepsOthers(users, UserId, i);
  }

  /** A refused delete has still emptied the user's activity log, so
      trying again is refused the same way and changes nothing more. */
  lemma DeleteUserRetryAfterRefusal(users: seq<User>, songs: seq<Song>, comments: seq<Comment>,
                                    posts: seq<BlogPost>, follows: seq<Follow>, activities: seq<Activity>,
                                    userId: int)
    requires DeleteUser(users, songs, comments, posts, follows, activities, userId).2 == Blocked
    ensures var r := DeleteUser(users, songs, comments, posts, follows, activities, userId);
            DeleteUser(r.0, songs, comments, posts, follows, r.1, userId) == r
  {
    Activities.DeleteByUserIdempotent(activities, userId);
  }

  /** For instance, a user who follows someone cannot be deleted, yet their
      activity is deleted all the same. */
  lemma FollowerDeleteLosesActivity(u: User, a: Activity, f: Follow)
    requires a.userId == u.id && f.followerUserId == u.id
    ensures DeleteUser([u], [], [], [], [f], [a], u.id) == ([u], [], Blocked)
  {
    assert f in [f];
    assert a !in DeleteUser([u], [], [], [], [f], [a], u.id).1;
  }

  function FindComment(comments: seq<Comment>, id: int): Option<nat> {
    FirstIndex(comments, (c: Comment) => c.id == id)
  }

  function FindBlogPost(posts: seq<BlogPost>, id: int): Option<nat> {
    FirstIndex(posts, (b: BlogPost) => b.id == id)
  }

  /** `DeleteCommentAsync`: a missing id gives false and changes nothing;
      otherwise the comment row and every activity whose payload mentions
      `"CommentId":<id>` are removed. */
  function DeleteComment(comments: seq<Comment>, activities: seq<Activity>, commentId: int)
    : (r: (seq<Comment>, seq<Activity>, bool))
    ensures FindComment(comments, commentId).None? ==> r == (comments, activities, false)
    ensures FindComment(comments, commentId).Some? ==>
              var i := FindComment(comments, commentId).value;
              && r.2
              && r.0 == comments[..i] + comments[i + 1..]
              && forall a :: a in r.1 <==> a in activities && !Activities.Mentions(Activities.Key("CommentId", commentId))(a)
  {
    match FindComment(comments, commentId)
    case None => (comments, activities, false)
    case Some(i) => (comments[..i] + comments[i + 1..], Activities.DeleteById(activities, Activities.CommentIdField, commentId).0, true)
  }

  /** A comment still refers to the blog post (the foreign key has no
      delete action). */
  predicate PostCommented(comments: seq<Comment>, blogPostId: int) {
    exists c :: c in comments && c.blogPostId == Some(blogPostId)
  }

  /** `DeleteBlogPostAsync`: a missing id gives false and changes nothing.
      Otherwise every activity whose payload mentions `"BlogPostId":<id>` is
      deleted at once; the post is then removed, unless a comment still
      refers to it, in which case the database refuses the delete and the
      post stays while those activities are already gone. */
  function DeleteBlogPost(posts: seq<BlogPost>, comments: seq<Comment>, activities: seq<Activity>, blogPostId: int)
    : (r: (seq<BlogPost>, seq<Activity>, Removal))
    ensures r.2 == Missing <==> FindBlogPost(posts, blogPostId).None?
    ensures r.2 == Missing ==> r.0 == posts && r.1 == activities
    ensures r.2 == Blocked <==> FindBlogPost(posts, blogPostId).Some? && PostCommented(comments, blogPostId)
    ensures r.2 == Blocked ==> r.0 == posts
    ensures r.2 == Removed ==> var i := FindBlogPost(posts, blogPostId).value;
                               r.0 == posts[..i] + posts[i + 1..]
    ensures r.2 != Missing ==>
              forall a :: a in r.1 <==> a in activities && !Activities.Mentions(Activities.Key("BlogPostId", blogPostId))(a)
  {
    match FindBlogPost(posts, blogPostId)
    case None => (posts, activities, Missing)
    case Some(i) =>
      var cleared := Activities.DeleteById(activities, Activities.BlogPostIdField, blogPostId).0;
      if PostCommented(comments, blogPostId) then (posts, cleared, Blocked)
      else (posts[..i] + posts[i + 1..], cleared, Removed)
  }

  /** With unique post ids a successful delete leaves the post impossible
      to find and every other post in place; a refused one leaves the post
      table as it was, and trying again changes nothing more. */
  lemma DeleteBlogPostRemovesOnlyThatPost(posts: seq<BlogPost>, comments: seq<Comment>, activities: seq<Activity>,
                                          blogPostId: int)
    requires UniqueBy(posts, BlogPostId)
    ensures var r := DeleteBlogPost(posts, comments, activities, blogPostId);
            && (r.2 == Removed ==> FindBlogPost(r.0, blogPostId).None?
                                   && forall b :: b in posts && b.id != blogPostId ==> b in r.0)
            && (r.2 == Blocked ==> r.0 == posts && DeleteBlogPost(r.0, comments, r.1, blogPostId) == r)
  {
    match FindBlogPost(posts, blogPostId)
    case None =>
    case Some(i) =>
      if PostCommented(comments, blogPostId) {
        Activities.DeleteByIdIdempotent(activities, Activities.BlogPostIdField, blogPostId);
      } else {
        RemoveAtKeepsOthers(posts, BlogPostId, i);
      }
  }

  /** Deleting twice: the second call finds nothing when ids are unique,
      so it reports false and changes nothing. */
  lemma DeleteCommentTwice(comments: seq<Comment>, activities: seq<Activity>, commentId: int)
    requires UniqueBy(comments, CommentId)
    requires FindComment(comments, commentId).Some?
    ensures var first := DeleteComment(comments, activities, commentId);
            DeleteComment(first.0, first.1, commentId) == (first.0, first.1, false)
  {
    var i := FindComment(comments, commentId).value;
    RemoveAtDropsKey(comments, CommentId, i);
    assert RemoveAt(comments, i) == comments[..i] + comments[i + 1..];
  }

  // ---- promotion ----

  /** `PromoteUserToAdminAsync`: a missing id gives false; otherwise that
      user's role becomes admin and nothing else changes. */
  function PromoteUserToAdmin(users: seq<User>, userId: int): (r: (seq<User>, bool))
    ensures r.1 <==> FindUser(users, userId).Some?
    ensures !r.1 ==> r.0 == users
    ensures r.1 ==> var i := FindUser(users, userId).value;
                    r.0 == users[i := users[i].(role := Admin)]
  {
    match FindUser(users, userId)
    case None => (users, false)
    case Some(i) => (users[i := users[i].(role := Admin)], true)
  }

  /** Promoting twice is the same as promoting once. */
  lemma PromoteIdempotent(users: seq<User>, userId: int)
    ensures var once := PromoteUserToAdmin(users, userId);
            PromoteUserToAdmin(once.0, userId) == once
  {
    var once := PromoteUserToAdmin(users, userId);
    match FindUser(users, userId)
    case None =>
    case Some(i) =>
      assert once.0[i].id == userId;
      assert forall k :: 0 <= k < i ==> once.0[k] == users[k];
      assert FindUser(once.0, userId) == Some(i);
      assert once.0[i].(role := Admin) == once.0[i];
      assert once.0[i := once.0[i]] == once.0;
  }

  // ---- dashboard ----

  /** The comment as the dashboard shows it. */
  datatype AdminComment = AdminComment(
    id: int,
    songId: Option<int>,
    blogPostId: Option<int>,
    commentText: string,
    isAnonymous: bool,
    createdAt: int,
    userId: Option<int>,
    username: Option<string>)

  /** An anonymous comment never shows a user name, even when it is linked
      to a user; otherwise the name of the linked user, if any, is shown. */
  function ShowComment(users: seq<User>, c: Comment): (r: AdminComment)
    ensures r.id == c.id && r.songId == c.songId && r.blogPostId == c.blogPostId
    ensures r.commentText == c.commentText && r.isAnonymous == c.isAnonymous
    ensures r.createdAt == c.createdAt && r.userId == c.userId
    ensures c.isAnonymous ==> r.username.None?
    ensures !c.isAnonymous ==>
              (r.username.Some? <==> c.userId.Some? && FindUser(users, c.userId.value).Some?)
    ensures r.username.Some? ==> exists u :: u in users && Some(u.id) == c.userId && u.username == r.username.value
  {
    var name :=
      if c.isAnonymous then None
      else if c.userId.Some? && FindUser(users, c.userId.value).Some?
      then Some(users[FindUser(users, c.userId.value).value].username)
      else None;
    AdminComment(c.id, c.songId, c.blogPostId, c.commentText, c.isAnonymous, c.createdAt, c.userId, name)
  }

  /** `OrderByDescending(x => x.Id)`. */
  function IdDescending<T>(key: T -> int): (T, T) -> bool {
    (a: T, b: T) => key(a) >= key(b)
  }

  lemma IdDescendingIsTotalPreorder<T(!new)>(key: T -> int)
    ensures TotalPreorder(IdDescending(key))
  {
  }

  function CommentIdDescending(): (Comment, Comment) -> bool {
    (a: Comment, b: Comment) => a.id >= b.id
  }

  lemma CommentIdDescendingIsTotalPreorder()
    ensures TotalPreorder(CommentIdDescending())
  {
  }

  /** `shown` is the comment table rearranged highest id first, each
      comment in its dashboard form. */
  ghost predicate ShowsByIdDescending(users: seq<User>, comments: seq<Comment>, shown: seq<AdminComment>) {
    && (forall i, j :: 0 <= i < j < |shown| ==> shown[i].id >= shown[j].id)
    && exists p: seq<Comment> ::
         && multiset(p) == multiset(comments)
         && |p| == |shown|
         && forall i :: 0 <= i < |shown| ==> shown[i] == ShowComment(users, p[i])
  }

  /** The dashboard's comment list. */
  function DashboardComments(users: seq<User>, comments: seq<Comment>): (r: seq<AdminComment>)
    ensures |r| == |comments|
    ensures ShowsByIdDescending(users, comments, r)
  {
    CommentIdDescendingIsTotalPreorder();
    var sorted := Sort(comments, CommentIdDescending());
    var r := seq(|sorted|, i requires 0 <= i < |sorted| => ShowComment(users, sorted[i]));
    assert forall i :: 0 <= i < |r| ==> r[i].id == sorted[i].id;
    assert forall i :: 0 <= i < |r| ==> r[i] == ShowComment(users, sorted[i]);
    r
  }

  /** In a list of that form every entry shows some stored comment, and
      every stored comment is shown. */
  lemma DashboardCommentsShowStored(users: seq<User>, comments: seq<Comment>, shown: seq<AdminComment>)
    requires ShowsByIdDescending(users, comments, shown)
    ensures forall a :: a in shown ==> exists c :: c in comments && a == ShowComment(users, c)
    ensures forall c :: c in comments ==> ShowComment(users, c) in shown
  {
    var p: seq<Comment> :| multiset(p) == multiset(comments) && |p| == |shown|
                           && forall i :: 0 <= i < |shown| ==> shown[i] == ShowComment(users, p[i]);
    forall a | a in shown
      ensures exists c :: c in comments && a == ShowComment(users, c)
    {
      var i :| 0 <= i < |shown| && shown[i] == a;
      assert p[i] in multiset(comments);
    }
    forall c | c in comments
      ensures ShowComment(users, c) in shown
    {
      assert c in multiset(p);
      var i :| 0 <= i < |p| && p[i] == c;
      assert shown[i] == ShowComment(users, c);
    }
  }

  datatype Dashboard = Dashboard(
    users: seq<User>,
    songs: seq<Song>,
    comments: seq<AdminComment>,
    activities: seq<Activity>,
    blogPosts: seq<BlogPost>)

  /** `GetDashboardAsync`: every table, highest id first; comments in their
      dashboard form. */
  function GetDashboard(users: seq<User>, songs: seq<Song>, comments: seq<Comment>, activities: seq<Activity>,
                        posts: seq<BlogPost>): (r: Dashboard)
    ensures SortedBy(r.users, IdDescending(UserId)) && multiset(r.users) == multiset(users)
    ensures SortedBy(r.songs, IdDescending(SongId)) && multiset(r.songs) == multiset(songs)
    ensures SortedBy(r.activities, IdDescending(ActivityId)) && multiset(r.activities) == multiset(activities)
    ensures SortedBy(r.blogPosts, IdDescending(BlogPostId)) && multiset(r.blogPosts) == multiset(posts)
    ensures ShowsByIdDescending(users, comments, r.comments)
  {
    IdDescendingIsTotalPreorder(UserId);
    IdDescendingIsTotalPreorder(SongId);
    IdDescendingIsTotalPreorder(ActivityId);
    IdDescendingIsTotalPreorder(BlogPostId);
    Dashboard(Sort(users, IdDescending(UserId)), Sort(songs, IdDescending(SongId)),
              DashboardComments(users, comments),
              Sort(activities, IdDescending(ActivityId)), Sort(posts, IdDescending(BlogPostId)))
  }

  /** The dashboard leaves nothing out and adds nothing: each list holds
      exactly the rows of its table, comments in their dashboard form. */
  lemma GetDashboardComplete(users: seq<User>, songs: seq<Song>, comments: seq<Comment>, activities: seq<Activity>,
                             posts: seq<BlogPost>)
    ensures var d := GetDashboard(users, songs, comments, activities, posts);
            && (forall u :: u in d.users <==> u in users)
            && (forall s :: s in d.songs <==> s in songs)
            && (forall a :: a in d.activities <==> a in activities)
            && (forall b :: b in d.blogPosts <==> b in posts)
            && (forall c :: c in comments ==> ShowComment(users, c) in d.comments)
            && (forall a :: a in d.comments ==> exists c :: c in comments && a == ShowComment(users, c))
  {
    var d := GetDashboard(users, songs, comments, activities, posts);
    assert forall u :: u in d.users <==> u in multiset(users);
    assert forall s :: s in d.songs <==> s in multiset(songs);
    assert forall a :: a in d.activities <==> a in multiset(activities);
    assert forall b :: b in d.blogPosts <==> b in multiset(posts);
    DashboardCommentsShowStored(users, comments, d.comments);
  }
}

=== FILE: collections.dfy ===
/** The LINQ shapes the services apply to a table: `Where`, `Count`,
    `FirstOrDefault`, `Any`, removal of one row and the identity value the
    database assigns to a new row. A table is a sequence of rows in the
    order the database returns them. */
module Collections {
  import opened Wrappers

  /** `Where(p)`: the rows satisfying `p`, each with its multiplicity, in
      table order. */
  function Filter<T(!new)>(s: seq<T>, p: T -> bool): (r: seq<T>)
    ensures |r| <= |s|
    ensures forall x :: x in r <==> x in s && p(x)
    ensures forall x :: multiset(r)[x] == if p(x) then multiset(s)[x] else 0
    decreases |s|
  {
    if |s| == 0 then []
    else
      var init := s[..|s| - 1];
      assert s == init + [s[|s| - 1]];
      Filter(init, p) + (if p(s[|s| - 1]) then [s[|s| - 1]] else [])
  }

  /** `Count(p)`. */
  function Count<T(!new)>(s: seq<T>, p: T -> bool): nat {
    |Filter(s, p)|
  }

  /** Counting rows under a weaker condition never gives less. */
  lemma {:induction false} CountMonotone<T(!new)>(s: seq<T>, p: T -> bool, q: T -> bool)
    requires forall x :: x in s && p(x) ==> q(x)
    ensures Count(s, p) <= Count(s, q)
    decreases |s|
  {
    if |s| > 0 {
      var init := s[..|s| - 1];
      assert forall x :: x in init ==> x in s;
      CountMonotone(init, p, q);
    }
  }

  /** Appending one row adds one to every count whose condition it meets. */
  lemma CountAppend<T(!new)>(s: seq<T>, x: T, p: T -> bool)
    ensures Count(s + [x], p) == Count(s, p) + (if p(x) then 1 else 0)
  {
    assert (s + [x])[..|s|] == s;
  }

  /** Every row satisfies exactly one of a condition and its negation, so
      the two `Where`s share the table out between them. */
  lemma {:induction false} FilterSplit<T(!new)>(s: seq<T>, p: T -> bool, q: T -> bool)
    requires forall x :: q(x) == !p(x)
    ensures |Filter(s, p)| + |Filter(s, q)| == |s|
    decreases |s|
  {
    if |s| > 0 {
      FilterSplit(s[..|s| - 1], p, q);
    }
  }

  /** A non-empty sequence is its prefix without the last element followed
      by that element. */
  lemma InitThenLast<T>(s: seq<T>)
    requires |s| > 0
    ensures s[..|s| - 1] + [s[|s| - 1]] == s
  {
  }

  /** A `Where` that every row already passes keeps the table as it is. */
  lemma {:induction false} FilterKeepsAll<T(!new)>(s: seq<T>, p: T -> bool)
    requires forall x :: x in s ==> p(x)
    ensures Filter(s, p) == s
    decreases |s|
  {
    if |s| > 0 {
      var init := s[..|s| - 1];
      forall x | x in init
        ensures p(x)
      {
        var k :| 0 <= k < |init| && init[k] == x;
        assert s[k] == x;
      }
      FilterKeepsAll(init, p);
      assert Filter(s, p) == init + [s[|s| - 1]];
      InitThenLast(s);
    }
  }

  /** A stronger condition keeps a sub-multiset of the rows. */
  lemma FilterNarrows<T(!new)>(s: seq<T>, p: T -> bool, q: T -> bool)
    requires forall x :: p(x) ==> q(x)
    ensures multiset(Filter(s, p)) <= multiset(Filter(s, q))
  {
  }

  /** `FirstOrDefault(p)` as a position: the first row satisfying `p`. */
  function FirstIndex<T>(s: seq<T>, p: T -> bool): (r: Option<nat>)
    ensures r.Some? ==> r.value < |s| && p(s[r.value])
                        && forall k :: 0 <= k < r.value ==> !p(s[k])
    ensures r.None? <==> forall k :: 0 <= k < |s| ==> !p(s[k])
    decreases |s|
  {
    if |s| == 0 then None
    else if p(s[0]) then Some(0)
    else
      match FirstIndex(s[1..], p)
      case None => None
      case Some(k) => Some(k + 1)
  }

  /** The table without the row at position `i`. */
  function RemoveAt<T>(s: seq<T>, i: nat): (r: seq<T>)
    requires i < |s|
    ensures |r| == |s| - 1
    ensures multiset(r) == multiset(s) - multiset{s[i]}
  {
    assert s == s[..i] + [s[i]] + s[i + 1..];
    s[..i] + s[i + 1..]
  }

  /** No two rows share a key. */
  predicate UniqueBy<T>(s: seq<T>, key: T -> int) {
    forall i, j :: 0 <= i < j < |s| ==> key(s[i]) != key(s[j])
  }

  /** Removing the row at `i` from a table with unique keys removes its
      key. */
  lemma RemoveAtDropsKey<T>(s: seq<T>, key: T -> int, i: nat)
    requires UniqueBy(s, key) && i < |s|
    ensures forall k :: 0 <= k < |RemoveAt(s, i)| ==> key(RemoveAt(s, i)[k]) != key(s[i])
  {
    var r := RemoveAt(s, i);
    forall k | 0 <= k < |r|
      ensures key(r[k]) != key(s[i])
    {
      if k < i {
        assert r[k] == s[k];
      } else {
        assert r[k] == s[k + 1];
      }
    }
  }

  /** Removing the row at `i` from a table with unique keys leaves no row
      with its key and every row with another key. */
  lemma RemoveAtKeepsOthers<T>(s: seq<T>, key: T -> int, i: nat)
    requires UniqueBy(s, key) && i < |s|
    ensures var rest := s[..i] + s[i + 1..];
            && (forall k :: 0 <= k < |rest| ==> key(rest[k]) != key(s[i]))
            && (forall x :: x in s && key(x) != key(s[i]) ==> x in rest)
  {
    RemoveAtDropsKey(s, key, i);
    assert RemoveAt(s, i) == s[..i] + s[i + 1..];
    assert s == s[..i] + [s[i]] + s[i + 1..];
  }

  /** The identity value for a new row: above every key in use. */
  function NextId<T>(s: seq<T>, key: T -> int): (r: int)
    ensures r >= 1
    ensures forall k :: 0 <= k < |s| ==> key(s[k]) < r
    decreases |s|
  {
    if |s| == 0 then 1
    else
      var rest := NextId(s[1..], key);
      assert forall k :: 1 <= k < |s| ==> s[k] == s[1..][k - 1];
      if key(s[0]) < rest then rest else key(s[0]) + 1
  }

  /** Appending a row whose key is fresh keeps keys unique. */
  lemma AppendFreshKeepsUnique<T>(s: seq<T>, x: T, key: T -> int)
    requires UniqueBy(s, key)
    requires forall k :: 0 <= k < |s| ==> key(s[k]) < key(x)
    ensures UniqueBy(s + [x], key)
  {
  }

  // ---- Dictionary<int, T>.TryAdd over a sequence ----

  /** The first position whose key is `k` (`ContainsKey` when present). */
  function KeyIndex<T>(s: seq<T>, key: T -> int, k: int): (r: Option<nat>)
    ensures r.Some? ==> r.value < |s| && key(s[r.value]) == k
                        && forall j :: 0 <= j < r.value ==> key(s[j]) != k
    ensures r.None? <==> forall j :: 0 <= j < |s| ==> key(s[j]) != k
  {
    FirstIndex(s, (x: T) => key(x) == k)
  }

  /** `x` is the first row of `s` carrying its key. */
  predicate FirstOfKey<T(==)>(s: seq<T>, key: T -> int, x: T) {
    KeyIndex(s, key, key(x)).Some? && s[KeyIndex(s, key, key(x)).value] == x
  }

  /** A first occurrence in a prefix stays the first occurrence. */
  lemma FirstOfKeyExtends<T>(s: seq<T>, key: T -> int, i: nat, x: T)
    requires i < |s|
    requires FirstOfKey(s[..i], key, x)
    ensures FirstOfKey(s[..i + 1], key, x)
  {
    var f := KeyIndex(s[..i], key, key(x)).value;
    assert s[..i + 1][f] == s[..i][f];
    assert forall j :: 0 <= j < f ==> s[..i + 1][j] == s[..i][j];
  }

  /** `TryAdd(key(x), x)`: the row is added unless its key is present. */
  function TryAdd<T>(r: seq<T>, key: T -> int, x: T): (r': seq<T>)
    ensures KeyIndex(r', key, key(x)).Some?
    ensures KeyIndex(r, key, key(x)).Some? ==> r' == r
    ensures KeyIndex(r, key, key(x)).None? ==> r' == r + [x]
  {
    if KeyIndex(r, key, key(x)).None? then
      assert (r + [x])[|r|] == x;
      r + [x]
    else r
  }

  /** Adding never loses a key already present. */
  lemma TryAddKeepsKeys<T>(r: seq<T>, key: T -> int, x: T, k: int)
    requires KeyIndex(r, key, k).Some?
    ensures KeyIndex(TryAdd(r, key, x), key, k).Some?
  {
    if KeyIndex(r, key, key(x)).None? {
      assert (r + [x])[KeyIndex(r, key, k).value] == r[KeyIndex(r, key, k).value];
    }
  }

  /** What the dictionary holds after the first `i` rows. */
  predicate DistinctSoFar<T(==)>(s: seq<T>, key: T -> int, i: nat, r: seq<T>)
    requires i <= |s|
  {
    && UniqueBy(r, key)
    && (forall j :: 0 <= j < |r| ==> FirstOfKey(s[..i], key, r[j]))
    && (forall k :: 0 <= k < i ==> KeyIndex(r, key, key(s[k])).Some?)
  }

  /** A row whose key is not yet present is the first of its key so far. */
  lemma NewKeyIsFirst<T>(s: seq<T>, key: T -> int, i: nat, r: seq<T>)
    requires i < |s| && DistinctSoFar(s, key, i, r)
    requires KeyIndex(r, key, key(s[i])).None?
    ensures FirstOfKey(s[..i + 1], key, s[i])
  {
    assert forall k :: 0 <= k < i ==> key(s[k]) != key(s[i]);
    assert s[..i + 1][i] == s[i];
    assert forall k :: 0 <= k < i ==> s[..i + 1][k] == s[k];
  }

  /** Adding under a fresh key keeps the keys unique. */
  lemma TryAddKeepsUnique<T>(r: seq<T>, key: T -> int, x: T)
    requires UniqueBy(r, key)
    ensures UniqueBy(TryAdd(r, key, x), key)
  {
    if KeyIndex(r, key, key(x)).None? {
      var r' := r + [x];
      forall i, j | 0 <= i < j < |r'| ensures key(r'[i]) != key(r'[j]) {
        if j == |r| {
          assert r'[i] == r[i];
        } else {
          assert r'[i] == r[i] && r'[j] == r[j];
        }
      }
    }
  }

  /** Every row kept so far stays the first of its key one row later. */
  lemma KeptStayFirst<T>(s: seq<T>, key: T -> int, i: nat, r: seq<T>)
    requires i < |s|
    requires forall j :: 0 <= j < |r| ==> FirstOfKey(s[..i], key, r[j])
    ensures forall j :: 0 <= j < |r| ==> FirstOfKey(s[..i + 1], key, r[j])
  {
    forall j | 0 <= j < |r|
      ensures FirstOfKey(s[..i + 1], key, r[j])
    {
      FirstOfKeyExtends(s, key, i, r[j]);
    }
  }

  /** Every key seen so far, and the new row's, is present after the add. */
  lemma SeenKeysPresent<T>(s: seq<T>, key: T -> int, i: nat, r: seq<T>)
    requires i < |s|
    requires forall k :: 0 <= k < i ==> KeyIndex(r, key, key(s[k])).Some?
    ensures forall k :: 0 <= k <= i ==> KeyIndex(TryAdd(r, key, s[i]), key, key(s[k])).Some?
  {
    forall k | 0 <= k <= i
      ensures KeyIndex(TryAdd(r, key, s[i]), key, key(s[k])).Some?
    {
      if k < i {
        TryAddKeepsKeys(r, key, s[i], key(s[k]));
      }
    }
  }

  lemma DistinctStep<T>(s: seq<T>, key: T -> int, i: nat, r: seq<T>)
    requires i < |s| && DistinctSoFar(s, key, i, r)
    ensures DistinctSoFar(s, key, i + 1, TryAdd(r, key, s[i]))
  {
    TryAddKeepsUnique(r, key, s[i]);
    KeptStayFirst(s, key, i, r);
    SeenKeysPresent(s, key, i, r);
    if KeyIndex(r, key, key(s[i])).None? {
      NewKeyIsFirst(s, key, i, r);
      var r' := r + [s[i]];
      assert r'[|r|] == s[i];
      assert forall j :: 0 <= j < |r| ==> r'[j] == r[j];
    }
  }

  lemma DistinctPrefix<T>(s: seq<T>, key: T -> int, i: nat, r: seq<T>)
    requires i <= |s|
    requires UniqueBy(r, key)
    requires forall j :: 0 <= j < |r| ==> FirstOfKey(s[..i], key, r[j])
    requires forall k :: 0 <= k < |s[..i]| ==> KeyIndex(r, key, key(s[..i][k])).Some?
    ensures DistinctSoFar(s, key, i, r)
  {
    forall k | 0 <= k < i
      ensures KeyIndex(r, key, key(s[k])).Some?
    {
      assert s[..i][k] == s[k];
    }
  }

  lemma DistinctAll<T>(s: seq<T>, key: T -> int, r: seq<T>)
    requires DistinctSoFar(s, key, |s|, r)
    ensures UniqueBy(r, key)
    ensures forall j :: 0 <= j < |r| ==> FirstOfKey(s, key, r[j])
    ensures forall k :: 0 <= k < |s| ==> KeyIndex(r, key, key(s[k])).Some?
  {
    assert s[..|s|] == s;
  }

  /** Every row `TryAdd`-ed into a dictionary in turn, read back in
      insertion order: the first row for each key, in order of first
      appearance. */
  function DistinctBy<T>(s: seq<T>, key: T -> int): (r: seq<T>)
    ensures UniqueBy(r, key)
    ensures forall j :: 0 <= j < |r| ==> FirstOfKey(s, key, r[j])
    ensures forall k :: 0 <= k < |s| ==> KeyIndex(r, key, key(s[k])).Some?
    decreases |s|
  {
    if |s| == 0 then []
    else
      var i := |s| - 1;
      var prev := DistinctBy(s[..i], key);
      DistinctPrefix(s, key, i, prev);
      DistinctStep(s, key, i, prev);
      DistinctAll(s, key, TryAdd(prev, key, s[i]));
      TryAdd(prev, key, s[i])
  }

  /** When the rows come from a table with unique keys, merging by key
      keeps every row. */
  lemma DistinctKeepsRow<T>(table: seq<T>, s: seq<T>, key: T -> int, x: T)
    requires UniqueBy(table, key)
    requires forall c :: c in s ==> c in table
    requires x in s
    ensures x in DistinctBy(s, key)
  {
    var r := DistinctBy(s, key);
    var k :| 0 <= k < |s| && s[k] == x;
    var p := KeyIndex(r, key, key(s[k])).value;
    assert FirstOfKey(s, key, r[p]);
    var f := KeyIndex(s, key, key(r[p])).value;
    assert s[f] == r[p] && s[f] in s;
    assert r[p] in table;
    var a :| 0 <= a < |table| && table[a] == r[p];
    var b :| 0 <= b < |table| && table[b] == x;
    assert key(table[a]) == key(table[b]);
    assert a == b;
  }

  /** A row occurs at most once in a table with unique keys. */
  lemma UniqueOccursOnce<T>(b: seq<T>, key: T -> int, p: nat)
    requires UniqueBy(b, key) && p < |b|
    ensures multiset(b)[b[p]] == 1
  {
    assert b == b[..p] + [b[p]] + b[p + 1..];
    assert b[p] !in b[..p] by {
      assert forall k :: 0 <= k < p ==> b[..p][k] == b[k];
    }
    var tail := b[p + 1..];
    assert b[p] !in tail by {
      forall k | 0 <= k < |tail|
        ensures tail[k] != b[p]
      {
        assert tail[k] == b[p + 1 + k];
      }
    }
  }

  lemma TwoOccurrences<T>(a: seq<T>, i: nat, j: nat)
    requires i < j < |a| && a[i] == a[j]
    ensures multiset(a)[a[j]] >= 2
  {
    assert a == a[..j] + [a[j]] + a[j + 1..];
    assert a[..j][i] == a[i];
  }

  /** Picking rows out of a table with unique keys keeps them unique. */
  lemma {:induction false} SubmultisetKeepsUnique<T>(a: seq<T>, b: seq<T>, key: T -> int)
    requires UniqueBy(b, key)
    requires multiset(a) <= multiset(b)
    ensures UniqueBy(a, key)
  {
    forall i, j | 0 <= i < j < |a|
      ensures key(a[i]) != key(a[j])
    {
      if key(a[i]) == key(a[j]) {
        assert a[i] in multiset(b) && a[j] in multiset(b);
        var p :| 0 <= p < |b| && b[p] == a[i];
        var q :| 0 <= q < |b| && b[q] == a[j];
        assert p == q;
        TwoOccurrences(a, i, j);
        UniqueOccursOnce(b, key, p);
        assert false;
      }
    }
  }
}

=== FILE: comments.dfy ===
/** `CommentService`: song comments newest first, adding, and the
    owner-or-admin delete rule with nullable owners. */
module Comments {
  import opened Wrappers
  import opened Ordering
  import opened Collections
  import opened Models

  function NewestFirst(): (Comment, Comment) -> bool {
    (a: Comment, b: Comment) => a.createdAt >= b.createdAt
  }

  function OnSong(songId: int): Comment -> bool {
    (c: Comment) => c.songId == Some(songId)
  }

  /** `GetCommentsBySongAsync`: exactly the song's comments, each as often
      as stored, newest first. */
  function BySong(comments: seq<Comment>, songId: int): (r: seq<Comment>)
    ensures SortedBy(r, NewestFirst())
    ensures forall c :: c in r <==> c in comments && c.songId == Some(songId)
    ensures forall c :: multiset(r)[c] == if c.songId == Some(songId) then multiset(comments)[c] else 0
  {
    assert TotalPreorder(NewestFirst());
    var r := Sort(Filter(comments, OnSong(songId)), NewestFirst());
    assert forall c :: c in r <==> c in multiset(Filter(comments, OnSong(songId)));
    r
  }

  /** `AddCommentAsync`: appends the comment under a fresh id. */
  function Add(comments: seq<Comment>, comment: Comment): (r: (seq<Comment>, Comment))
    ensures r.0 == comments + [r.1]
    ensures r.1 == comment.(id := r.1.id)
    ensures forall k :: 0 <= k < |comments| ==> comments[k].id < r.1.id
  {
    var c := comment.(id := NextId(comments, CommentId));
    (comments + [c], c)
  }

  /** `DeleteCommentAsync`: a missing id gives false; otherwise an admin may
      delete any comment and anyone else only one whose owner equals the
      caller under nullable equality, so an absent caller id may delete a
      comment that has no owner. Only that comment is removed. */
  function Delete(comments: seq<Comment>, commentId: int, userId: Option<int>, isAdmin: bool): (r: (seq<Comment>, bool))
    ensures FirstIndex(comments, (c: Comment) => c.id == commentId).None? ==> r == (comments, false)
    ensures FirstIndex(comments, (c: Comment) => c.id == commentId).Some? ==>
              var i := FirstIndex(comments, (c: Comment) => c.id == commentId).value;
              && (r.1 <==> isAdmin || comments[i].userId == userId)
              && (!r.1 ==> r.0 == comments)
              && (r.1 ==> r.0 == comments[..i] + comments[i + 1..] && multiset(r.0) == multiset(comments) - multiset{comments[i]})
  {
    match FirstIndex(comments, (c: Comment) => c.id == commentId)
    case None => (comments, false)
    case Some(i) =>
      if !isAdmin && comments[i].userId != userId then (comments, false)
      else
        assert comments == comments[..i] + [comments[i]] + comments[i + 1..];
        (comments[..i] + comments[i + 1..], true)
  }

  /** The nullable comparison lets a caller without an id delete a comment
      without an owner, which the rating rule never allows. */
  lemma AnonymousDeletesOwnerlessComment(c: Comment)
    requires c.userId.None?
    ensures Delete([c], c.id, None, false) == ([], true)
  {
  }

  /** Appending keeps comment ids unique. */
  lemma AddKeepsIdsUnique(comments: seq<Comment>, comment: Comment)
    requires UniqueBy(comments, CommentId)
    ensures UniqueBy(Add(comments, comment).0, CommentId)
  {
    var r := Add(comments, comment);
    AppendFreshKeepsUnique(comments, r.1, CommentId);
  }

  /** An admin deleting the comment just added restores the table: the
      fresh id belongs to no older comment. */
  lemma AddThenDelete(comments: seq<Comment>, comment: Comment)
    ensures var added := Add(comments, comment);
            Delete(added.0, added.1.id, None, true) == (comments, true)
  {
    var added := Add(comments, comment);
    var found := FirstIndex(added.0, (c: Comment) => c.id == added.1.id);
    assert added.0[|comments|].id == added.1.id;
    assert found == Some(|comments|);
    assert added.0[..|comments|] + added.0[|comments| + 1..] == comments;
  }
}

=== FILE: email_verification.dfy ===
/** `UserService.CreateEmailVerificationTokenAsync` and `VerifyEmailAsync`.
    The random raw token is an argument (`raw`) and SHA-256 is the opaque
    `hash`. */
module EmailVerification {
  import opened Wrappers
  import opened Models
  import opened Collections
  import opened Tokens

  const DefaultLifetime: int := 4 * Hour
  const HourlyLimit: int := 3

  datatype Issue = Issue(tokens: seq<Token>, raw: Option<string>)

  datatype Verify = Verify(users: seq<User>, tokens: seq<Token>, ok: bool)

  function NewToken(tokens: seq<Token>, userId: int, ip: Option<string>, lifetime: Option<int>,
                    now: int, raw: string, hash: string -> string): Token
  {
    Token(NextId(tokens, TokenId), userId, hash(raw), now + lifetime.GetOr(DefaultLifetime), None, now, ip, None)
  }

  /** Issues a verification token for user `userId`. Nothing is issued for an
      unknown user, for one whose e-mail is already confirmed, or when
      `HourlyLimit` tokens were created for that user in the last hour;
      otherwise exactly one row holding only the hash of the raw token is
      appended. The users are never changed. */
  function CreateEmailVerificationToken(users: seq<User>, tokens: seq<Token>, userId: int, ip: Option<string>,
                                        lifetime: Option<int>, now: int, raw: string,
                                        hash: string -> string): (r: Issue)
    ensures FindUser(users, userId).None? ==> r == Issue(tokens, None)
    ensures FindUser(users, userId).Some? ==>
              var user := users[FindUser(users, userId).value];
              && (user.emailConfirmed ==> r == Issue(tokens, None))
              && (!user.emailConfirmed && RecentCount(tokens, userId, now) >= HourlyLimit ==>
                    r == Issue(tokens, None))
              && (!user.emailConfirmed && RecentCount(tokens, userId, now) < HourlyLimit ==>
                    && r.raw == Some(raw)
                    && |r.tokens| == |tokens| + 1
                    && r.tokens[..|tokens|] == tokens
                    && var t := r.tokens[|tokens|];
                       && t.userId == userId && t.tokenHash == hash(raw)
                       && t.expiresAtUtc == now + lifetime.GetOr(4 * 60 * 60)
                       && t.usedAtUtc.None? && t.createdAtUtc == now && t.requestIp == ip
                       && forall k :: 0 <= k < |tokens| ==> tokens[k].id < t.id)
  {
    match FindUser(users, userId)
    case None => Issue(tokens, None)
    case Some(i) =>
      if users[i].emailConfirmed then Issue(tokens, None)
      else if RecentCount(tokens, userId, now) >= HourlyLimit then Issue(tokens, None)
      else Issue(tokens + [NewToken(tokens, userId, ip, lifetime, now, raw, hash)], Some(raw))
  }

  /** Redeems a raw token: succeeds exactly when some token with its hash is
      unused and not yet expired; then that token is marked used and its
      owner's e-mail becomes confirmed, and nothing else changes. A failed
      attempt changes nothing. */
  function VerifyEmail(users: seq<User>, tokens: seq<Token>, rawToken: string, now: int,
                       hash: string -> string): (r: Verify)
    ensures r.ok <==> exists k :: 0 <= k < |tokens| && Usable(tokens[k], hash(rawToken), now)
    ensures !r.ok ==> r.users == users && r.tokens == tokens
    ensures r.ok ==>
              exists k :: 0 <= k < |tokens| && Usable(tokens[k], hash(rawToken), now)
                && r.tokens == tokens[k := tokens[k].(usedAtUtc := Some(now))]
                && |r.users| == |users|
                && forall j :: 0 <= j < |users| ==>
                     r.users[j] == if users[j].id == tokens[k].userId
                                   then users[j].(emailConfirmed := true)
                                   else users[j]
  {
    match FindUsable(tokens, hash(rawToken), now)
    case None => Verify(users, tokens, false)
    case Some(k) =>
      var owner := tokens[k].userId;
      var users' := seq(|users|, j requires 0 <= j < |users| =>
                        if users[j].id == owner then users[j].(emailConfirmed := true) else users[j]);
      Verify(users', MarkUsed(tokens, k, now), true)
  }

  /** Verifying never clears `EmailConfirmed` and never changes an id. */
  lemma VerifyNeverUnconfirms(users: seq<User>, tokens: seq<Token>, rawToken: string, now: int,
                              hash: string -> string)
    ensures var v := VerifyEmail(users, tokens, rawToken, now, hash);
            && |v.users| == |users|
            && (forall j :: 0 <= j < |users| && users[j].emailConfirmed ==> v.users[j].emailConfirmed)
            && (forall j :: 0 <= j < |users| ==> v.users[j].id == users[j].id)
  {
  }

  /** Once a user's e-mail is confirmed, no further token is issued for
      them, whatever the time and the throttle state. */
  lemma ConfirmedGetsNoToken(users: seq<User>, tokens: seq<Token>, j: nat, ip: Option<string>,
                             lifetime: Option<int>, now: int, raw: string, hash: string -> string)
    requires UniqueBy(users, UserId)
    requires j < |users| && users[j].emailConfirmed
    ensures CreateEmailVerificationToken(users, tokens, users[j].id, ip, lifetime, now, raw, hash) == Issue(tokens, None)
  {
    FindUserUnique(users, j);
  }

  /** A successful verification confirms exactly the owner of the redeemed
      token, and a second attempt with the same raw token fails when no two
      tokens share a hash. */
  lemma VerifyIsSingleUse(users: seq<User>, tokens: seq<Token>, rawToken: string, now: int,
                          hash: string -> string, later: int)
    requires forall i, j :: 0 <= i < j < |tokens| ==> tokens[i].tokenHash != tokens[j].tokenHash
    requires VerifyEmail(users, tokens, rawToken, now, hash).ok
    ensures var first := VerifyEmail(users, tokens, rawToken, now, hash);
            !VerifyEmail(first.users, first.tokens, rawToken, later, hash).ok
  {
    var first := VerifyEmail(users, tokens, rawToken, now, hash);
    var k :| 0 <= k < |tokens| && Usable(tokens[k], hash(rawToken), now)
             && first.tokens == tokens[k := tokens[k].(usedAtUtc := Some(now))];
    forall j | 0 <= j < |first.tokens|
      ensures !Usable(first.tokens[j], hash(rawToken), later)
    {
      if j != k {
        assert tokens[j].tokenHash != tokens[k].tokenHash;
      }
    }
  }

  /** With unique token hashes, the usable token carrying the hash of the
      raw token is the one redeemed: its owner, and only its owner, is
      confirmed. */
  lemma VerifyConfirmsOwner(users: seq<User>, tokens: seq<Token>, rawToken: string, now: int,
                            hash: string -> string, k: nat)
    requires forall i, j :: 0 <= i < j < |tokens| ==> tokens[i].tokenHash != tokens[j].tokenHash
    requires k < |tokens| && Usable(tokens[k], hash(rawToken), now)
    ensures var v := VerifyEmail(users, tokens, rawToken, now, hash);
            && |v.users| == |users|
            && forall j :: 0 <= j < |users| ==>
                 v.users[j] == if users[j].id == tokens[k].userId
                               then users[j].(emailConfirmed := true) else users[j]
  {
  }

  /** At most `HourlyLimit` verification tokens per user within any rolling
      hour. */
  lemma IssueKeepsHourlyLimit(users: seq<User>, tokens: seq<Token>, userId: int, ip: Option<string>,
                              lifetime: Option<int>, now: int, raw: string, hash: string -> string)
    requires HourlyLimited(tokens, HourlyLimit)
    requires CreatedBy(tokens, now)
    ensures var r := CreateEmailVerificationToken(users, tokens, userId, ip, lifetime, now, raw, hash);
            HourlyLimited(r.tokens, HourlyLimit) && CreatedBy(r.tokens, now)
  {
    var r := CreateEmailVerificationToken(users, tokens, userId, ip, lifetime, now, raw, hash);
    if r.raw.Some? {
      Tokens.IssueKeepsHourlyLimit(tokens, NewToken(tokens, userId, ip, lifetime, now, raw, hash),
                                   HourlyLimit, now);
    }
  }
}

=== FILE: followers.dfy ===
/** `FollowerService`: the follow graph as a table of directed edges. */
module Followers {
  import opened Wrappers
  import opened Collections
  import opened Models

  /** Some row records that `follower` follows `followed`. */
  predicate HasEdge(follows: seq<Follow>, follower: int, followed: int) {
    exists i :: 0 <= i < |follows| && follows[i].followerUserId == follower && follows[i].followedUserId == followed
  }

  /** The graph invariant: nobody follows themself and no edge is recorded
      twice. */
  predicate WellFormed(follows: seq<Follow>) {
    && (forall i :: 0 <= i < |follows| ==> follows[i].followerUserId != follows[i].followedUserId)
    && (forall i, j :: 0 <= i < j < |follows| ==>
          follows[i].followerUserId != follows[j].followerUserId
          || follows[i].followedUserId != follows[j].followedUserId)
  }

  function EdgeMatcher(follower: int, followed: int): Follow -> bool {
    (f: Follow) => f.followerUserId == follower && f.followedUserId == followed
  }

  /** `FollowAsync`: following yourself or someone you already follow is
      refused with no change; otherwise exactly one edge row is appended. */
  function FollowUser(follows: seq<Follow>, follower: int, followed: int, now: int): (r: (seq<Follow>, bool))
    ensures follower == followed ==> r == (follows, false)
    ensures HasEdge(follows, follower, followed) ==> r == (follows, false)
    ensures follower != followed && !HasEdge(follows, follower, followed) ==>
              && r.1
              && |r.0| == |follows| + 1 && r.0[..|follows|] == follows
              && var f := r.0[|follows|];
                 f.followerUserId == follower && f.followedUserId == followed && f.followedAt == now
                 && forall k :: 0 <= k < |follows| ==> follows[k].id < f.id
    ensures forall a, b :: HasEdge(r.0, a, b) <==> HasEdge(follows, a, b) || (r.1 && a == follower && b == followed)
  {
    if follower == followed then (follows, false)
    else if FirstIndex(follows, EdgeMatcher(follower, followed)).Some? then (follows, false)
    else
      var r := follows + [Follow(NextId(follows, FollowId), follower, followed, now)];
      assert HasEdge(r, follower, followed) by { assert EdgeMatcher(follower, followed)(r[|follows|]); }
      assert forall a, b :: HasEdge(follows, a, b) ==> HasEdge(r, a, b) by {
        forall a, b | HasEdge(follows, a, b) ensures HasEdge(r, a, b) {
          var i :| 0 <= i < |follows| && follows[i].followerUserId == a && follows[i].followedUserId == b;
          assert r[i] == follows[i];
        }
      }
      assert forall a, b :: HasEdge(r, a, b) ==> HasEdge(follows, a, b) || (a == follower && b == followed) by {
        forall a, b | HasEdge(r, a, b) ensures HasEdge(follows, a, b) || (a == follower && b == followed) {
          var i :| 0 <= i < |r| && r[i].followerUserId == a && r[i].followedUserId == b;
          if i < |follows| { assert r[i] == follows[i]; }
        }
      }
      (r, true)
  }

  /** `UnfollowAsync`: a missing edge gives false with no change; otherwise
      the first row recording it is removed and nothing else. */
  function UnfollowUser(follows: seq<Follow>, follower: int, followed: int): (r: (seq<Follow>, bool))
    ensures !HasEdge(follows, follower, followed) ==> r == (follows, false)
    ensures HasEdge(follows, follower, followed) ==>
              && r.1
              && exists i :: 0 <= i < |follows| && EdgeMatcher(follower, followed)(follows[i])
                   && r.0 == follows[..i] + follows[i + 1..]
  {
    match FirstIndex(follows, EdgeMatcher(follower, followed))
    case None => (follows, false)
    case Some(i) =>
      assert HasEdge(follows, follower, followed);
      (follows[..i] + follows[i + 1..], true)
  }

  /** Removing a row keeps the edges of all the other rows. */
  lemma RemoveRowEdges(follows: seq<Follow>, i: nat, a: int, b: int)
    requires i < |follows|
    ensures HasEdge(follows[..i] + follows[i + 1..], a, b) <==>
              exists k :: 0 <= k < |follows| && k != i && EdgeMatcher(a, b)(follows[k])
  {
    var r := follows[..i] + follows[i + 1..];
    if HasEdge(r, a, b) {
      var k :| 0 <= k < |r| && r[k].followerUserId == a && r[k].followedUserId == b;
      if k < i { assert r[k] == follows[k]; } else { assert r[k] == follows[k + 1]; }
    }
    if exists k :: 0 <= k < |follows| && k != i && EdgeMatcher(a, b)(follows[k]) {
      var k :| 0 <= k < |follows| && k != i && EdgeMatcher(a, b)(follows[k]);
      if k < i { assert r[k] == follows[k]; } else { assert r[k - 1] == follows[k]; }
    }
  }

  /** In a well-formed graph, unfollowing removes exactly that edge. */
  lemma UnfollowRemovesEdge(follows: seq<Follow>, follower: int, followed: int, a: int, b: int)
    requires WellFormed(follows)
    ensures var r := UnfollowUser(follows, follower, followed);
            HasEdge(r.0, a, b) <==> HasEdge(follows, a, b) && !(a == follower && b == followed)
  {
    var r := UnfollowUser(follows, follower, followed);
    if r.1 {
      var i :| 0 <= i < |follows| && EdgeMatcher(follower, followed)(follows[i])
               && r.0 == follows[..i] + follows[i + 1..];
      RemoveRowEdges(follows, i, a, b);
    }
  }

  /** Follow and unfollow preserve the graph invariant. */
  lemma FollowKeepsWellFormed(follows: seq<Follow>, follower: int, followed: int, now: int)
    requires WellFormed(follows)
    ensures WellFormed(FollowUser(follows, follower, followed, now).0)
  {
    var r := FollowUser(follows, follower, followed, now);
    if r.1 {
      forall i, j | 0 <= i < j < |r.0|
        ensures r.0[i].followerUserId != r.0[j].followerUserId || r.0[i].followedUserId != r.0[j].followedUserId
      {
        if j == |follows| {
          assert r.0[i] == follows[i];
        } else {
          assert r.0[i] == follows[i] && r.0[j] == follows[j];
        }
      }
    }
  }

  lemma UnfollowKeepsWellFormed(follows: seq<Follow>, follower: int, followed: int)
    requires WellFormed(follows)
    ensures WellFormed(UnfollowUser(follows, follower, followed).0)
  {
    var r := UnfollowUser(follows, follower, followed);
    if r.1 {
      var i :| 0 <= i < |follows| && EdgeMatcher(follower, followed)(follows[i])
               && r.0 == follows[..i] + follows[i + 1..];
      RemoveRowKeepsWellFormed(follows, i);
    }
  }

  /** Removing any one row keeps the graph well formed. */
  lemma RemoveRowKeepsWellFormed(follows: seq<Follow>, i: nat)
    requires WellFormed(follows) && i < |follows|
    ensures WellFormed(follows[..i] + follows[i + 1..])
  {
    var t := follows[..i] + follows[i + 1..];
    forall k | 0 <= k < |t|
      ensures t[k] == follows[if k < i then k else k + 1]
    {
    }
    forall p, q | 0 <= p < q < |t|
      ensures t[p].followerUserId != t[q].followerUserId || t[p].followedUserId != t[q].followedUserId
    {
      assert t[p] == follows[if p < i then p else p + 1];
      assert t[q] == follows[if q < i then q else q + 1];
    }
  }

  /** Round trip: a successful follow undone by unfollow restores the
      table exactly. */
  lemma FollowThenUnfollow(follows: seq<Follow>, follower: int, followed: int, now: int)
    requires FollowUser(follows, follower, followed, now).1
    ensures UnfollowUser(FollowUser(follows, follower, followed, now).0, follower, followed) == (follows, true)
  {
    var r := FollowUser(follows, follower, followed, now).0;
    var i := FirstIndex(r, EdgeMatcher(follower, followed));
    assert EdgeMatcher(follower, followed)(r[|follows|]);
    assert i.Some? && i.value == |follows|;
    assert r[..|follows|] + r[|follows| + 1..] == follows;
  }

  /** `GetFollowersAsync`: the ids of the users following `userId`, one
      per edge row, in table order. */
  function FollowerIds(follows: seq<Follow>, userId: int): (r: seq<int>)
    ensures |r| <= |follows|
    ensures forall x :: x in r <==> HasEdge(follows, x, userId)
    decreases |follows|
  {
    if |follows| == 0 then []
    else
      var init := follows[..|follows| - 1];
      var f := follows[|follows| - 1];
      var rest := FollowerIds(init, userId);
      assert forall x :: HasEdge(follows, x, userId) <==> HasEdge(init, x, userId) || (f.followerUserId == x && f.followedUserId == userId) by {
        forall x ensures HasEdge(follows, x, userId) <==> HasEdge(init, x, userId) || (f.followerUserId == x && f.followedUserId == userId) {
          if HasEdge(init, x, userId) {
            var k :| 0 <= k < |init| && init[k].followerUserId == x && init[k].followedUserId == userId;
            assert follows[k] == init[k];
          }
          if HasEdge(follows, x, userId) {
            var k :| 0 <= k < |follows| && follows[k].followerUserId == x && follows[k].followedUserId == userId;
            if k < |init| { assert follows[k] == init[k]; }
          }
        }
      }
      if f.followedUserId == userId then rest + [f.followerUserId] else rest
  }

  /** `GetFollowingAsync`: the ids of the users `userId` follows, one per
      edge row, in table order. */
  function FollowingIds(follows: seq<Follow>, userId: int): (r: seq<int>)
    ensures |r| <= |follows|
    ensures forall x :: x in r <==> HasEdge(follows, userId, x)
    decreases |follows|
  {
    if |follows| == 0 then []
    else
      var init := follows[..|follows| - 1];
      var f := follows[|follows| - 1];
      var rest := FollowingIds(init, userId);
      assert forall x :: HasEdge(follows, userId, x) <==> HasEdge(init, userId, x) || (f.followerUserId == userId && f.followedUserId == x) by {
        forall x ensures HasEdge(follows, userId, x) <==> HasEdge(init, userId, x) || (f.followerUserId == userId && f.followedUserId == x) {
          if HasEdge(init, userId, x) {
            var k :| 0 <= k < |init| && init[k].followerUserId == userId && init[k].followedUserId == x;
            assert follows[k] == init[k];
          }
          if HasEdge(follows, userId, x) {
            var k :| 0 <= k < |follows| && follows[k].followerUserId == userId && follows[k].followedUserId == x;
            if k < |init| { assert follows[k] == init[k]; }
          }
        }
      }
      if f.followerUserId == userId then rest + [f.followedUserId] else rest
  }

  /** In a well-formed graph nobody is listed twice, and nobody is their
      own follower. */
  lemma {:induction false} FollowerIdsDistinct(follows: seq<Follow>, userId: int)
    requires WellFormed(follows)
    ensures var r := FollowerIds(follows, userId);
            (forall i, j :: 0 <= i < j < |r| ==> r[i] != r[j]) && userId !in r
    decreases |follows|
  {
    if |follows| > 0 {
      var init := follows[..|follows| - 1];
      var f := follows[|follows| - 1];
      assert WellFormed(init) by {
        assert forall k :: 0 <= k < |init| ==> init[k] == follows[k];
      }
      FollowerIdsDistinct(init, userId);
      if f.followedUserId == userId {
        forall k | 0 <= k < |init|
          ensures !(init[k].followerUserId == f.followerUserId && init[k].followedUserId == userId)
        {
          assert init[k] == follows[k];
        }
        var rest := FollowerIds(init, userId);
        assert !HasEdge(init, f.followerUserId, userId);
        assert FollowerIds(follows, userId) == rest + [f.followerUserId];
      }
    }
  }
}

=== FILE: global_search.dfy ===
/** `SearchController.Search`, the site-wide search box: one term is looked
    up among users and, five ways, among songs; the song hits are merged by
    id, newest upload first, and both lists are cut to the clamped page
    size. */
module GlobalSearch {
  import opened Wrappers
  import opened Text
  import opened Collections
  import opened Models
  import opened Ordering
  import Accounts
  import opened Music

  const DefaultTake: int := 20
  const MaxTake: int := 50

  /** A song hit with its uploader, when the song has one. */
  datatype SongHit = SongHit(song: Song, uploader: Option<User>)

  datatype Results = Results(users: seq<User>, songs: seq<SongHit>)

  /** `Math.Clamp(take, 1, MaxTake)`. */
  function Clamp(take: int): (r: int)
    ensures 1 <= r <= MaxTake
    ensures take <= 1 ==> r == 1
    ensures take >= MaxTake ==> r == MaxTake
    ensures 1 <= take <= MaxTake ==> r == take
  {
    if take < 1 then 1 else if take > MaxTake then MaxTake else take
  }

  // ---- the five song queries ----

  function ByTitle(q: string): Criteria { NoCriteria.(title := Some(q)) }
  function ByArtist(q: string): Criteria { NoCriteria.(artist := Some(q)) }
  function ByUploaderName(q: string): Criteria { NoCriteria.(uploader := Some(q)) }
  function ByGenre(q: string): Criteria { NoCriteria.(genre := Some(q)) }
  function ByTag(q: string): Criteria { NoCriteria.(tags := Some([q])) }

  /** A song is a hit when any of the five single-criterion searches finds
      it. */
  predicate TermMatches(s: Song, users: seq<User>, ratings: seq<Rating>, q: string) {
    || AdvancedMatches(s, users, ratings, ByTitle(q))
    || AdvancedMatches(s, users, ratings, ByArtist(q))
    || AdvancedMatches(s, users, ratings, ByUploaderName(q))
    || AdvancedMatches(s, users, ratings, ByGenre(q))
    || AdvancedMatches(s, users, ratings, ByTag(q))
  }

  /** What the five searches amount to for a non-blank term: title, artist,
      uploader name or e-mail, or genre contains the trimmed term ignoring
      case, or one of the song's tags equals the term exactly (untrimmed,
      case-sensitive). */
  lemma TermMatchesMeans(s: Song, users: seq<User>, ratings: seq<Rating>, q: string)
    requires !IsBlank(q)
    ensures var t := Lower(Trim(q));
            TermMatches(s, users, ratings, q) <==>
              || Contains(Lower(s.title), t)
              || Contains(Lower(s.artist), t)
              || UploaderMatches(s, users, t)
              || (s.genre.Some? && Contains(Lower(s.genre.value), t))
              || (s.tags.Some? && q in s.tags.value)
  {
    assert Normalize(Some(q)) == Some(Lower(Trim(q)));
  }

  /** The five result lists one after the other. */
  function Candidates(songs: seq<Song>, users: seq<User>, ratings: seq<Rating>, q: string): (r: seq<Song>)
    ensures forall s :: s in r <==> s in songs && TermMatches(s, users, ratings, q)
  {
    AdvancedSearch(songs, users, ratings, ByTitle(q)) + AdvancedSearch(songs, users, ratings, ByArtist(q))
    + AdvancedSearch(songs, users, ratings, ByUploaderName(q)) + AdvancedSearch(songs, users, ratings, ByGenre(q))
    + AdvancedSearch(songs, users, ratings, ByTag(q))
  }

  // ---- merging by id ----

  /** The `songLookup` dictionary's values: the first hit for each song id,
      in order of first appearance. */
  function DedupById(s: seq<Song>): (r: seq<Song>)
    ensures UniqueBy(r, SongId)
    ensures forall j :: 0 <= j < |r| ==> FirstOfKey(s, SongId, r[j])
    ensures forall k :: 0 <= k < |s| ==> KeyIndex(r, SongId, s[k].id).Some?
  {
    DistinctBy(s, SongId)
  }

  // ---- ranking ----

  function NewestUpload(): (Song, Song) -> bool {
    (a: Song, b: Song) => a.uploadDate >= b.uploadDate
  }

  lemma NewestUploadIsTotalPreorder()
    ensures TotalPreorder(NewestUpload())
  {
  }

  /** `OrderByDescending(UploadDate).Take(take)`: the `take` most recent
      rows, newest first. */
  function Newest(pool: seq<Song>, take: int): (r: seq<Song>)
    ensures SortedBy(r, NewestUpload())
    ensures multiset(r) <= multiset(pool)
    ensures 0 <= take ==> |r| == if take < |pool| then take else |pool|
    ensures |pool| <= take ==> r == Sort(pool, NewestUpload()) && multiset(r) == multiset(pool)
    ensures forall x, y :: x in multiset(pool) - multiset(r) && y in r ==> y.uploadDate >= x.uploadDate
  {
    NewestUploadIsTotalPreorder();
    var sorted := Sort(pool, NewestUpload());
    TakeOfSorted(sorted, take, NewestUpload());
    Take(sorted, take)
  }

  /** The hit for a song, with its uploader row when there is one. */
  function Hit(users: seq<User>, s: Song): (r: SongHit)
    ensures r.song == s
    ensures r.uploader.Some? <==> s.userId.Some? && FindUser(users, s.userId.value).Some?
    ensures r.uploader.Some? ==> r.uploader.value in users && r.uploader.value.id == s.userId.value
  {
    if s.userId.Some? && FindUser(users, s.userId.value).Some?
    then SongHit(s, Some(users[FindUser(users, s.userId.value).value]))
    else SongHit(s, None)
  }

  // ---- the action ----

  /** The rows picked out of the merged list are still unique and all
      come from the concatenated result lists. */
  lemma PickedFromMerged(candidates: seq<Song>, merged: seq<Song>, top: seq<Song>)
    requires UniqueBy(merged, SongId)
    requires forall j :: 0 <= j < |merged| ==> FirstOfKey(candidates, SongId, merged[j])
    requires multiset(top) <= multiset(merged)
    ensures UniqueBy(top, SongId)
    ensures forall i :: 0 <= i < |top| ==> top[i] in candidates
  {
    SubmultisetKeepsUnique(top, merged, SongId);
    forall i | 0 <= i < |top|
      ensures top[i] in candidates
    {
      assert top[i] in multiset(merged);
      var j :| 0 <= j < |merged| && merged[j] == top[i];
      assert FirstOfKey(candidates, SongId, merged[j]);
    }
  }

  /** The song half of the action on the concatenated result lists: merged
      by id, newest first, at most `n`. */
  function RankedSongs(candidates: seq<Song>, n: int): (top: seq<Song>)
    requires 1 <= n
    ensures |top| <= n
    ensures forall i :: 0 <= i < |top| ==> top[i] in candidates
    ensures SortedBy(top, NewestUpload())
    ensures UniqueBy(top, SongId)
  {
    var merged := DedupById(candidates);
    var top := Newest(merged, n);
    PickedFromMerged(candidates, merged, top);
    top
  }

  /** Each ranked song with its uploader. */
  function Hits(users: seq<User>, top: seq<Song>): (r: seq<SongHit>)
    ensures |r| == |top|
    ensures forall i :: 0 <= i < |r| ==> r[i] == Hit(users, top[i])
  {
    seq(|top|, i requires 0 <= i < |top| => Hit(users, top[i]))
  }

  /** The song list for a non-blank term and page size `n`: distinct hits
      of the five song searches with their uploaders, newest upload first,
      at most `n`. */
  function SongResults(users: seq<User>, songs: seq<Song>, ratings: seq<Rating>, q: string, n: int): (r: seq<SongHit>)
    requires 1 <= n
    ensures |r| <= n
    ensures forall i :: 0 <= i < |r| ==> r[i] == Hit(users, r[i].song)
    ensures forall i :: 0 <= i < |r| ==> r[i].song in songs && TermMatches(r[i].song, users, ratings, q)
    ensures forall i, j :: 0 <= i < j < |r| ==> r[i].song.uploadDate >= r[j].song.uploadDate
    ensures forall i, j :: 0 <= i < j < |r| ==> r[i].song.id != r[j].song.id
  {
    Hits(users, RankedSongs(Candidates(songs, users, ratings, q), n))
  }

  /** A row of the pool is on the page, or the page is full of rows at
      least as recent. */
  lemma NewestKeepsOrBeats(pool: seq<Song>, n: int, x: Song)
    requires 1 <= n && x in pool
    ensures var top := Newest(pool, n);
            x in top || (|top| == n && forall i :: 0 <= i < |top| ==> top[i].uploadDate >= x.uploadDate)
  {
    var top := Newest(pool, n);
    if x !in top {
      assert x in multiset(pool) - multiset(top);
      assert |pool| > n;
    }
  }

  /** With unique ids, a candidate is ranked, or the ranking is full of
      rows at least as recent. */
  lemma RankedKeepsOrBeats(table: seq<Song>, candidates: seq<Song>, n: int, x: Song)
    requires 1 <= n
    requires UniqueBy(table, SongId)
    requires forall c :: c in candidates ==> c in table
    requires x in candidates
    ensures var top := RankedSongs(candidates, n);
            x in top || (|top| == n && forall i :: 0 <= i < |top| ==> top[i].uploadDate >= x.uploadDate)
  {
    DistinctKeepsRow(table, candidates, SongId, x);
    NewestKeepsOrBeats(DedupById(candidates), n, x);
  }

  /** The same, for the hits built from the ranking. */
  lemma PageKeepsOrBeats(users: seq<User>, table: seq<Song>, candidates: seq<Song>, n: int, x: Song)
    requires 1 <= n
    requires UniqueBy(table, SongId)
    requires forall c :: c in candidates ==> c in table
    requires x in candidates
    ensures var r := Hits(users, RankedSongs(candidates, n));
            || (exists i :: 0 <= i < |r| && r[i].song == x)
            || (|r| == n && forall i :: 0 <= i < |r| ==> r[i].song.uploadDate >= x.uploadDate)
  {
    var top := RankedSongs(candidates, n);
    RankedKeepsOrBeats(table, candidates, n, x);
    var r := Hits(users, top);
    if x in top {
      var i :| 0 <= i < |top| && top[i] == x;
      assert r[i] == Hit(users, x);
    }
  }

  /** With unique song ids, a matching song is left off the page only
      when the page is full of songs uploaded no earlier than it. */
  lemma {:induction false} SongResultsComplete(users: seq<User>, songs: seq<Song>, ratings: seq<Rating>,
                                               q: string, n: int, x: Song)
    requires 1 <= n
    requires UniqueBy(songs, SongId)
    requires x in songs && TermMatches(x, users, ratings, q)
    ensures var r := SongResults(users, songs, ratings, q, n);
            || (exists i :: 0 <= i < |r| && r[i].song == x)
            || (|r| == n && forall i :: 0 <= i < |r| ==> r[i].song.uploadDate >= x.uploadDate)
  {
    var candidates := Candidates(songs, users, ratings, q);
    PageKeepsOrBeats(users, songs, candidates, n, x);
  }

  /** `GET api/search?q=&take=`. A missing or blank term gives two empty
      lists; otherwise the page size, 20 when the query string gives none,
      is clamped to 1..50 and both the user search and the song search use
      it. */
  function Search(users: seq<User>, songs: seq<Song>, ratings: seq<Rating>, q: Option<string>,
                  take: Option<int>): (r: Results)
    ensures IsNullOrWhiteSpace(q) ==> r == Results([], [])
    ensures !IsNullOrWhiteSpace(q) && take.Some? ==>
              && r.users == Accounts.SearchUsers(users, q.value, Clamp(take.value))
              && r.songs == SongResults(users, songs, ratings, q.value, Clamp(take.value))
    ensures !IsNullOrWhiteSpace(q) && take.None? ==>
              && r.users == Accounts.SearchUsers(users, q.value, DefaultTake)
              && r.songs == SongResults(users, songs, ratings, q.value, DefaultTake)
    ensures |r.users| <= MaxTake && |r.songs| <= MaxTake
  {
    if IsNullOrWhiteSpace(q) then Results([], [])
    else
      var n := Clamp(take.GetOr(DefaultTake));
      Results(Accounts.SearchUsers(users, q.value, n), SongResults(users, songs, ratings, q.value, n))
  }
}

=== FILE: models.dfy ===
/** The persisted entities (one datatype per table row) and the lookups
    several services share. Times are whole seconds since an arbitrary
    epoch; `now` is always an argument. A navigation property (`Song.User`,
    `Song.Ratings`, `Playlist.Songs`, `Song.Categories`) is represented by
    the foreign key or key list it is loaded through. */
module Models {
  import opened Wrappers
  import opened Collections

  const Minute: int := 60
  const Hour: int := 60 * Minute

  /** `UserRole`; the source uses exactly the two values `User` and `Admin`. */
  datatype UserRole = RegularUser | Admin

  datatype User = User(
    id: int,
    username: string,
    email: string,
    passwordHash: string,
    role: UserRole,
    createdAt: int,
    profilePicturePath: Option<string>,
    emailConfirmed: bool)

  /** `DownloadCount` is read by the analytics and the global search although
      the entity class does not declare it; it is kept here as a column. */
  datatype Song = Song(
    id: int,
    title: string,
    artist: string,
    filePath: string,
    artworkPath: Option<string>,
    genre: Option<string>,
    tags: Option<seq<string>>,
    uploadDate: int,
    playCount: int,
    downloadCount: int,
    categoryIds: seq<int>,
    userId: Option<int>)

  /** A comment belongs to a song or to a blog post. */
  datatype Comment = Comment(
    id: int,
    songId: Option<int>,
    blogPostId: Option<int>,
    userId: Option<int>,
    commentText: string,
    isAnonymous: bool,
    createdAt: int)

  datatype Rating = Rating(id: int, songId: int, userId: int, ratingValue: int, createdAt: int)

  /** `songIds` is the playlist's `Songs` collection, by song id. */
  datatype Playlist = Playlist(
    id: int,
    name: string,
    description: Option<string>,
    userId: int,
    songIds: seq<int>)

  /** A directed follow edge: `followerUserId` follows `followedUserId`. */
  datatype Follow = Follow(id: int, followerUserId: int, followedUserId: int, followedAt: int)

  /** An activity-log entry; `kind` is the `Type` column and `data` the
      free-text (usually JSON) payload. */
  datatype Activity = Activity(id: int, userId: int, kind: string, data: Option<string>, createdAt: int)

  datatype BlogPost = BlogPost(id: int, title: string, content: string, authorId: Option<int>, publishDate: int)

  /** A single-use token row: `PasswordResetToken`, or an
      `EmailVerificationToken` (which has no user-agent column, so its
      `userAgent` is always None). Only the hash of the raw token is kept. */
  datatype Token = Token(
    id: int,
    userId: int,
    tokenHash: string,
    expiresAtUtc: int,
    usedAtUtc: Option<int>,
    createdAtUtc: int,
    requestIp: Option<string>,
    userAgent: Option<string>)

  /** How a delete by id ends: the row was removed; there was no such row
      (the service returns false); or the database refused the delete
      because another row still refers to it (`SaveChangesAsync` throws). */
  datatype Removal = Removed | Missing | Blocked

  function UserId(u: User): int { u.id }
  function SongId(s: Song): int { s.id }
  function CommentId(c: Comment): int { c.id }
  function RatingId(r: Rating): int { r.id }
  function PlaylistId(p: Playlist): int { p.id }
  function FollowId(f: Follow): int { f.id }
  function ActivityId(a: Activity): int { a.id }
  function BlogPostId(b: BlogPost): int { b.id }
  function TokenId(t: Token): int { t.id }

  /** `FirstOrDefault(u => u.Username == q || u.Email == q)`: exact,
      case-sensitive match on either name. */
  function FindByLogin(users: seq<User>, usernameOrEmail: string): Option<nat> {
    FirstIndex(users, (u: User) => u.username == usernameOrEmail || u.email == usernameOrEmail)
  }

  /** `FindAsync(id)` / `FirstOrDefault(u => u.Id == id)`. */
  function FindUser(users: seq<User>, id: int): Option<nat> {
    FirstIndex(users, (u: User) => u.id == id)
  }

  function FindSong(songs: seq<Song>, id: int): Option<nat> {
    FirstIndex(songs, (s: Song) => s.id == id)
  }

  /** With unique ids, looking a user up by id finds that very row. */
  lemma FindUserUnique(users: seq<User>, j: nat)
    requires UniqueBy(users, UserId)
    requires j < |users|
    ensures FindUser(users, users[j].id) == Some(j)
  {
    var r := FindUser(users, users[j].id);
    assert r.Some? && r.value <= j;
    assert UserId(users[r.value]) == UserId(users[j]);
  }
}

=== FILE: music.dfy ===
/** `MusicService`: song update and delete, the two song searches and the
    per-user analytics. A song's `Ratings` are the rating rows with its id,
    its `User` the user row with its `UserId`, its `Categories` its
    category ids. */
module Music {
  import opened Wrappers
  import opened Text
  import opened Collections
  import opened Models
  import Activities

  // ---- update and delete ----

  /** The request body of `UpdateSongAsync`: the song fields it copies,
      and its `Categories` by id (None when the body carries no list). */
  datatype SongUpdate = SongUpdate(
    title: string,
    artist: string,
    filePath: string,
    artworkPath: Option<string>,
    genre: Option<string>,
    tags: Option<seq<string>>,
    categoryIds: Option<seq<int>>)

  /** `NoSuchSong` is the null result; `LinkConflict` is the failed save. */
  datatype SongUpdateResult = Updated(song: Song) | NoSuchSong | LinkConflict

  /** The given categories can all be linked to a song that already has
      `linked`: no id repeats and none is linked yet (a second link row
      with the same key is refused). */
  predicate LinksAddable(linked: seq<int>, given: seq<int>) {
    && (forall i, j :: 0 <= i < j < |given| ==> given[i] != given[j])
    && (forall k :: 0 <= k < |given| ==> given[k] !in linked)
  }

  /** `UpdateSongAsync`: a missing id gives null. Otherwise title, artist,
      file path, artwork path, genre and tags are taken from the body, and
      id, upload date, play and download counts and uploader are kept. The
      song is loaded without its categories, so the body's categories are
      link rows to add to the ones already stored: no list keeps the links,
      and a list that would repeat a link makes the save fail, with nothing
      changed. No other row changes. */
  function UpdateSong(songs: seq<Song>, id: int, update: SongUpdate): (r: (seq<Song>, SongUpdateResult))
    ensures r.1.NoSuchSong? <==> FindSong(songs, id).None?
    ensures r.1.LinkConflict? <==> FindSong(songs, id).Some? && update.categoryIds.Some?
                                   && !LinksAddable(songs[FindSong(songs, id).value].categoryIds, update.categoryIds.value)
    ensures !r.1.Updated? ==> r.0 == songs
    ensures r.1.Updated? ==>
              var i := FindSong(songs, id).value;
              var s := songs[i];
              var u := r.1.song;
              && r.0 == songs[i := u]
              && u.title == update.title && u.artist == update.artist && u.filePath == update.filePath
              && u.artworkPath == update.artworkPath && u.genre == update.genre && u.tags == update.tags
              && u.id == s.id == id && u.uploadDate == s.uploadDate && u.playCount == s.playCount
              && u.downloadCount == s.downloadCount && u.userId == s.userId
              && (forall c :: c in u.categoryIds <==>
                                c in s.categoryIds || (update.categoryIds.Some? && c in update.categoryIds.value))
              && |u.categoryIds| == |s.categoryIds| + (if update.categoryIds.Some? then |update.categoryIds.value| else 0)
  {
    match FindSong(songs, id)
    case None => (songs, NoSuchSong)
    case Some(i) =>
      var s := songs[i];
      var given := if update.categoryIds.Some? then update.categoryIds.value else [];
      if update.categoryIds.Some? && !LinksAddable(s.categoryIds, given) then (songs, LinkConflict)
      else
        var u := s.(title := update.title, artist := update.artist, filePath := update.filePath,
                    artworkPath := update.artworkPath, genre := update.genre, tags := update.tags,
                    categoryIds := s.categoryIds + given);
        (songs[i := u], Updated(u))
  }

  /** No category id repeats in the song's link list. */
  predicate LinksDistinct(s: Song) {
    forall i, j :: 0 <= i < j < |s.categoryIds| ==> s.categoryIds[i] != s.categoryIds[j]
  }

  /** An update keeps a song's links free of repeats. */
  lemma UpdateSongKeepsLinksDistinct(songs: seq<Song>, id: int, update: SongUpdate)
    requires forall k :: 0 <= k < |songs| ==> LinksDistinct(songs[k])
    ensures var r := UpdateSong(songs, id, update);
            forall k :: 0 <= k < |r.0| ==> LinksDistinct(r.0[k])
  {
    var r := UpdateSong(songs, id, update);
    if r.1.Updated? {
      var i := FindSong(songs, id).value;
      var linked := songs[i].categoryIds;
      assert LinksDistinct(songs[i]);
      if update.categoryIds.Some? {
        var given := update.categoryIds.value;
        assert LinksAddable(linked, given);
        assert r.1.song.categoryIds == linked + given;
        forall a, b | 0 <= a < b < |linked + given|
          ensures (linked + given)[a] != (linked + given)[b]
        {
          if b < |linked| {
          } else if a < |linked| {
            assert (linked + given)[b] == given[b - |linked|];
          } else {
            assert (linked + given)[a] == given[a - |linked|];
          }
        }
      } else {
        assert r.1.song.categoryIds == linked + [];
      }
    }
  }

  /** Sending the same body twice: without categories the second update
      changes nothing more; with categories it fails, because their links
      exist after the first. */
  lemma UpdateSongTwice(songs: seq<Song>, id: int, update: SongUpdate)
    requires UpdateSong(songs, id, update).1.Updated?
    ensures var once := UpdateSong(songs, id, update);
            && (update.categoryIds.None? ==> UpdateSong(once.0, id, update) == once)
            && (update.categoryIds.Some? && |update.categoryIds.value| > 0 ==>
                  UpdateSong(once.0, id, update) == (once.0, LinkConflict))
  {
    var once := UpdateSong(songs, id, update);
    var i := FindSong(songs, id).value;
    var u := once.1.song;
    assert once.0[i].id == id;
    assert forall k :: 0 <= k < i ==> once.0[k] == songs[k];
    assert FindSong(once.0, id) == Some(i);
    if update.categoryIds.None? {
      assert u.categoryIds == songs[i].categoryIds + [];
      assert u.(title := update.title, artist := update.artist, filePath := update.filePath,
                artworkPath := update.artworkPath, genre := update.genre, tags := update.tags,
                categoryIds := u.categoryIds + []) == u;
      assert once.0[i := u] == once.0;
    } else if |update.categoryIds.value| > 0 {
      assert update.categoryIds.value[0] in u.categoryIds;
    }
  }

  /** `DeleteSongAsync`: a missing id gives false and changes nothing.
      Otherwise every activity whose payload mentions `"SongId":<id>` is
      deleted at once; the song is then removed, unless a comment still
      refers to it (the foreign key has no delete action), in which case
      the database refuses the delete and the song stays while those
      activities are already gone. */
  function DeleteSong(songs: seq<Song>, comments: seq<Comment>, activities: seq<Activity>, id: int)
    : (r: (seq<Song>, seq<Activity>, Removal))
    ensures r.2 == Missing <==> FindSong(songs, id).None?
    ensures r.2 == Missing ==> r.0 == songs && r.1 == activities
    ensures r.2 == Blocked <==> FindSong(songs, id).Some? && SongCommented(comments, id)
    ensures r.2 == Blocked ==> r.0 == songs
    ensures r.2 == Removed ==> var i := FindSong(songs, id).value;
                               r.0 == songs[..i] + songs[i + 1..]
    ensures r.2 != Missing ==>
              forall a :: a in r.1 <==> a in activities && !Activities.Mentions(Activities.Key("SongId", id))(a)
  {
    match FindSong(songs, id)
    case None => (songs, activities, Missing)
    case Some(i) =>
      var cleared := Activities.DeleteById(activities, Activities.SongIdField, id).0;
      if SongCommented(comments, id) then (songs, cleared, Blocked)
      else (songs[..i] + songs[i + 1..], cleared, Removed)
  }

  /** A comment still refers to the song. */
  predicate SongCommented(comments: seq<Comment>, id: int) {
    exists c :: c in comments && c.songId == Some(id)
  }

  /** With unique song ids a successful delete leaves the song impossible
      to find and every other song in place; a refused one leaves the song
      table as it was, and trying again changes nothing more. */
  lemma DeleteSongRemovesOnlyThatSong(songs: seq<Song>, comments: seq<Comment>, activities: seq<Activity>, id: int)
    requires UniqueBy(songs, SongId)
    ensures var r := DeleteSong(songs, comments, activities, id);
            && (r.2 == Removed ==> FindSong(r.0, id).None?
                                   && forall s :: s in songs && s.id != id ==> s in r.0)
            && (r.2 == Blocked ==> r.0 == songs && DeleteSong(r.0, comments, r.1, id) == r)
  {
    match FindSong(songs, id)
    case None =>
    case Some(i) =>
      if SongCommented(comments, id) {
        Activities.DeleteByIdIdempotent(activities, Activities.SongIdField, id);
      } else {
        RemoveAtKeepsOthers(songs, SongId, i);
      }
  }

  // ---- SearchAsync ----

  /** The song has at least one of the given categories. */
  predicate InAnyCategory(s: Song, categoryIds: seq<int>) {
    exists c :: c in s.categoryIds && c in categoryIds
  }

  /** The filters of `SearchAsync`; each absent (or empty) filter imposes
      nothing. Title and artist are matched as case-sensitive substrings. */
  predicate SearchMatches(s: Song, title: Option<string>, artist: Option<string>,
                          categoryIds: Option<seq<int>>, userId: Option<int>) {
    && (!IsNullOrEmpty(title) ==> Contains(s.title, title.value))
    && (!IsNullOrEmpty(artist) ==> Contains(s.artist, artist.value))
    && (categoryIds.Some? && |categoryIds.value| > 0 ==> InAnyCategory(s, categoryIds.value))
    && (userId.Some? ==> s.userId == userId)
  }

  function SearchMatcher(title: Option<string>, artist: Option<string>, categoryIds: Option<seq<int>>,
                         userId: Option<int>): Song -> bool {
    (s: Song) => SearchMatches(s, title, artist, categoryIds, userId)
  }

  /** `SearchAsync`: the songs meeting every supplied filter, in table
      order. */
  function Search(songs: seq<Song>, title: Option<string>, artist: Option<string>,
                  categoryIds: Option<seq<int>>, userId: Option<int>): (r: seq<Song>)
    ensures forall s :: multiset(r)[s] == if SearchMatches(s, title, artist, categoryIds, userId)
                                           then multiset(songs)[s] else 0
  {
    Filter(songs, SearchMatcher(title, artist, categoryIds, userId))
  }

  /** Without filters the search returns the whole table. */
  lemma SearchWithoutFilters(songs: seq<Song>)
    ensures multiset(Search(songs, None, None, None, None)) == multiset(songs)
  {
    assert forall s :: SearchMatches(s, None, None, None, None);
  }

  /** Supplying an extra filter can only narrow the result. */
  lemma SearchFiltersNarrow(songs: seq<Song>, title: Option<string>, artist: Option<string>,
                            categoryIds: Option<seq<int>>, userId: Option<int>)
    ensures multiset(Search(songs, title, artist, categoryIds, userId)) <= multiset(Search(songs, None, artist, categoryIds, userId))
    ensures multiset(Search(songs, title, artist, categoryIds, userId)) <= multiset(Search(songs, title, None, categoryIds, userId))
    ensures multiset(Search(songs, title, artist, categoryIds, userId)) <= multiset(Search(songs, title, artist, None, userId))
    ensures multiset(Search(songs, title, artist, categoryIds, userId)) <= multiset(Search(songs, title, artist, categoryIds, None))
  {
    var m := SearchMatcher(title, artist, categoryIds, userId);
    FilterNarrows(songs, m, SearchMatcher(None, artist, categoryIds, userId));
    FilterNarrows(songs, m, SearchMatcher(title, None, categoryIds, userId));
    FilterNarrows(songs, m, SearchMatcher(title, artist, None, userId));
    FilterNarrows(songs, m, SearchMatcher(title, artist, categoryIds, None));
  }

  // ---- AdvancedSearchAsync ----

  datatype Criteria = Criteria(
    title: Option<string>,
    artist: Option<string>,
    genre: Option<string>,
    minPlays: Option<int>,
    maxPlays: Option<int>,
    minRating: Option<real>,
    maxRating: Option<real>,
    fromDate: Option<int>,
    toDate: Option<int>,
    tags: Option<seq<string>>,
    categoryIds: Option<seq<int>>,
    uploader: Option<string>)

  const NoCriteria: Criteria := Criteria(None, None, None, None, None, None, None, None, None, None, None, None)

  /** A text term: ignored when null or blank, otherwise trimmed and
      lower-cased. */
  function Normalize(term: Option<string>): (r: Option<string>)
    ensures r.None? <==> IsNullOrWhiteSpace(term)
    ensures r.Some? ==> r.value == Lower(Trim(term.value)) && |r.value| > 0
  {
    if IsNullOrWhiteSpace(term) then None
    else
      TrimIsSlice(term.value);
      Some(Lower(Trim(term.value)))
  }

  /** The values of the song's ratings. */
  function RatingValues(ratings: seq<Rating>, songId: int): (r: seq<int>)
    ensures |r| <= |ratings|
    decreases |ratings|
  {
    if |ratings| == 0 then []
    else
      var init := ratings[..|ratings| - 1];
      var x := ratings[|ratings| - 1];
      RatingValues(init, songId) + (if x.songId == songId then [x.ratingValue] else [])
  }

  function Sum(xs: seq<int>): int
    decreases |xs|
  {
    if |xs| == 0 then 0 else Sum(xs[..|xs| - 1]) + xs[|xs| - 1]
  }

  /** The song has ratings and their average is at least `bound`, written
      as `sum >= bound * count` so that no division is needed. */
  predicate AverageAtLeast(values: seq<int>, bound: real) {
    |values| > 0 && Sum(values) as real >= bound * (|values| as real)
  }

  predicate AverageAtMost(values: seq<int>, bound: real) {
    |values| > 0 && Sum(values) as real <= bound * (|values| as real)
  }

  /** The song's uploader exists and their user name or e-mail contains the
      term ignoring case. */
  predicate UploaderMatches(s: Song, users: seq<User>, term: string) {
    s.userId.Some? && FindUser(users, s.userId.value).Some? &&
    var u := users[FindUser(users, s.userId.value).value];
    Contains(Lower(u.username), term) || Contains(Lower(u.email), term)
  }

  /** The conjunction of `AdvancedSearchAsync`'s filters. */
  predicate AdvancedMatches(s: Song, users: seq<User>, ratings: seq<Rating>, c: Criteria) {
    && (Normalize(c.title).Some? ==> Contains(Lower(s.title), Normalize(c.title).value))
    && (Normalize(c.artist).Some? ==> Contains(Lower(s.artist), Normalize(c.artist).value))
    && (Normalize(c.uploader).Some? ==> UploaderMatches(s, users, Normalize(c.uploader).value))
    && (Normalize(c.genre).Some? ==> s.genre.Some? && Contains(Lower(s.genre.value), Normalize(c.genre).value))
    && (c.minPlays.Some? ==> s.playCount >= c.minPlays.value)
    && (c.maxPlays.Some? ==> s.playCount <= c.maxPlays.value)
    && (c.fromDate.Some? ==> s.uploadDate >= c.fromDate.value)
    && (c.toDate.Some? ==> s.uploadDate <= c.toDate.value)
    && (c.tags.Some? && |c.tags.value| > 0 ==> s.tags.Some? && exists t :: t in s.tags.value && t in c.tags.value)
    && (c.categoryIds.Some? && |c.categoryIds.value| > 0 ==> InAnyCategory(s, c.categoryIds.value))
    && (c.minRating.Some? ==> AverageAtLeast(RatingValues(ratings, s.id), c.minRating.value))
    && (c.maxRating.Some? ==> AverageAtMost(RatingValues(ratings, s.id), c.maxRating.value))
  }

  function AdvancedMatcher(users: seq<User>, ratings: seq<Rating>, c: Criteria): Song -> bool {
    (s: Song) => AdvancedMatches(s, users, ratings, c)
  }

  /** `AdvancedSearchAsync`: the songs meeting every supplied criterion, in
      table order. */
  function AdvancedSearch(songs: seq<Song>, users: seq<User>, ratings: seq<Rating>, c: Criteria): (r: seq<Song>)
    ensures forall s :: multiset(r)[s] == if AdvancedMatches(s, users, ratings, c) then multiset(songs)[s] else 0
    ensures forall s :: s in r <==> s in songs && AdvancedMatches(s, users, ratings, c)
  {
    Filter(songs, AdvancedMatcher(users, ratings, c))
  }

  /** With no criteria every song is returned. */
  lemma AdvancedSearchWithoutCriteria(songs: seq<Song>, users: seq<User>, ratings: seq<Rating>)
    ensures multiset(AdvancedSearch(songs, users, ratings, NoCriteria)) == multiset(songs)
  {
    assert forall s :: AdvancedMatches(s, users, ratings, NoCriteria);
  }

  /** A blank text term is the same as no term. */
  lemma BlankTermIgnored(s: Song, users: seq<User>, ratings: seq<Rating>, c: Criteria, blank: string)
    requires IsBlank(blank)
    ensures AdvancedMatches(s, users, ratings, c.(title := Some(blank))) == AdvancedMatches(s, users, ratings, c.(title := None))
    ensures AdvancedMatches(s, users, ratings, c.(artist := Some(blank))) == AdvancedMatches(s, users, ratings, c.(artist := None))
    ensures AdvancedMatches(s, users, ratings, c.(genre := Some(blank))) == AdvancedMatches(s, users, ratings, c.(genre := None))
    ensures AdvancedMatches(s, users, ratings, c.(uploader := Some(blank))) == AdvancedMatches(s, users, ratings, c.(uploader := None))
  {
  }

  /** Whenever a rating bound is given, songs without ratings are left
      out, whatever the bound. */
  lemma RatingBoundNeedsRatings(songs: seq<Song>, users: seq<User>, ratings: seq<Rating>, c: Criteria, s: Song)
    requires c.minRating.Some? || c.maxRating.Some?
    requires s in AdvancedSearch(songs, users, ratings, c)
    ensures |RatingValues(ratings, s.id)| > 0
  {
  }

  /** Play-count and date bounds are inclusive at both ends. */
  lemma RangesInclusive(s: Song, users: seq<User>, ratings: seq<Rating>)
    ensures AdvancedMatches(s, users, ratings,
              NoCriteria.(minPlays := Some(s.playCount), maxPlays := Some(s.playCount),
                          fromDate := Some(s.uploadDate), toDate := Some(s.uploadDate)))
  {
  }

  /** A song without an uploader never matches an uploader term. */
  lemma UploaderTermNeedsUploader(s: Song, users: seq<User>, ratings: seq<Rating>, c: Criteria)
    requires s.userId.None? && !IsNullOrWhiteSpace(c.uploader)
    ensures !AdvancedMatches(s, users, ratings, c)
  {
  }

  // ---- GetUserSongAnalyticsAsync ----

  function ByUploader(userId: int): Song -> bool {
    (s: Song) => s.userId == Some(userId)
  }

  function Plays(songs: seq<Song>): int
    decreases |songs|
  {
    if |songs| == 0 then 0 else Plays(songs[..|songs| - 1]) + songs[|songs| - 1].playCount
  }

  function Downloads(songs: seq<Song>): int
    decreases |songs|
  {
    if |songs| == 0 then 0 else Downloads(songs[..|songs| - 1]) + songs[|songs| - 1].downloadCount
  }

  /** The song at `p` has the highest play count, and every song before it
      a strictly lower one: the first element of a stable descending sort
      by play count. */
  predicate FirstMostPlayed(songs: seq<Song>, p: int) {
    0 <= p < |songs|
    && (forall k :: 0 <= k < |songs| ==> songs[k].playCount <= songs[p].playCount)
    && (forall k :: 0 <= k < p ==> songs[k].playCount < songs[p].playCount)
  }

  predicate FirstMostRecent(songs: seq<Song>, p: int) {
    0 <= p < |songs|
    && (forall k :: 0 <= k < |songs| ==> songs[k].uploadDate <= songs[p].uploadDate)
    && (forall k :: 0 <= k < p ==> songs[k].uploadDate < songs[p].uploadDate)
  }

  /** Scanning one more song adds its plays, downloads and ratings. */
  lemma ExtendTotals(s: seq<Song>, ratings: seq<Rating>, i: nat)
    requires i < |s|
    ensures Plays(s[..i + 1]) == Plays(s[..i]) + s[i].playCount
    ensures Downloads(s[..i + 1]) == Downloads(s[..i]) + s[i].downloadCount
    ensures AllRatingValues(s[..i + 1], ratings) == AllRatingValues(s[..i], ratings) + RatingValues(ratings, s[i].id)
  {
    assert s[..i + 1][..i] == s[..i];
  }

  /** Scanning one more song keeps the first maximum unless the new song
      has strictly more plays. */
  lemma ExtendMostPlayed(s: seq<Song>, i: nat, p: int)
    requires i < |s|
    requires i == 0 || FirstMostPlayed(s[..i], p)
    ensures FirstMostPlayed(s[..i + 1], if i == 0 || s[i].playCount > s[p].playCount then i else p)
  {
  }

  lemma ExtendMostRecent(s: seq<Song>, i: nat, p: int)
    requires i < |s|
    requires i == 0 || FirstMostRecent(s[..i], p)
    ensures FirstMostRecent(s[..i + 1], if i == 0 || s[i].uploadDate > s[p].uploadDate then i else p)
  {
  }

  /** `Any() ? Average() : 0.0`, exact. */
  function Mean(values: seq<int>): (r: real)
    ensures |values| == 0 ==> r == 0.0
    ensures |values| > 0 ==> r * (|values| as real) == Sum(values) as real
  {
    if |values| == 0 then 0.0 else Sum(values) as real / (|values| as real)
  }

  datatype Analytics = Analytics(
    userId: int,
    totalSongs: int,
    totalPlays: int,
    totalDownloads: int,
    averageRating: real,
    mostPopular: Option<Song>,
    mostRecent: Option<Song>)

  /** The values of every rating of every song in `songs`
      (`SelectMany(s => s.Ratings)`), song by song. */
  function AllRatingValues(songs: seq<Song>, ratings: seq<Rating>): seq<int>
    decreases |songs|
  {
    if |songs| == 0 then []
    else AllRatingValues(songs[..|songs| - 1], ratings) + RatingValues(ratings, songs[|songs| - 1].id)
  }

  /** One pass over the user's songs: the play and download totals, their
      ratings, and the positions of the first most-played and the first
      most-recent song. */
  method Scan(mine: seq<Song>, ratings: seq<Rating>)
    returns (plays: int, downloads: int, values: seq<int>, popular: int, recent: int)
    ensures plays == Plays(mine) && downloads == Downloads(mine)
    ensures values == AllRatingValues(mine, ratings)
    ensures |mine| > 0 ==> FirstMostPlayed(mine, popular) && FirstMostRecent(mine, recent)
  {
    plays, downloads, values, popular, recent := 0, 0, [], 0, 0;
    var i := 0;
    while i < |mine|
      invariant 0 <= i <= |mine|
      invariant plays == Plays(mine[..i]) && downloads == Downloads(mine[..i])
      invariant values == AllRatingValues(mine[..i], ratings)
      invariant i > 0 ==> FirstMostPlayed(mine[..i], popular)
      invariant i > 0 ==> FirstMostRecent(mine[..i], recent)
    {
      ExtendTotals(mine, ratings, i);
      ExtendMostPlayed(mine, i, popular);
      ExtendMostRecent(mine, i, recent);
      plays := plays + mine[i].playCount;
      downloads := downloads + mine[i].downloadCount;
      values := values + RatingValues(ratings, mine[i].id);
      if i == 0 || mine[i].playCount > mine[popular].playCount {
        popular := i;
      }
      if i == 0 || mine[i].uploadDate > mine[recent].uploadDate {
        recent := i;
      }
      i := i + 1;
    }
    assert mine[..i] == mine;
  }

  /** `GetUserSongAnalyticsAsync`: the number of the user's songs, the
      sums of their play and download counts, the mean of all their ratings
      (0 when there are none), and the first song with the most plays and
      the first with the latest upload date (none when the user has no
      songs). The DTO's title, id, play-count and date fields are read off
      the two songs. */
  method UserSongAnalytics(songs: seq<Song>, ratings: seq<Rating>, userId: int) returns (r: Analytics)
    ensures var mine := Filter(songs, ByUploader(userId));
            var values := AllRatingValues(mine, ratings);
            && r.userId == userId
            && r.totalSongs == |mine|
            && r.totalPlays == Plays(mine)
            && r.totalDownloads == Downloads(mine)
            && r.averageRating == Mean(values)
            && (r.mostPopular.None? <==> |mine| == 0)
            && (r.mostPopular.Some? ==> exists p :: FirstMostPlayed(mine, p) && r.mostPopular.value == mine[p])
            && (r.mostRecent.None? <==> |mine| == 0)
            && (r.mostRecent.Some? ==> exists p :: FirstMostRecent(mine, p) && r.mostRecent.value == mine[p])
  {
    var mine := Filter(songs, ByUploader(userId));
    var plays, downloads, values, popular, recent := Scan(mine, ratings);
    if |mine| == 0 {
      r := Analytics(userId, 0, plays, downloads, Mean(values), None, None);
    } else {
      r := Analytics(userId, |mine|, plays, downloads, Mean(values), Some(mine[popular]), Some(mine[recent]));
      assert FirstMostPlayed(mine, popular) && r.mostPopular.value == mine[popular];
      assert FirstMostRecent(mine, recent) && r.mostRecent.value == mine[recent];
    }
  }
}

=== FILE: ordering.dfy ===
/** `OrderBy` / `OrderByDescending` followed by `Take`, as the queries use
    them. A query's ordering is given as a comparison `le(a, b)`, "a may come
    before b", which must be a total preorder. The database does not promise
    any order among ties, so the contracts only claim sortedness and that
    the result is a rearrangement of the input. */
module Ordering {

  /** `le` is total (hence reflexive) and transitive. */
  ghost predicate TotalPreorder<T(!new)>(le: (T, T) -> bool) {
    && (forall a, b :: le(a, b) || le(b, a))
    && (forall a, b, c :: le(a, b) && le(b, c) ==> le(a, c))
  }

  predicate SortedBy<T>(s: seq<T>, le: (T, T) -> bool) {
    forall i, j :: 0 <= i < j < |s| ==> le(s[i], s[j])
  }

  /** Inserts `x` into a sorted sequence, before the first element it may
      precede. */
  function Insert<T(!new)>(x: T, s: seq<T>, le: (T, T) -> bool): (r: seq<T>)
    requires TotalPreorder(le)
    requires SortedBy(s, le)
    ensures SortedBy(r, le)
    ensures multiset(r) == multiset(s) + multiset{x}
    ensures |r| == |s| + 1
  {
    if |s| == 0 then [x]
    else if le(x, s[0]) then [x] + s
    else
      var rest := Insert(x, s[1..], le);
      assert s == [s[0]] + s[1..];
      forall k | 0 <= k < |rest|
        ensures le(s[0], rest[k])
      {
        assert rest[k] in multiset(s[1..]) + multiset{x};
        if rest[k] != x {
          assert rest[k] in s[1..];
        }
      }
      ConsSorted(s[0], rest, le);
      [s[0]] + rest
  }

  /** A head that may precede every element of a sorted tail keeps the
      sequence sorted. */
  lemma ConsSorted<T>(h: T, t: seq<T>, le: (T, T) -> bool)
    requires SortedBy(t, le)
    requires forall k :: 0 <= k < |t| ==> le(h, t[k])
    ensures SortedBy([h] + t, le)
  {
    var r := [h] + t;
    forall i, j | 0 <= i < j < |r|
      ensures le(r[i], r[j])
    {
      assert r[j] == t[j - 1];
      if i > 0 {
        assert r[i] == t[i - 1];
      }
    }
  }

  /** Sorts by insertion; the result is ordered by `le` and holds exactly the
      elements of the input. */
  function Sort<T(!new)>(s: seq<T>, le: (T, T) -> bool): (r: seq<T>)
    requires TotalPreorder(le)
    ensures SortedBy(r, le)
    ensures multiset(r) == multiset(s)
    ensures |r| == |s|
  {
    if |s| == 0 then []
    else
      assert s == [s[0]] + s[1..];
      Insert(s[0], Sort(s[1..], le), le)
  }

  /** `Enumerable.Take`: the first `n` elements, all of them when there are
      fewer, none when `n` is not positive. */
  function Take<T>(s: seq<T>, n: int): (r: seq<T>)
    ensures |r| <= |s| && r == s[..|r|]
    ensures n <= 0 ==> |r| == 0
    ensures 0 <= n ==> |r| == if n < |s| then n else |s|
  {
    if n <= 0 then [] else if n < |s| then s[..n] else s
  }

  /** Taking the first `n` of a sorted sequence keeps the top `n` elements:
      the result is ordered, comes from the input, is the whole input when
      that has at most `n` elements, and everything left out may come after
      everything kept. */
  lemma TakeOfSorted<T(!new)>(s: seq<T>, n: int, le: (T, T) -> bool)
    requires TotalPreorder(le)
    requires SortedBy(s, le)
    ensures SortedBy(Take(s, n), le)
    ensures multiset(Take(s, n)) <= multiset(s)
    ensures |s| <= n ==> Take(s, n) == s
    ensures forall x, y :: x in multiset(s) - multiset(Take(s, n)) && y in Take(s, n) ==> le(y, x)
  {
    var r := Take(s, n);
    var k := |r|;
    assert s == r + s[k..];
    forall x, y | x in multiset(s) - multiset(r) && y in r
      ensures le(y, x)
    {
      assert x in multiset(s[k..]);
      var j :| 0 <= j < |s[k..]| && s[k..][j] == x;
      var i :| 0 <= i < |r| && r[i] == y;
      assert s[i] == y && s[k + j] == x;
    }
  }
}

=== FILE: password_reset.dfy ===
/** `UserService.CreatePasswordResetTokenAsync` and `ResetPasswordAsync`.
    The random raw token is an argument (`raw`), SHA-256 is the opaque
    `hash`, and the password hasher is the opaque `hashPassword`. */
module PasswordReset {
  import opened Wrappers
  import opened Models
  import opened Collections
  import opened Tokens

  const DefaultLifetime: int := 30 * Minute
  const HourlyLimit: int := 5

  datatype Issue = Issue(tokens: seq<Token>, raw: Option<string>)

  datatype Reset = Reset(users: seq<User>, tokens: seq<Token>, ok: bool)

  /** The row a successful request adds. */
  function NewToken(tokens: seq<Token>, user: User, ip: Option<string>, userAgent: Option<string>,
                    lifetime: Option<int>, now: int, raw: string, hash: string -> string): Token
  {
    Token(NextId(tokens, TokenId), user.id, hash(raw), now + lifetime.GetOr(DefaultLifetime),
          None, now, ip, userAgent)
  }

  /** Issues a reset token for the user named (by username or e-mail) in
      `usernameOrEmail`. Nothing is issued for an unknown or unconfirmed
      account, nor when that user already had `HourlyLimit` tokens created in
      the last hour; otherwise exactly one row holding only the hash of the
      raw token is appended and the raw token is returned. */
  function CreatePasswordResetToken(users: seq<User>, tokens: seq<Token>, usernameOrEmail: string,
                                    ip: Option<string>, userAgent: Option<string>, lifetime: Option<int>,
                                    now: int, raw: string, hash: string -> string): (r: Issue)
    ensures FindByLogin(users, usernameOrEmail).None? ==> r == Issue(tokens, None)
    ensures FindByLogin(users, usernameOrEmail).Some? ==>
              var user := users[FindByLogin(users, usernameOrEmail).value];
              && (!user.emailConfirmed ==> r == Issue(tokens, None))
              && (user.emailConfirmed && RecentCount(tokens, user.id, now) >= HourlyLimit ==>
                    r == Issue(tokens, None))
              && (user.emailConfirmed && RecentCount(tokens, user.id, now) < HourlyLimit ==>
                    && r.raw == Some(raw)
                    && |r.tokens| == |tokens| + 1
                    && r.tokens[..|tokens|] == tokens
                    && var t := r.tokens[|tokens|];
                       && t.userId == user.id && t.tokenHash == hash(raw)
                       && t.expiresAtUtc == now + lifetime.GetOr(30 * 60)
                       && t.usedAtUtc.None? && t.createdAtUtc == now
                       && t.requestIp == ip && t.userAgent == userAgent
                       && forall k :: 0 <= k < |tokens| ==> tokens[k].id < t.id)
  {
    match FindByLogin(users, usernameOrEmail)
    case None => Issue(tokens, None)
    case Some(i) =>
      var user := users[i];
      if !user.emailConfirmed then Issue(tokens, None)
      else if RecentCount(tokens, user.id, now) >= HourlyLimit then Issue(tokens, None)
      else Issue(tokens + [NewToken(tokens, user, ip, userAgent, lifetime, now, raw, hash)], Some(raw))
  }

  /** Redeems a raw token: succeeds exactly when some token with its hash is
      unused and not yet expired; then that token is marked used at `now` and
      only its owner's password hash changes. A failed attempt changes
      nothing. */
  function ResetPassword(users: seq<User>, tokens: seq<Token>, rawToken: string, newPassword: string,
                         now: int, hash: string -> string, hashPassword: string -> string): (r: Reset)
    ensures r.ok <==> exists k :: 0 <= k < |tokens| && Usable(tokens[k], hash(rawToken), now)
    ensures !r.ok ==> r.users == users && r.tokens == tokens
    ensures r.ok ==>
              exists k :: 0 <= k < |tokens| && Usable(tokens[k], hash(rawToken), now)
                && r.tokens == tokens[k := tokens[k].(usedAtUtc := Some(now))]
                && |r.users| == |users|
                && forall j :: 0 <= j < |users| ==>
                     r.users[j] == if users[j].id == tokens[k].userId
                                   then users[j].(passwordHash := hashPassword(newPassword))
                                   else users[j]
  {
    match FindUsable(tokens, hash(rawToken), now)
    case None => Reset(users, tokens, false)
    case Some(k) =>
      var owner := tokens[k].userId;
      var users' := seq(|users|, j requires 0 <= j < |users| =>
                        if users[j].id == owner then users[j].(passwordHash := hashPassword(newPassword))
                        else users[j]);
      Reset(users', MarkUsed(tokens, k, now), true)
  }

  /** A token just issued can be redeemed at any time from its creation up
      to and including its expiry. */
  lemma IssuedTokenRedeemable(users: seq<User>, tokens: seq<Token>, usernameOrEmail: string,
                              ip: Option<string>, userAgent: Option<string>, lifetime: Option<int>,
                              now: int, raw: string, hash: string -> string,
                              newPassword: string, later: int, hashPassword: string -> string)
    requires CreatePasswordResetToken(users, tokens, usernameOrEmail, ip, userAgent, lifetime, now, raw, hash).raw.Some?
    requires later <= now + lifetime.GetOr(DefaultLifetime)
    ensures ResetPassword(users, CreatePasswordResetToken(users, tokens, usernameOrEmail, ip, userAgent,
                                                          lifetime, now, raw, hash).tokens,
                          raw, newPassword, later, hash, hashPassword).ok
  {
    var issued := CreatePasswordResetToken(users, tokens, usernameOrEmail, ip, userAgent, lifetime, now, raw, hash);
    assert Usable(issued.tokens[|tokens|], hash(raw), later);
  }

  /** Tokens are single use: when no two tokens share a hash, a second reset
      with the same raw token fails, whenever it is attempted. */
  lemma ResetIsSingleUse(users: seq<User>, tokens: seq<Token>, rawToken: string, newPassword: string,
                         now: int, hash: string -> string, hashPassword: string -> string,
                         otherPassword: string, later: int)
    requires forall i, j :: 0 <= i < j < |tokens| ==> tokens[i].tokenHash != tokens[j].tokenHash
    requires ResetPassword(users, tokens, rawToken, newPassword, now, hash, hashPassword).ok
    ensures var first := ResetPassword(users, tokens, rawToken, newPassword, now, hash, hashPassword);
            !ResetPassword(first.users, first.tokens, rawToken, otherPassword, later, hash, hashPassword).ok
  {
    var first := ResetPassword(users, tokens, rawToken, newPassword, now, hash, hashPassword);
    var k :| 0 <= k < |tokens| && Usable(tokens[k], hash(rawToken), now)
             && first.tokens == tokens[k := tokens[k].(usedAtUtc := Some(now))];
    forall j | 0 <= j < |first.tokens|
      ensures !Usable(first.tokens[j], hash(rawToken), later)
    {
      if j != k {
        assert tokens[j].tokenHash != tokens[k].tokenHash;
      }
    }
  }

  /** The issue throttle holds over any rolling hour: if at most
      `HourlyLimit` reset tokens per user were created in every hour before,
      the same holds after a request. */
  lemma IssueKeepsHourlyLimit(users: seq<User>, tokens: seq<Token>, usernameOrEmail: string,
                              ip: Option<string>, userAgent: Option<string>, lifetime: Option<int>,
                              now: int, raw: string, hash: string -> string)
    requires HourlyLimited(tokens, HourlyLimit)
    requires CreatedBy(tokens, now)
    ensures var r := CreatePasswordResetToken(users, tokens, usernameOrEmail, ip, userAgent, lifetime, now, raw, hash);
            HourlyLimited(r.tokens, HourlyLimit) && CreatedBy(r.tokens, now)
  {
    var r := CreatePasswordResetToken(users, tokens, usernameOrEmail, ip, userAgent, lifetime, now, raw, hash);
    if r.raw.Some? {
      var user := users[FindByLogin(users, usernameOrEmail).value];
      Tokens.IssueKeepsHourlyLimit(tokens, NewToken(tokens, user, ip, userAgent, lifetime, now, raw, hash),
                                   HourlyLimit, now);
    }
  }
}

=== FILE: playlists.dfy ===
/** `PlaylistService`: playlists owned by a user, holding a set of songs
    (the join table has one row per playlist and song). */
module Playlists {
  import opened Wrappers
  import opened Text
  import opened Collections
  import opened Models

  /** The membership invariant: a song is in a playlist at most once. */
  predicate NoDuplicates(ids: seq<int>) {
    forall i, j :: 0 <= i < j < |ids| ==> ids[i] != ids[j]
  }

  /** The ids of the songs in the table whose id is requested, in table
      order. */
  function ExistingSongIds(songs: seq<Song>, requested: seq<int>): (r: seq<int>)
    ensures forall x :: x in r <==> x in requested && exists k :: 0 <= k < |songs| && songs[k].id == x
    ensures |r| <= |songs|
    decreases |songs|
  {
    if |songs| == 0 then []
    else
      var init := songs[..|songs| - 1];
      var s := songs[|songs| - 1];
      assert forall k :: 0 <= k < |init| ==> init[k] == songs[k];
      ExistingSongIds(init, requested) + (if s.id in requested then [s.id] else [])
  }

  lemma {:induction false} ExistingSongIdsDistinct(songs: seq<Song>, requested: seq<int>)
    requires UniqueBy(songs, SongId)
    ensures NoDuplicates(ExistingSongIds(songs, requested))
    decreases |songs|
  {
    if |songs| > 0 {
      var init := songs[..|songs| - 1];
      var s := songs[|songs| - 1];
      assert forall k :: 0 <= k < |init| ==> init[k] == songs[k];
      ExistingSongIdsDistinct(init, requested);
      assert s.id !in ExistingSongIds(init, requested) by {
        forall k | 0 <= k < |init| ensures init[k].id != s.id {
          assert SongId(songs[k]) != SongId(songs[|songs| - 1]);
        }
      }
    }
  }

  /** `CreateAsync`: the new playlist holds the existing songs whose ids
      were requested (unknown ids are dropped, no list means no songs) and
      is appended under a fresh id. */
  function Create(playlists: seq<Playlist>, songs: seq<Song>, name: string, description: Option<string>,
                  userId: int, songIds: Option<seq<int>>): (r: (seq<Playlist>, Playlist))
    ensures r.0 == playlists + [r.1]
    ensures r.1.name == name && r.1.description == description && r.1.userId == userId
    ensures songIds.None? ==> r.1.songIds == []
    ensures songIds.Some? ==>
              forall x :: x in r.1.songIds <==> x in songIds.value && exists k :: 0 <= k < |songs| && songs[k].id == x
    ensures UniqueBy(songs, SongId) ==> NoDuplicates(r.1.songIds)
    ensures forall k :: 0 <= k < |playlists| ==> playlists[k].id < r.1.id
  {
    var members := if songIds.Some? then ExistingSongIds(songs, songIds.value) else [];
    assert UniqueBy(songs, SongId) ==> NoDuplicates(members) by {
      if UniqueBy(songs, SongId) && songIds.Some? {
        ExistingSongIdsDistinct(songs, songIds.value);
      }
    }
    var p := Playlist(NextId(playlists, PlaylistId), name, description, userId, members);
    (playlists + [p], p)
  }

  /** `DeleteAsync`: removes the first playlist with that id owned by that
      user; anything else is refused with no change. */
  function Delete(playlists: seq<Playlist>, id: int, userId: int): (r: (seq<Playlist>, bool))
    ensures r.1 <==> exists k :: 0 <= k < |playlists| && playlists[k].id == id && playlists[k].userId == userId
    ensures !r.1 ==> r.0 == playlists
    ensures r.1 ==> exists k :: 0 <= k < |playlists| && playlists[k].id == id && playlists[k].userId == userId
                      && r.0 == playlists[..k] + playlists[k + 1..]
  {
    match FirstIndex(playlists, (p: Playlist) => p.id == id && p.userId == userId)
    case None => (playlists, false)
    case Some(k) => (playlists[..k] + playlists[k + 1..], true)
  }

  /** With unique playlist ids, a successful delete leaves the playlist
      impossible to find and every other playlist in place. */
  lemma DeleteRemovesOnlyThatPlaylist(playlists: seq<Playlist>, id: int, userId: int)
    requires UniqueBy(playlists, PlaylistId)
    ensures var r := Delete(playlists, id, userId);
            r.1 ==> FindPlaylist(r.0, id).None? && forall p :: p in playlists && p.id != id ==> p in r.0
  {
    match FirstIndex(playlists, (p: Playlist) => p.id == id && p.userId == userId)
    case None =>
    case Some(k) => RemoveAtKeepsOthers(playlists, PlaylistId, k);
  }

  function FindPlaylist(playlists: seq<Playlist>, id: int): Option<nat> {
    FirstIndex(playlists, (p: Playlist) => p.id == id)
  }

  /** `UpdateAsync`: a missing id gives null; the name is replaced only by
      a non-blank one, the description whenever one is given, and nothing
      else changes. */
  function Update(playlists: seq<Playlist>, id: int, name: Option<string>, description: Option<string>):
    (r: (seq<Playlist>, Option<Playlist>))
    ensures FindPlaylist(playlists, id).None? ==> r == (playlists, None)
    ensures FindPlaylist(playlists, id).Some? ==>
              var i := FindPlaylist(playlists, id).value;
              var p := playlists[i];
              && r.1.Some?
              && r.0 == playlists[i := r.1.value]
              && r.1.value.name == (if IsNullOrWhiteSpace(name) then p.name else name.value)
              && r.1.value.description == (if description.Some? then description else p.description)
              && r.1.value == p.(name := r.1.value.name, description := r.1.value.description)
  {
    match FindPlaylist(playlists, id)
    case None => (playlists, None)
    case Some(i) =>
      var p := playlists[i];
      var p' := p.(name := if IsNullOrWhiteSpace(name) then p.name else name.value,
                   description := if description.Some? then description else p.description);
      (playlists[i := p'], Some(p'))
  }

  /** Applying the same update twice is the same as applying it once. */
  lemma UpdateIdempotent(playlists: seq<Playlist>, id: int, name: Option<string>, description: Option<string>)
    ensures var once := Update(playlists, id, name, description);
            Update(once.0, id, name, description) == once
  {
    var once := Update(playlists, id, name, description);
    match FindPlaylist(playlists, id)
    case None =>
    case Some(i) =>
      var p := once.1.value;
      assert once.0[i].id == id;
      assert forall k :: 0 <= k < i ==> once.0[k] == playlists[k];
      assert FindPlaylist(once.0, id) == Some(i);
      assert p.(name := if IsNullOrWhiteSpace(name) then p.name else name.value,
                description := if description.Some? then description else p.description) == p;
      assert once.0[i := p] == once.0;
  }

  /** `AddSongAsync`: false when the playlist or the song does not exist;
      otherwise true, and the song is added only when it is not already a
      member. */
  function AddSong(playlists: seq<Playlist>, songs: seq<Song>, playlistId: int, songId: int): (r: (seq<Playlist>, bool))
    ensures r.1 <==> FindPlaylist(playlists, playlistId).Some? && FindSong(songs, songId).Some?
    ensures !r.1 ==> r.0 == playlists
    ensures r.1 ==>
              var i := FindPlaylist(playlists, playlistId).value;
              && |r.0| == |playlists|
              && (forall k :: 0 <= k < |playlists| && k != i ==> r.0[k] == playlists[k])
              && r.0[i] == playlists[i].(songIds := r.0[i].songIds)
              && (forall x :: x in r.0[i].songIds <==> x in playlists[i].songIds || x == songId)
              && (NoDuplicates(playlists[i].songIds) ==> NoDuplicates(r.0[i].songIds))
  {
    match FindPlaylist(playlists, playlistId)
    case None => (playlists, false)
    case Some(i) =>
      if FindSong(songs, songId).None? then (playlists, false)
      else
        var p := playlists[i];
        if songId in p.songIds then (playlists, true)
        else (playlists[i := p.(songIds := p.songIds + [songId])], true)
  }

  /** Adding a song twice has the effect of adding it once. */
  lemma AddSongIdempotent(playlists: seq<Playlist>, songs: seq<Song>, playlistId: int, songId: int)
    ensures var once := AddSong(playlists, songs, playlistId, songId);
            AddSong(once.0, songs, playlistId, songId) == once
  {
    var once := AddSong(playlists, songs, playlistId, songId);
    if once.1 {
      var i := FindPlaylist(playlists, playlistId).value;
      assert FindPlaylist(once.0, playlistId) == Some(i) by {
        assert forall k :: 0 <= k < |playlists| ==> once.0[k].id == playlists[k].id;
      }
      assert songId in once.0[i].songIds;
    }
  }

  /** The position of `x` in `ids`, which must be there. */
  function IndexOf(ids: seq<int>, x: int): (k: nat)
    requires x in ids
    ensures k < |ids| && ids[k] == x && x !in ids[..k]
  {
    if ids[0] == x then 0 else IndexOf(ids[1..], x) + 1
  }

  /** The ids without the first occurrence of `x`. */
  function RemoveId(ids: seq<int>, x: int): (r: seq<int>)
    requires x in ids
    ensures multiset(r) == multiset(ids) - multiset{x}
    ensures NoDuplicates(ids) ==> NoDuplicates(r) && forall y :: y in r <==> y in ids && y != x
  {
    var k := IndexOf(ids, x);
    var r := RemoveAt(ids, k);
    assert r == ids[..k] + ids[k + 1..];
    assert forall a :: 0 <= a < |r| ==> r[a] == ids[if a < k then a else a + 1];
    assert NoDuplicates(ids) ==> forall y :: y in r <==> y in ids && y != x by {
      if NoDuplicates(ids) {
        forall y ensures y in r <==> y in ids && y != x {
          if y in ids && y != x {
            assert multiset(r)[y] == multiset(ids)[y];
          }
        }
      }
    }
    r
  }

  /** `RemoveSongAsync`: false when the playlist is missing or the song is
      not a member; otherwise that song leaves the playlist and nothing else
      changes. */
  function RemoveSong(playlists: seq<Playlist>, playlistId: int, songId: int): (r: (seq<Playlist>, bool))
    ensures r.1 <==> FindPlaylist(playlists, playlistId).Some?
                     && songId in playlists[FindPlaylist(playlists, playlistId).value].songIds
    ensures !r.1 ==> r.0 == playlists
    ensures r.1 ==>
              var i := FindPlaylist(playlists, playlistId).value;
              var ids := playlists[i].songIds;
              && |r.0| == |playlists|
              && (forall k :: 0 <= k < |playlists| && k != i ==> r.0[k] == playlists[k])
              && r.0[i] == playlists[i].(songIds := r.0[i].songIds)
              && multiset(r.0[i].songIds) == multiset(ids) - multiset{songId}
              && (NoDuplicates(ids) ==>
                    (NoDuplicates(r.0[i].songIds) && forall x :: x in r.0[i].songIds <==> x in ids && x != songId))
  {
    match FindPlaylist(playlists, playlistId)
    case None => (playlists, false)
    case Some(i) =>
      var p := playlists[i];
      if songId !in p.songIds then (playlists, false)
      else (playlists[i := p.(songIds := RemoveId(p.songIds, songId))], true)
  }

  /** Round trip: adding a song that was not a member and removing it again
      restores the playlists exactly. */
  lemma AddThenRemoveSong(playlists: seq<Playlist>, songs: seq<Song>, playlistId: int, songId: int)
    requires FindPlaylist(playlists, playlistId).Some? && FindSong(songs, songId).Some?
    requires songId !in playlists[FindPlaylist(playlists, playlistId).value].songIds
    ensures RemoveSong(AddSong(playlists, songs, playlistId, songId).0, playlistId, songId) == (playlists, true)
  {
    var i := FindPlaylist(playlists, playlistId).value;
    var added := AddSong(playlists, songs, playlistId, songId).0;
    assert FindPlaylist(added, playlistId) == Some(i) by {
      assert forall k :: 0 <= k < |playlists| ==> added[k].id == playlists[k].id;
    }
    var ids := playlists[i].songIds;
    assert added[i].songIds == ids + [songId];
    assert IndexOf(ids + [songId], songId) == |ids|;
    assert RemoveId(ids + [songId], songId) == ids by {
      assert RemoveAt(ids + [songId], |ids|) == ids;
    }
    assert added[i := added[i].(songIds := ids)] == playlists;
  }
}

=== FILE: ratings.dfy ===
/** `RatingService`: one rating per (song, user), kept by an upsert, and
    the owner-or-admin delete rule. */
module Ratings {
  import opened Wrappers
  import opened Collections
  import opened Models

  /** The table invariant: at most one rating per song and user. */
  predicate OnePerSongAndUser(ratings: seq<Rating>) {
    forall i, j :: 0 <= i < j < |ratings| ==>
      ratings[i].songId != ratings[j].songId || ratings[i].userId != ratings[j].userId
  }

  function SameSongAndUser(songId: int, userId: int): Rating -> bool {
    (r: Rating) => r.songId == songId && r.userId == userId
  }

  /** `AddOrUpdateRatingAsync`: when the user already rated the song, that
      row takes the new value and timestamp and no row is added; otherwise
      the rating is inserted under a fresh id. The stored row is returned;
      the value is not range-checked. */
  function AddOrUpdate(ratings: seq<Rating>, rating: Rating, now: int): (r: (seq<Rating>, Rating))
    ensures match FirstIndex(ratings, SameSongAndUser(rating.songId, rating.userId))
            case Some(i) =>
              && r.0 == ratings[i := r.1]
              && r.1 == ratings[i].(ratingValue := rating.ratingValue, createdAt := now)
            case None =>
              && r.0 == ratings + [r.1]
              && r.1 == rating.(id := r.1.id)
              && forall k :: 0 <= k < |ratings| ==> ratings[k].id < r.1.id
    ensures r.1.songId == rating.songId && r.1.userId == rating.userId && r.1.ratingValue == rating.ratingValue
    ensures r.1 in r.0
  {
    match FirstIndex(ratings, SameSongAndUser(rating.songId, rating.userId))
    case Some(i) =>
      var updated := ratings[i].(ratingValue := rating.ratingValue, createdAt := now);
      assert ratings[i := updated][i] == updated;
      (ratings[i := updated], updated)
    case None =>
      var inserted := rating.(id := NextId(ratings, RatingId));
      (ratings + [inserted], inserted)
  }

  /** The upsert keeps at most one rating per song and user, and afterwards
      the user's rating of the song is the one just given. */
  lemma AddOrUpdateKeepsOnePerSongAndUser(ratings: seq<Rating>, rating: Rating, now: int)
    requires OnePerSongAndUser(ratings)
    ensures var r := AddOrUpdate(ratings, rating, now);
            && OnePerSongAndUser(r.0)
            && forall k :: 0 <= k < |r.0| && SameSongAndUser(rating.songId, rating.userId)(r.0[k]) ==>
                 r.0[k] == r.1
  {
    var r := AddOrUpdate(ratings, rating, now);
    match FirstIndex(ratings, SameSongAndUser(rating.songId, rating.userId))
    case Some(i) =>
      assert r.0[i] == r.1;
    case None =>
      forall i, j | 0 <= i < j < |r.0|
        ensures r.0[i].songId != r.0[j].songId || r.0[i].userId != r.0[j].userId
      {
        if j == |ratings| { assert r.0[i] == ratings[i]; }
        else { assert r.0[i] == ratings[i] && r.0[j] == ratings[j]; }
      }
  }

  /** `DeleteRatingAsync`: a missing id gives false; a caller who is
      neither an admin nor the owner (an absent caller id owns nothing)
      gives false with no change; otherwise exactly that row is removed. */
  function Delete(ratings: seq<Rating>, ratingId: int, userId: Option<int>, isAdmin: bool): (r: (seq<Rating>, bool))
    ensures FirstIndex(ratings, (x: Rating) => x.id == ratingId).None? ==> r == (ratings, false)
    ensures FirstIndex(ratings, (x: Rating) => x.id == ratingId).Some? ==>
              var i := FirstIndex(ratings, (x: Rating) => x.id == ratingId).value;
              && (r.1 <==> isAdmin || userId == Some(ratings[i].userId))
              && (!r.1 ==> r.0 == ratings)
              && (r.1 ==> r.0 == ratings[..i] + ratings[i + 1..] && multiset(r.0) == multiset(ratings) - multiset{ratings[i]})
  {
    match FirstIndex(ratings, (x: Rating) => x.id == ratingId)
    case None => (ratings, false)
    case Some(i) =>
      if !isAdmin && userId != Some(ratings[i].userId) then (ratings, false)
      else
        assert ratings == ratings[..i] + [ratings[i]] + ratings[i + 1..];
        (ratings[..i] + ratings[i + 1..], true)
  }

  /** A caller without an id can delete a rating only as an admin. */
  lemma AnonymousCannotDeleteRating(ratings: seq<Rating>, ratingId: int)
    ensures Delete(ratings, ratingId, None, false) == (ratings, false)
  {
  }
}

=== FILE: text.dfy ===
/** The string primitives the services rely on: `string.IsNullOrWhiteSpace`,
    `Trim`, `ToLower`, `Contains`, `StartsWith` and the decimal rendering of an
    `int` inside an interpolated string. Case mapping is ASCII only. */
module Text {
  import opened Wrappers

  /** `char.IsWhiteSpace`: the Unicode White_Space code points. */
  predicate IsWhiteSpace(c: char) {
    var n := c as int;
    || n == 0x20 || (0x09 <= n <= 0x0D) || n == 0x85 || n == 0xA0 || n == 0x1680
    || (0x2000 <= n <= 0x200A) || n == 0x2028 || n == 0x2029 || n == 0x202F
    || n == 0x205F || n == 0x3000
  }

  /** Empty or made only of white space. */
  predicate IsBlank(s: string) {
    forall i :: 0 <= i < |s| ==> IsWhiteSpace(s[i])
  }

  /** `string.IsNullOrWhiteSpace`. */
  predicate IsNullOrWhiteSpace(s: Option<string>) {
    s.None? || IsBlank(s.value)
  }

  /** `string.IsNullOrEmpty`. */
  predicate IsNullOrEmpty(s: Option<string>) {
    s.None? || |s.value| == 0
  }

  /** Removes leading white space: the result is the suffix that starts at
      the first non-white character. */
  function TrimStart(s: string): (r: string)
    ensures |r| <= |s| && r == s[|s| - |r|..]
    ensures IsBlank(s[..|s| - |r|])
    ensures |r| > 0 ==> !IsWhiteSpace(r[0])
  {
    if |s| > 0 && IsWhiteSpace(s[0]) then TrimStart(s[1..]) else s
  }

  /** Removes trailing white space: the result is the prefix that ends at
      the last non-white character. */
  function TrimEnd(s: string): (r: string)
    ensures |r| <= |s| && r == s[..|r|]
    ensures IsBlank(s[|r|..])
    ensures |r| > 0 ==> !IsWhiteSpace(r[|r| - 1])
  {
    if |s| > 0 && IsWhiteSpace(s[|s| - 1]) then TrimEnd(s[..|s| - 1]) else s
  }

  /** `string.Trim()`. */
  function Trim(s: string): string {
    TrimEnd(TrimStart(s))
  }

  /** Two blank strings make a blank string. */
  lemma BlankConcat(x: string, y: string)
    requires IsBlank(x) && IsBlank(y)
    ensures IsBlank(x + y)
  {
    forall k | 0 <= k < |x + y|
      ensures IsWhiteSpace((x + y)[k])
    {
      if k < |x| {
        assert (x + y)[k] == x[k];
      } else {
        assert (x + y)[k] == y[k - |x|];
      }
    }
  }

  /** Where the trimmed string sits in the input. */
  lemma TrimBounds(s: string) returns (i: nat, j: nat)
    ensures i <= j <= |s| && Trim(s) == s[i..j]
    ensures IsBlank(s[..i]) && IsBlank(s[j..])
    ensures i < j ==> !IsWhiteSpace(s[j - 1])
  {
    var a := TrimStart(s);
    var b := TrimEnd(a);
    i, j := |s| - |a|, |s| - |a| + |b|;
    assert b == s[i..j];
    assert s[j..] == a[|b|..];
    if i < j {
      assert s[j - 1] == b[|b| - 1];
    }
  }

  /** Trimming leaves a contiguous slice of the input with only white space
      cut away, and it is empty exactly when the input is blank. */
  lemma TrimIsSlice(s: string)
    ensures exists i, j :: 0 <= i <= j <= |s| && Trim(s) == s[i..j]
                          && IsBlank(s[..i]) && IsBlank(s[j..])
    ensures |Trim(s)| == 0 <==> IsBlank(s)
  {
    var i, j := TrimBounds(s);
    if i == j {
      assert s == s[..i] + s[j..];
      BlankConcat(s[..i], s[j..]);
    }
  }

  /** A string that neither starts nor ends with white space is not blank
      and trims to itself. */
  lemma TrimUnpadded(s: string)
    requires |s| > 0 && !IsWhiteSpace(s[0]) && !IsWhiteSpace(s[|s| - 1])
    ensures !IsBlank(s) && Trim(s) == s
  {
    assert TrimStart(s) == s;
    assert TrimEnd(s) == s;
  }

  function LowerChar(c: char): char {
    if 'A' <= c <= 'Z' then (c as int + 32) as char else c
  }

  /** `ToLower()` on ASCII letters; every other character is kept. */
  function Lower(s: string): (r: string)
    ensures |r| == |s|
  {
    seq(|s|, i requires 0 <= i < |s| => LowerChar(s[i]))
  }

  /** Ordinal case-insensitive equality (`StringComparer.OrdinalIgnoreCase`,
      or `a.ToLower() == b.ToLower()`). */
  predicate EqualsIgnoreCase(a: string, b: string) {
    Lower(a) == Lower(b)
  }

  /** `sub` occurs in `s` starting at index `i`. */
  predicate OccursAt(s: string, sub: string, i: int) {
    0 <= i && i + |sub| <= |s| && s[i..i + |sub|] == sub
  }

  /** `string.Contains` (ordinal). */
  predicate Contains(s: string, sub: string) {
    exists i :: 0 <= i <= |s| - |sub| && OccursAt(s, sub, i)
  }

  /** `string.StartsWith` (ordinal). */
  predicate StartsWith(s: string, prefix: string) {
    |prefix| <= |s| && s[..|prefix|] == prefix
  }

  /** Wherever a string occurs, each of its prefixes occurs too. */
  lemma ContainsPrefix(s: string, p: string, q: string)
    requires Contains(s, p + q)
    ensures Contains(s, p)
  {
    var i :| 0 <= i <= |s| - |p + q| && OccursAt(s, p + q, i);
    assert s[i..i + |p|] == (p + q)[..|p|];
    assert OccursAt(s, p, i);
  }

  function DigitChar(d: int): char
    requires 0 <= d < 10
  {
    ('0' as int + d) as char
  }

  /** Decimal rendering of a non-negative number, most significant digit
      first and without leading zeros. */
  function NatToString(n: nat): string
    decreases n
  {
    if n < 10 then [DigitChar(n)] else NatToString(n / 10) + [DigitChar(n % 10)]
  }

  /** `int.ToString()` in the invariant culture, as used by string
      interpolation. */
  function IntToString(n: int): string {
    if n < 0 then "-" + NatToString(-n) else NatToString(n)
  }

  /** Appending a digit to a positive number appends one character to its
      rendering: the rendering of `n` is a prefix of that of `10 * n + d`. */
  lemma NatToStringAppendDigit(n: nat, d: nat)
    requires 1 <= n && d < 10
    ensures NatToString(10 * n + d) == NatToString(n) + [DigitChar(d)]
  {
    var m := 10 * n + d;
    assert m / 10 == n && m % 10 == d;
  }

  /** Ordinal (code point by code point) string order: `a` sorts no later
      than `b`. */
  predicate LexLe(a: string, b: string)
    decreases |a|
  {
    |a| == 0 || (|b| > 0 && (a[0] < b[0] || (a[0] == b[0] && LexLe(a[1..], b[1..]))))
  }

  lemma {:induction false} LexLeTotal(a: string, b: string)
    ensures LexLe(a, b) || LexLe(b, a)
    decreases |a|
  {
    if |a| > 0 && |b| > 0 && a[0] == b[0] {
      LexLeTotal(a[1..], b[1..]);
    }
  }

  lemma {:induction false} LexLeTransitive(a: string, b: string, c: string)
    requires LexLe(a, b) && LexLe(b, c)
    ensures LexLe(a, c)
    decreases |a|
  {
    if |a| > 0 && a[0] == b[0] && b[0] == c[0] {
      LexLeTransitive(a[1..], b[1..], c[1..]);
    }
  }
}

=== FILE: tokens.dfy ===
/** What the password-reset and e-mail-verification flows share: a table of
    single-use, hash-stored, time-limited tokens, the lookup of a redeemable
    token, the hourly issue throttle and its rolling-window guarantee. */
module Tokens {
  import opened Wrappers
  import opened Models
  import opened Collections

  /** The token can still be redeemed with a raw value hashing to `hash`:
      same hash, never used, and `ExpiresAtUtc >= now` (expiry inclusive). */
  predicate Usable(t: Token, hash: string, now: int) {
    t.tokenHash == hash && t.usedAtUtc.None? && t.expiresAtUtc >= now
  }

  /** The first token the redeeming query returns. */
  function FindUsable(tokens: seq<Token>, hash: string, now: int): Option<nat> {
    FirstIndex(tokens, (t: Token) => Usable(t, hash, now))
  }

  /** The token at position `i`, marked used at `now`. */
  function MarkUsed(tokens: seq<Token>, i: nat, now: int): (r: seq<Token>)
    requires i < |tokens|
    ensures |r| == |tokens|
  {
    tokens[i := tokens[i].(usedAtUtc := Some(now))]
  }

  function CreatedAfter(userId: int, since: int): Token -> bool {
    (t: Token) => t.userId == userId && t.createdAtUtc > since
  }

  function CreatedWithinHourBefore(userId: int, t: int): Token -> bool {
    (x: Token) => x.userId == userId && t - Hour < x.createdAtUtc <= t
  }

  /** The throttle query: tokens created for `userId` with
      `CreatedAtUtc > now.AddHours(-1)`. */
  function RecentCount(tokens: seq<Token>, userId: int, now: int): nat {
    Count(tokens, CreatedAfter(userId, now - Hour))
  }

  /** Tokens created for `userId` in the hour that ends at `t`. */
  function CountInHourBefore(tokens: seq<Token>, userId: int, t: int): nat {
    Count(tokens, CreatedWithinHourBefore(userId, t))
  }

  /** No user ever had more than `limit` tokens created within one rolling
      hour. */
  ghost predicate HourlyLimited(tokens: seq<Token>, limit: int) {
    forall u, t :: CountInHourBefore(tokens, u, t) <= limit
  }

  /** Every token was created no later than `now` (the clock does not run
      backwards). */
  predicate CreatedBy(tokens: seq<Token>, now: int) {
    forall x :: x in tokens ==> x.createdAtUtc <= now
  }

  /** Before `now`, every token of an hour that ends at or after `now`
      but starts before it was created after `now - Hour`. */
  lemma HourBeforeWithinRecent(tokens: seq<Token>, now: int, u: int, t: int)
    requires CreatedBy(tokens, now)
    requires t - Hour < now <= t
    ensures CountInHourBefore(tokens, u, t) <= RecentCount(tokens, u, now)
  {
    forall y | y in tokens && CreatedWithinHourBefore(u, t)(y)
      ensures CreatedAfter(u, now - Hour)(y)
    {
      assert y.createdAtUtc <= now;
    }
    CountMonotone(tokens, CreatedWithinHourBefore(u, t), CreatedAfter(u, now - Hour));
  }

  /** One rolling hour after an issue: the new token only counts in an hour
      that contains `now`, and that hour held no more tokens than the
      throttle saw. */
  lemma IssueKeepsHourWithinLimit(tokens: seq<Token>, x: Token, limit: int, now: int, u: int, t: int)
    requires CountInHourBefore(tokens, u, t) <= limit
    requires CreatedBy(tokens, now)
    requires x.createdAtUtc == now
    requires RecentCount(tokens, x.userId, now) < limit
    ensures CountInHourBefore(tokens + [x], u, t) <= limit
  {
    CountAppend(tokens, x, CreatedWithinHourBefore(u, t));
    if x.userId == u && t - Hour < now <= t {
      HourBeforeWithinRecent(tokens, now, u, t);
    }
  }

  /** The throttle's guarantee: adding a token created at `now` only when
      fewer than `limit` were created for its user within the last hour keeps
      every rolling hour, past or future, within `limit`. */
  lemma IssueKeepsHourlyLimit(tokens: seq<Token>, x: Token, limit: int, now: int)
    requires HourlyLimited(tokens, limit)
    requires CreatedBy(tokens, now)
    requires x.createdAtUtc == now
    requires RecentCount(tokens, x.userId, now) < limit
    ensures HourlyLimited(tokens + [x], limit)
    ensures CreatedBy(tokens + [x], now)
  {
    forall u, t ensures CountInHourBefore(tokens + [x], u, t) <= limit {
      IssueKeepsHourWithinLimit(tokens, x, limit, now, u, t);
    }
  }
}

=== FILE: user_controller.dfy ===
/** The decision logic of `UserController`: which reply each account
    endpoint gives, what it changes, and whom it mails. A reply is the HTTP
    outcome with the payload the client sees; JWT issuance is abstracted to
    the user id it is issued for, and a mail is recorded as the user it goes
    to and the raw token it carries. An uploaded picture that is rejected
    raises an exception no action catches, so the reply is `ServerError`. */
module UserController {
  import opened Wrappers
  import opened Text
  import opened Collections
  import opened Models
  import opened Tokens
  import opened Accounts
  import EmailVerification
  import PasswordReset

  datatype Store = Store(users: seq<User>, resetTokens: seq<Token>, verificationTokens: seq<Token>)

  datatype Reply =
    | Created(profile: User)
    | Ok(profile: User)
    | LoggedIn(userId: int)
    | Message(text: string)
    | VerifiedPage
    | NotFound
    | Conflict
    | Unauthorized
    | Forbidden
    | BadRequest(text: string)
    | ServerError

  datatype Mail = VerificationMail(userId: int, raw: string) | ResetMail(userId: int, raw: string)

  datatype Outcome = Outcome(store: Store, reply: Reply, mail: Option<Mail>)

  /** An uploaded form file; a picture counts only when it is non-empty. */
  datatype Upload = Upload(fileName: string, contentType: Option<string>, length: int)

  datatype CreateForm = CreateForm(username: string, email: string, password: string, role: UserRole,
                                   picture: Option<Upload>)

  datatype UpdateForm = UpdateForm(username: string, email: string, picture: Option<Upload>)

  const PictureFolder: string := "/mnt/user/music-files/profile-pictures"
  const VerificationRequested: string := "If the account requires verification, an email has been sent."
  const ResetRequested: string := "If the account exists and is verified, a reset link has been sent."
  const MissingToken: string := "Missing token."
  const InvalidLink: string := "Verification link is invalid or expired."

  predicate HasFile(picture: Option<Upload>) {
    picture.Some? && picture.value.length > 0
  }

  /** The stored path of an accepted picture: a fresh name (`guid`) with the
      original extension, inside the picture folder. */
  function SavePicture(upload: Upload, guid: string): (r: Result<string, Error>)
    ensures r.Success? <==> CheckProfilePicture(upload.fileName, upload.contentType).Success?
    ensures r.Success? ==> r.value == PictureFolder + "/" + guid + GetExtension(upload.fileName)
  {
    match CheckProfilePicture(upload.fileName, upload.contentType)
    case Failure(e) => Failure(e)
    case Success(ext) => Success(PictureFolder + "/" + guid + ext)
  }

  // ---- Create ----

  /** The verification token issued for an account whose e-mail is not
      confirmed: none when the hourly throttle is reached, otherwise one new
      row for that account carrying the hash of the raw token. */
  lemma IssueForUnconfirmed(users: seq<User>, tokens: seq<Token>, i: nat, ip: Option<string>, now: int,
                            raw: string, hash: string -> string)
    requires i < |users| && FindUser(users, users[i].id) == Some(i) && !users[i].emailConfirmed
    ensures var r := EmailVerification.CreateEmailVerificationToken(users, tokens, users[i].id, ip, None, now, raw, hash);
            var n := |tokens|;
            && (RecentCount(tokens, users[i].id, now) >= EmailVerification.HourlyLimit ==> r == EmailVerification.Issue(tokens, None))
            && (RecentCount(tokens, users[i].id, now) < EmailVerification.HourlyLimit ==>
                  && r.raw.Some? && |r.tokens| == n + 1 && r.tokens[..n] == tokens
                  && r.tokens[n].userId == users[i].id && r.tokens[n].tokenHash == hash(raw))
  {
  }

  /** `Create`: a rejected picture fails before anything is stored; a
      duplicate e-mail gives Conflict and creates neither an account nor a
      verification token; otherwise the account is created unconfirmed, a
      verification token is issued when the throttle allows and mailed. */
  function Create(store: Store, form: CreateForm, ip: Option<string>, now: int, guid: string, raw: string,
                  hash: string -> string, hashPassword: string -> string): (r: Outcome)
    ensures HasFile(form.picture) && SavePicture(form.picture.value, guid).Failure? ==>
              r == Outcome(store, ServerError, None)
    ensures r.reply == Conflict <==>
              !(HasFile(form.picture) && SavePicture(form.picture.value, guid).Failure?)
              && EmailTaken(store.users, form.email)
    ensures r.reply == Conflict ==> r.store == store && r.mail.None?
    ensures r.reply.Created? ==>
              && r.store.users == store.users + [r.reply.profile]
              && r.store.resetTokens == store.resetTokens
              && var u := r.reply.profile;
                 && u.username == form.username && u.email == form.email && u.role == form.role
                 && u.passwordHash == hashPassword(form.password) && !u.emailConfirmed && u.createdAt == now
                 && (HasFile(form.picture) ==> u.profilePicturePath == Some(SavePicture(form.picture.value, guid).value))
                 && (!HasFile(form.picture) ==> u.profilePicturePath.None?)
                 && (forall j :: 0 <= j < |store.users| ==> store.users[j].id < u.id)
                 && var n := |store.verificationTokens|;
                    && (RecentCount(store.verificationTokens, u.id, now) >= EmailVerification.HourlyLimit ==>
                          r.store.verificationTokens == store.verificationTokens && r.mail.None?)
                    && (RecentCount(store.verificationTokens, u.id, now) < EmailVerification.HourlyLimit ==>
                          && |r.store.verificationTokens| == n + 1
                          && r.store.verificationTokens[..n] == store.verificationTokens
                          && r.store.verificationTokens[n].userId == u.id
                          && r.store.verificationTokens[n].tokenHash == hash(raw)
                          && r.mail == Some(VerificationMail(u.id, raw)))
    ensures r.reply.Created? || r.reply == Conflict || r.reply == ServerError
    ensures r.reply.Created? <==>
              !(HasFile(form.picture) && SavePicture(form.picture.value, guid).Failure?)
              && !EmailTaken(store.users, form.email)
  {
    var picture: Result<Option<string>, Error> :=
      if HasFile(form.picture) then
        match SavePicture(form.picture.value, guid)
        case Failure(e) => Failure(e)
        case Success(path) => Success(Some(path))
      else Success(None);
    if picture.Failure? then Outcome(store, ServerError, None)
    else
      var draft := User(0, form.username, form.email, form.password, form.role, 0, picture.value, false);
      var created := CreateUser(store.users, draft, now, hashPassword);
      match created.result
      case Failure(_) => Outcome(store, Conflict, None)
      case Success(u) =>
        assert FindUser(created.users, u.id) == Some(|store.users|) by {
          assert created.users[|store.users|] == u;
        }
        var issued := EmailVerification.CreateEmailVerificationToken(
                        created.users, store.verificationTokens, u.id, ip, None, now, raw, hash);
        IssueForUnconfirmed(created.users, store.verificationTokens, |store.users|, ip, now, raw, hash);
        Outcome(Store(created.users, store.resetTokens, issued.tokens), Created(u),
                if issued.raw.Some? then Some(VerificationMail(u.id, raw)) else None)
  }

  // ---- Login ----

  /** `Login`: Unauthorized when the credentials do not authenticate,
      Forbidden when they do but the e-mail is unconfirmed, otherwise a token
      for that user. Login never changes the store. */
  function Login(users: seq<User>, usernameOrEmail: string, password: string,
                 verify: (string, string) -> bool): (r: Reply)
    ensures r == Unauthorized <==> Authenticate(users, usernameOrEmail, password, verify).None?
    ensures r == Forbidden <==> (exists u :: Authenticate(users, usernameOrEmail, password, verify) == Some(u)
                                              && !u.emailConfirmed)
    ensures r.LoggedIn? <==> (exists u :: Authenticate(users, usernameOrEmail, password, verify) == Some(u)
                                           && u.emailConfirmed)
    ensures r.LoggedIn? ==> r.userId == Authenticate(users, usernameOrEmail, password, verify).value.id
  {
    match Authenticate(users, usernameOrEmail, password, verify)
    case None => Unauthorized
    case Some(u) => if !u.emailConfirmed then Forbidden else LoggedIn(u.id)
  }

  /** Looking up by login only depends on user names and e-mails. */
  lemma FindByLoginSameNames(users: seq<User>, users': seq<User>, q: string)
    requires |users| == |users'|
    requires forall j :: 0 <= j < |users| ==> users'[j].username == users[j].username
                                              && users'[j].email == users[j].email
    ensures FindByLogin(users', q) == FindByLogin(users, q)
  {
    var a := FindByLogin(users, q);
    var b := FindByLogin(users', q);
    if a.Some? && b.Some? {
      assert !(a.value < b.value) && !(b.value < a.value);
    }
  }

  /** Confirming the e-mail of the account a login finds, and changing
      nothing else that login reads, turns Forbidden into a token. */
  lemma ConfirmLiftsForbidden(users: seq<User>, users': seq<User>, usernameOrEmail: string, password: string,
                              verify: (string, string) -> bool, i: nat)
    requires Login(users, usernameOrEmail, password, verify) == Forbidden
    requires FindByLogin(users, usernameOrEmail) == Some(i)
    requires FindByLogin(users', usernameOrEmail) == Some(i)
    requires i < |users'| && users'[i] == users[i].(emailConfirmed := true)
    ensures Login(users', usernameOrEmail, password, verify) == LoggedIn(users[i].id)
  {
  }

  /** Redeeming the account's own verification token turns a Forbidden
      login into a successful one, when ids and token hashes are unique. */
  lemma VerificationLiftsForbidden(users: seq<User>, tokens: seq<Token>, rawToken: string, now: int,
                                   hash: string -> string, usernameOrEmail: string, password: string,
                                   verify: (string, string) -> bool, k: nat)
    requires UniqueBy(users, UserId)
    requires forall i, j :: 0 <= i < j < |tokens| ==> tokens[i].tokenHash != tokens[j].tokenHash
    requires Login(users, usernameOrEmail, password, verify) == Forbidden
    requires k < |tokens| && Usable(tokens[k], hash(rawToken), now)
    requires tokens[k].userId == users[FindByLogin(users, usernameOrEmail).value].id
    ensures var v := EmailVerification.VerifyEmail(users, tokens, rawToken, now, hash);
            Login(v.users, usernameOrEmail, password, verify)
              == LoggedIn(users[FindByLogin(users, usernameOrEmail).value].id)
  {
    var v := EmailVerification.VerifyEmail(users, tokens, rawToken, now, hash);
    var i := FindByLogin(users, usernameOrEmail).value;
    EmailVerification.VerifyConfirmsOwner(users, tokens, rawToken, now, hash, k);
    FindByLoginSameNames(users, v.users, usernameOrEmail);
    assert v.users[i] == users[i].(emailConfirmed := true);
    ConfirmLiftsForbidden(users, v.users, usernameOrEmail, password, verify, i);
  }

  // ---- Update ----

  /** The shared shape of `Update`: the tracked account edited with the
      form's user name and e-mail and, when a non-empty picture is
      supplied and accepted, its new path, then handed to `UpdateUser`
      with `password` in its password field. */
  function UpdateWith(users: seq<User>, id: int, form: UpdateForm, guid: string, password: User -> string,
                      hashPassword: string -> string): (r: (seq<User>, Reply))
    ensures FindUser(users, id).None? ==> r == (users, NotFound)
    ensures FindUser(users, id).Some? && HasFile(form.picture) && SavePicture(form.picture.value, guid).Failure? ==>
              r == (users, ServerError)
    ensures r.1.Ok? ==>
              var i := FindUser(users, id).value;
              var edited := users[i].(username := form.username, email := form.email,
                                      profilePicturePath := if HasFile(form.picture)
                                                            then Some(SavePicture(form.picture.value, guid).value)
                                                            else users[i].profilePicturePath);
              var updated := UpdateUser(users, id, edited.(passwordHash := password(users[i])), hashPassword);
              r == (updated.users, Ok(updated.user.value))
    ensures r.1.Ok? || r.1 == NotFound || r.1 == ServerError
    ensures r.1.Ok? <==> (FindUser(users, id).Some? &&
                          !(HasFile(form.picture) && SavePicture(form.picture.value, guid).Failure?))
  {
    match FindUser(users, id)
    case None => (users, NotFound)
    case Some(i) =>
      var picture: Result<Option<string>, Error> :=
        if HasFile(form.picture) then
          match SavePicture(form.picture.value, guid)
          case Failure(e) => Failure(e)
          case Success(path) => Success(Some(path))
        else Success(users[i].profilePicturePath);
      if picture.Failure? then (users, ServerError)
      else
        var edited := users[i].(username := form.username, email := form.email, profilePicturePath := picture.value);
        var updated := UpdateUser(users, id, edited.(passwordHash := password(users[i])), hashPassword);
        (updated.users, Ok(updated.user.value))
  }

  /** An update keeps every id where it was, so ids stay unique and every
      lookup by id finds the same position; an accepted update shows the
      row now stored. */
  lemma UpdateWithKeepsIds(users: seq<User>, id: int, form: UpdateForm, guid: string, password: User -> string,
                           hashPassword: string -> string, q: int)
    ensures var r := UpdateWith(users, id, form, guid, password, hashPassword);
            && |r.0| == |users|
            && (forall j :: 0 <= j < |users| ==> r.0[j].id == users[j].id)
            && FindUser(r.0, q) == FindUser(users, q)
            && (UniqueBy(users, UserId) ==> UniqueBy(r.0, UserId))
            && (r.1.Ok? ==> r.0[FindUser(users, id).value] == r.1.profile)
  {
    match FindUser(users, id)
    case None =>
    case Some(i) =>
      if !(HasFile(form.picture) && SavePicture(form.picture.value, guid).Failure?) {
        var edited := users[i].(username := form.username, email := form.email,
                                profilePicturePath := if HasFile(form.picture)
                                                      then Some(SavePicture(form.picture.value, guid).value)
                                                      else users[i].profilePicturePath);
        UpdateUserKeepsIds(users, id, edited.(passwordHash := password(users[i])), hashPassword, q);
      }
  }

  /** `Update` as written: the action edits the tracked entity and passes it
      to `UpdateUserAsync`, whose password field therefore holds the stored
      hash, which is not blank, so the stored hash is hashed again. */
  function UpdateAsWritten(users: seq<User>, id: int, form: UpdateForm, guid: string,
                           hashPassword: string -> string): (r: (seq<User>, Reply))
    ensures r.1.Ok? ==>
              FindUser(users, id).Some? &&
              var i := FindUser(users, id).value;
              && |r.0| == |users|
              && (!IsBlank(users[i].passwordHash) ==>
                    r.0[i].passwordHash == hashPassword(users[i].passwordHash))
  {
    UpdateWith(users, id, form, guid, (u: User) => u.passwordHash, hashPassword)
  }

  /** `Update` as evidently intended: a profile edit that leaves the
      password alone (the password field handed on is blank). An unknown
      id gives NotFound and a rejected picture ServerError, both with the
      store unchanged; otherwise only that account changes, taking the
      form's user name and e-mail, the new picture path when a non-empty
      picture is supplied and the old path otherwise, and keeping id,
      password hash, role, creation time and confirmation. */
  function UpdateProfile(users: seq<User>, id: int, form: UpdateForm, guid: string,
                         hashPassword: string -> string): (r: (seq<User>, Reply))
    ensures r.1.Ok? || r.1 == NotFound || r.1 == ServerError
    ensures !r.1.Ok? ==> r.0 == users
    ensures r.1 == NotFound <==> FindUser(users, id).None?
    ensures r.1.Ok? <==> FindUser(users, id).Some? &&
                         !(HasFile(form.picture) && SavePicture(form.picture.value, guid).Failure?)
    ensures r.1.Ok? ==>
              var i := FindUser(users, id).value;
              && |r.0| == |users|
              && (forall j :: 0 <= j < |users| && j != i ==> r.0[j] == users[j])
              && r.1.profile == r.0[i]
              && r.0[i] == users[i].(username := form.username, email := form.email,
                                     profilePicturePath := r.0[i].profilePicturePath)
              && (HasFile(form.picture) ==>
                    r.0[i].profilePicturePath == Some(PictureFolder + "/" + guid + GetExtension(form.picture.value.fileName)))
              && (!HasFile(form.picture) ==> r.0[i].profilePicturePath == users[i].profilePicturePath)
  {
    assert IsBlank("");
    UpdateWith(users, id, form, guid, (u: User) => "", hashPassword)
  }

  /** The discrepancy: with a hasher that accepts exactly its own hashes,
      an account that could log in before editing its profile cannot
      afterwards under `Update` as written, but still can under the
      intended update. */
  lemma UpdateAsWrittenLocksOut()
    ensures var hashPassword := (s: string) => "#" + s;
            var verify := (h: string, p: string) => h == "#" + p;
            var users := [User(1, "ann", "ann@example.org", "#pw", RegularUser, 0, None, true)];
            var form := UpdateForm("ann", "ann@example.org", None);
            && Login(users, "ann", "pw", verify) == LoggedIn(1)
            && Login(UpdateAsWritten(users, 1, form, "g", hashPassword).0, "ann", "pw", verify) == Unauthorized
            && Login(UpdateProfile(users, 1, form, "g", hashPassword).0, "ann", "pw", verify) == LoggedIn(1)
  {
    var hashPassword := (s: string) => "#" + s;
    var verify := (h: string, p: string) => h == "#" + p;
    var users := [User(1, "ann", "ann@example.org", "#pw", RegularUser, 0, None, true)];
    var form := UpdateForm("ann", "ann@example.org", None);
    assert !IsBlank("#pw") by { assert !IsWhiteSpace("#pw"[0]); }
    var broken := UpdateAsWritten(users, 1, form, "g", hashPassword).0;
    assert broken[0].passwordHash == "##pw";
    assert broken[0].passwordHash != "#pw" by { assert broken[0].passwordHash[1] != "#pw"[1]; }
    var kept := UpdateProfile(users, 1, form, "g", hashPassword).0;
    assert kept[0].passwordHash == "#pw";
  }

  // ---- verification and reset requests ----

  /** The controller's user lookup as written: the first result of a
      one-row user search, kept only when its user name or e-mail equals
      the input exactly. */
  function LookupViaSearch(users: seq<User>, usernameOrEmail: string): (r: Option<User>)
    ensures r.Some? ==> r.value in users
                        && (r.value.username == usernameOrEmail || r.value.email == usernameOrEmail)
  {
    var found := SearchUsers(users, usernameOrEmail, 1);
    match FirstIndex(found, (u: User) => u.username == usernameOrEmail || u.email == usernameOrEmail)
    case None => None
    case Some(i) => Some(found[i])
  }

  /** The lookup evidently intended: the account whose user name or e-mail
      equals the input, as the token services find it. */
  function LookupByLogin(users: seq<User>, usernameOrEmail: string): (r: Option<User>)
    ensures r.None? <==> forall j :: 0 <= j < |users| ==>
                           users[j].username != usernameOrEmail && users[j].email != usernameOrEmail
    ensures r.Some? ==> r == Some(users[FindByLogin(users, usernameOrEmail).value])
  {
    match FindByLogin(users, usernameOrEmail)
    case None => None
    case Some(i) => Some(users[i])
  }

  /** `RequestEmailVerification` with the user lookup as a parameter. The
      reply is the same message whatever happens; only an unconfirmed
      account found by the lookup can get a token. */
  function RequestVerificationWith(store: Store, found: Option<User>, ip: Option<string>, now: int,
                                   raw: string, hash: string -> string): (r: Outcome)
    ensures r.reply == Message(VerificationRequested)
    ensures r.store.users == store.users && r.store.resetTokens == store.resetTokens
    ensures found.None? || found.value.emailConfirmed ==> r == Outcome(store, r.reply, None)
    ensures r.mail.Some? <==> |r.store.verificationTokens| == |store.verificationTokens| + 1
    ensures r.mail.Some? ==>
              && found.Some? && !found.value.emailConfirmed
              && r.mail == Some(VerificationMail(found.value.id, raw))
              && r.store.verificationTokens[..|store.verificationTokens|] == store.verificationTokens
              && r.store.verificationTokens[|store.verificationTokens|].userId == found.value.id
    ensures r.mail.None? ==> r.store == store
  {
    if found.Some? && !found.value.emailConfirmed then
      var issued := EmailVerification.CreateEmailVerificationToken(
                      store.users, store.verificationTokens, found.value.id, ip, None, now, raw, hash);
      Outcome(Store(store.users, store.resetTokens, issued.tokens), Message(VerificationRequested),
              if issued.raw.Some? then Some(VerificationMail(found.value.id, raw)) else None)
    else Outcome(store, Message(VerificationRequested), None)
  }

  /** `RequestEmailVerification` as written. */
  function RequestEmailVerificationAsWritten(store: Store, usernameOrEmail: string, ip: Option<string>, now: int,
                                             raw: string, hash: string -> string): (r: Outcome)
    ensures r.reply == Message(VerificationRequested)
    ensures r.store.users == store.users && r.store.resetTokens == store.resetTokens
  {
    RequestVerificationWith(store, LookupViaSearch(store.users, usernameOrEmail), ip, now, raw, hash)
  }

  /** `RequestEmailVerification` with the intended lookup: same reply
      always, and a token (and mail) for the named account exactly when it
      exists, is unconfirmed and is under the hourly limit. */
  function RequestEmailVerification(store: Store, usernameOrEmail: string, ip: Option<string>, now: int,
                                    raw: string, hash: string -> string): (r: Outcome)
    requires UniqueBy(store.users, UserId)
    ensures r.reply == Message(VerificationRequested)
    ensures r.store.users == store.users && r.store.resetTokens == store.resetTokens
    ensures r.mail.Some? <==>
              FindByLogin(store.users, usernameOrEmail).Some?
              && var u := store.users[FindByLogin(store.users, usernameOrEmail).value];
                 !u.emailConfirmed && RecentCount(store.verificationTokens, u.id, now) < EmailVerification.HourlyLimit
    ensures r.mail.Some? ==> r.mail.value.userId == store.users[FindByLogin(store.users, usernameOrEmail).value].id
  {
    match FindByLogin(store.users, usernameOrEmail)
    case None => RequestVerificationWith(store, None, ip, now, raw, hash)
    case Some(i) =>
      FindUserUnique(store.users, i);
      RequestVerificationWith(store, Some(store.users[i]), ip, now, raw, hash)
  }

  /** The two-account store the lookup discrepancy shows on: "bob", and
      "abob", which also contains "bob" and sorts before it. */
  function BobAndAbob(bobConfirmed: bool): seq<User> {
    [User(1, "bob", "bob@example.org", "h1", RegularUser, 0, None, bobConfirmed),
     User(2, "abob", "abob@example.org", "h2", RegularUser, 0, None, true)]
  }

  lemma TrimBob()
    ensures !IsBlank("bob") && Trim("bob") == "bob"
  {
    TrimUnpadded("bob");
  }

  lemma AbobMatchesBob(bobConfirmed: bool)
    ensures MatchesUser(BobAndAbob(bobConfirmed)[1], "bob")
  {
    var u := BobAndAbob(bobConfirmed)[1];
    assert Lower("bob") == "bob";
    assert Lower(u.username) == "abob";
    assert OccursAt(Lower(u.username), Lower("bob"), 1);
  }

  lemma BobSortsAfterAbob()
    ensures !LexLe("bob", "abob")
  {
    assert "bob"[0] == 'b' && "abob"[0] == 'a';
  }

  /** As written, the lookup misses every account named exactly by the
      input when some other matching account, not itself named exactly,
      sorts strictly before all the exactly named ones. */
  lemma LookupViaSearchMisses(users: seq<User>, q: string, x: User)
    requires !IsBlank(q)
    requires x in users && MatchesUser(x, Trim(q)) && x.username != q && x.email != q
    requires forall y :: y in users && (y.username == q || y.email == q) ==> !LexLe(y.username, x.username)
    ensures LookupViaSearch(users, q).None?
  {
    var found := SearchUsers(users, q, 1);
    forall k | 0 <= k < |found| ensures found[k].username != q && found[k].email != q {
      var y := found[k];
      if y.username == q || y.email == q {
        SearchOneIsLeast(users, q, x, y);
      }
    }
  }

  /** On that store, the one-row search misses the exact account "bob",
      which the exact lookup finds. */
  lemma LookupViaSearchMissesExactUser(bobConfirmed: bool)
    ensures LookupViaSearch(BobAndAbob(bobConfirmed), "bob").None?
    ensures LookupByLogin(BobAndAbob(bobConfirmed), "bob") == Some(BobAndAbob(bobConfirmed)[0])
  {
    var users := BobAndAbob(bobConfirmed);
    TrimBob();
    AbobMatchesBob(bobConfirmed);
    BobSortsAfterAbob();
    LookupViaSearchMisses(users, "bob", users[1]);
  }

  /** The discrepancy for verification: on that store, a request naming
      the unconfirmed "bob" as written issues nothing, while the intended
      lookup issues "bob" a token. */
  lemma RequestVerificationMissesExactUser(tokens: seq<Token>, ip: Option<string>, now: int, raw: string,
                                           hash: string -> string)
    requires forall k :: 0 <= k < |tokens| ==> tokens[k].userId != 1
    ensures var store := Store(BobAndAbob(false), [], tokens);
            && RequestEmailVerificationAsWritten(store, "bob", ip, now, raw, hash).mail.None?
            && RequestEmailVerification(store, "bob", ip, now, raw, hash).mail == Some(VerificationMail(1, raw))
  {
    LookupViaSearchMissesExactUser(false);
    VerificationIssuedForBob(tokens, ip, now, raw, hash);
  }

  lemma VerificationIssuedForBob(tokens: seq<Token>, ip: Option<string>, now: int, raw: string,
                                 hash: string -> string)
    requires forall k :: 0 <= k < |tokens| ==> tokens[k].userId != 1
    ensures UniqueBy(BobAndAbob(false), UserId)
    ensures RequestEmailVerification(Store(BobAndAbob(false), [], tokens), "bob", ip, now, raw, hash).mail
              == Some(VerificationMail(1, raw))
  {
    assert Filter(tokens, CreatedAfter(1, now - Hour)) == [];
    assert UniqueBy(BobAndAbob(false), UserId);
    assert FindByLogin(BobAndAbob(false), "bob") == Some(0);
  }

  /** `SendPasswordResetEmailAsync` reloads the account by id and sends
      nothing when there is no such account or its e-mail address is
      blank. */
  predicate ResetMailDeliverable(users: seq<User>, userId: int) {
    match FindUser(users, userId)
    case None => false
    case Some(i) => !IsBlank(users[i].email)
  }

  /** `ForgotPassword` with the recipient lookup as a parameter. The reply
      is the same message whether or not a token is issued; the token is
      issued by the reset service's own exact lookup, and the mail goes to
      the looked-up account when its address is not blank. */
  function ForgotPasswordWith(store: Store, usernameOrEmail: string, lookup: Option<User>, ip: Option<string>,
                              userAgent: string, now: int, raw: string, hash: string -> string): (r: Outcome)
    ensures r.reply == Message(ResetRequested)
    ensures r.store.users == store.users && r.store.verificationTokens == store.verificationTokens
    ensures r.store.resetTokens ==
              PasswordReset.CreatePasswordResetToken(store.users, store.resetTokens, usernameOrEmail, ip,
                                                     Some(userAgent), None, now, raw, hash).tokens
    ensures r.mail.Some? <==> lookup.Some? && |r.store.resetTokens| == |store.resetTokens| + 1
                              && ResetMailDeliverable(store.users, lookup.value.id)
    ensures r.mail.Some? ==> r.mail == Some(ResetMail(lookup.value.id, raw))
  {
    var issued := PasswordReset.CreatePasswordResetToken(store.users, store.resetTokens, usernameOrEmail, ip,
                                                         Some(userAgent), None, now, raw, hash);
    var mail := if issued.raw.Some? && lookup.Some? && ResetMailDeliverable(store.users, lookup.value.id)
                then Some(ResetMail(lookup.value.id, raw)) else None;
    Outcome(Store(store.users, issued.tokens, store.verificationTokens), Message(ResetRequested), mail)
  }

  /** `ForgotPassword` as written: the mail recipient is looked up through
      the one-row user search. */
  function ForgotPasswordAsWritten(store: Store, usernameOrEmail: string, ip: Option<string>, userAgent: string,
                                   now: int, raw: string, hash: string -> string): (r: Outcome)
    ensures r.reply == Message(ResetRequested)
    ensures r.store.users == store.users && r.store.verificationTokens == store.verificationTokens
  {
    ForgotPasswordWith(store, usernameOrEmail, LookupViaSearch(store.users, usernameOrEmail), ip, userAgent,
                       now, raw, hash)
  }

  /** `ForgotPassword` with the intended recipient: either nothing is
      issued and the reset tokens are unchanged, or one token carrying the
      hash of the raw token is appended; a reset mail carrying the raw
      token goes out exactly when a token is issued and its owner's address
      is not blank, and it goes to that owner. */
  function ForgotPassword(store: Store, usernameOrEmail: string, ip: Option<string>, userAgent: string,
                          now: int, raw: string, hash: string -> string): (r: Outcome)
    ensures r.reply == Message(ResetRequested)
    ensures r.store.users == store.users && r.store.verificationTokens == store.verificationTokens
    ensures r.store.resetTokens == store.resetTokens || |r.store.resetTokens| == |store.resetTokens| + 1
    ensures |r.store.resetTokens| == |store.resetTokens| + 1 ==>
              && r.store.resetTokens[|store.resetTokens|].tokenHash == hash(raw)
              && r.store.resetTokens[..|store.resetTokens|] == store.resetTokens
    ensures r.mail.Some? <==>
              |r.store.resetTokens| == |store.resetTokens| + 1
              && ResetMailDeliverable(store.users, r.store.resetTokens[|store.resetTokens|].userId)
    ensures r.mail.Some? ==> r.mail == Some(ResetMail(r.store.resetTokens[|store.resetTokens|].userId, raw))
  {
    ForgotPasswordWith(store, usernameOrEmail, LookupByLogin(store.users, usernameOrEmail), ip, userAgent,
                       now, raw, hash)
  }

  /** The discrepancy for password reset: on the same store with "bob"
      confirmed, a token is issued for "bob" but, as written, no mail is
      sent, so the token can never be used; the intended lookup mails it. */
  lemma ForgotPasswordMailsNobody(ip: Option<string>, userAgent: string, now: int, raw: string,
                                  hash: string -> string)
    ensures var store := Store(BobAndAbob(true), [], []);
            && |ForgotPasswordAsWritten(store, "bob", ip, userAgent, now, raw, hash).store.resetTokens| == 1
            && ForgotPasswordAsWritten(store, "bob", ip, userAgent, now, raw, hash).mail.None?
            && ForgotPassword(store, "bob", ip, userAgent, now, raw, hash).mail == Some(ResetMail(1, raw))
  {
    LookupViaSearchMissesExactUser(true);
    ResetIssuedForBob(ip, userAgent, now, raw, hash);
    BobAndAbobDeliverable(true);
  }

  lemma ResetIssuedForBob(ip: Option<string>, userAgent: string, now: int, raw: string, hash: string -> string)
    ensures var issued := PasswordReset.CreatePasswordResetToken(BobAndAbob(true), [], "bob", ip, Some(userAgent),
                                                                 None, now, raw, hash);
            |issued.tokens| == 1 && issued.tokens[0].userId == 1
  {
    assert FindByLogin(BobAndAbob(true), "bob") == Some(0);
    assert Count([], CreatedAfter(1, now - Hour)) == 0;
  }

  lemma BobAndAbobDeliverable(bobConfirmed: bool)
    ensures ResetMailDeliverable(BobAndAbob(bobConfirmed), 1)
  {
    assert FindUser(BobAndAbob(bobConfirmed), 1) == Some(0);
    assert !IsWhiteSpace("bob@example.org"[0]);
  }

  /** A store where the user name of one account is the e-mail address of
      another: account 1 ("zed") has e-mail "x@y", account 2 is named
      "x@y". */
  function ZedAndXy(): seq<User> {
    [User(1, "zed", "x@y", "h1", RegularUser, 0, None, true),
     User(2, "x@y", "xy@example.org", "h2", RegularUser, 0, None, true)]
  }

  lemma LowerXy()
    ensures Lower("x@y") == "x@y"
  {
    assert LowerChar('x') == 'x' && LowerChar('@') == '@' && LowerChar('y') == 'y';
  }

  lemma XyMatchesBoth()
    ensures !IsBlank("x@y") && Trim("x@y") == "x@y"
    ensures MatchesUser(ZedAndXy()[0], "x@y") && MatchesUser(ZedAndXy()[1], "x@y")
  {
    TrimUnpadded("x@y");
    LowerXy();
    assert OccursAt(Lower("x@y"), Lower("x@y"), 0);
  }

  lemma ZedSortsAfterXy()
    ensures !LexLe("zed", "x@y")
  {
    assert "zed"[0] == 'z' && "x@y"[0] == 'x';
  }

  /** On that store the one-row search for "x@y" finds account 2, while the
      exact lookup finds account 1 first, by its e-mail. */
  lemma LookupViaSearchFindsOtherAccount()
    ensures LookupViaSearch(ZedAndXy(), "x@y") == Some(ZedAndXy()[1])
    ensures LookupByLogin(ZedAndXy(), "x@y") == Some(ZedAndXy()[0])
  {
    var users := ZedAndXy();
    XyMatchesBoth();
    ZedSortsAfterXy();
    var found := SearchUsers(users, "x@y", 1);
    SearchOneSortsFirst(users, "x@y", users[1]);
    assert found[0] in users;
  }

  /** The wrong recipient: on that store, when the unordered owner lookup
      of the reset service returns account 1 (table order here), a reset
      request for "x@y" stores a token for account 1, but as written the
      raw token is mailed to account 2, who can then reset account 1's
      password; the intended lookup mails it to account 1. */
  lemma ForgotPasswordMailsWrongAccount(ip: Option<string>, userAgent: string, now: int, raw: string,
                                        hash: string -> string)
    ensures var store := Store(ZedAndXy(), [], []);
            var asWritten := ForgotPasswordAsWritten(store, "x@y", ip, userAgent, now, raw, hash);
            && |asWritten.store.resetTokens| == 1
            && asWritten.store.resetTokens[0].userId == 1
            && asWritten.mail == Some(ResetMail(2, raw))
            && ForgotPassword(store, "x@y", ip, userAgent, now, raw, hash).mail == Some(ResetMail(1, raw))
  {
    LookupViaSearchFindsOtherAccount();
    ResetIssuedForZed(ip, userAgent, now, raw, hash);
    ZedAndXyDeliverable();
  }

  lemma ZedAndXyDeliverable()
    ensures ResetMailDeliverable(ZedAndXy(), 1) && ResetMailDeliverable(ZedAndXy(), 2)
  {
    assert FindUser(ZedAndXy(), 1) == Some(0) && FindUser(ZedAndXy(), 2) == Some(1);
    assert !IsWhiteSpace("x@y"[0]) && !IsWhiteSpace("xy@example.org"[0]);
  }

  lemma ResetIssuedForZed(ip: Option<string>, userAgent: string, now: int, raw: string, hash: string -> string)
    ensures var issued := PasswordReset.CreatePasswordResetToken(ZedAndXy(), [], "x@y", ip, Some(userAgent), None,
                                                                 now, raw, hash);
            |issued.tokens| == 1 && issued.tokens[0].userId == 1
  {
    assert FindByLogin(ZedAndXy(), "x@y") == Some(0);
    assert Count([], CreatedAfter(1, now - Hour)) == 0;
  }

  // ---- verify-email link ----

  /** `VerifyEmailViaGet`: a missing or blank token gives BadRequest without
      touching the token store; otherwise the verification service decides
      between the success page and the invalid-link page. */
  function VerifyEmailViaGet(store: Store, token: Option<string>, now: int, hash: string -> string): (r: Outcome)
    ensures IsNullOrWhiteSpace(token) ==> r == Outcome(store, BadRequest(MissingToken), None)
    ensures !IsNullOrWhiteSpace(token) ==>
              var v := EmailVerification.VerifyEmail(store.users, store.verificationTokens, token.value, now, hash);
              && r.store == Store(v.users, store.resetTokens, v.tokens)
              && (r.reply == VerifiedPage <==> v.ok)
              && (!v.ok ==> r.reply == BadRequest(InvalidLink) && r.store == store)
    ensures r.mail.None?
  {
    if IsNullOrWhiteSpace(token) then Outcome(store, BadRequest(MissingToken), None)
    else
      var v := EmailVerification.VerifyEmail(store.users, store.verificationTokens, token.value, now, hash);
      Outcome(Store(v.users, store.resetTokens, v.tokens), if v.ok then VerifiedPage else BadRequest(InvalidLink), None)
  }
}

=== FILE: wrappers.dfy ===
/** Nullable values of the C# source (`string?`, `int?`, `DateTime?`, a
    reference that may be null) are modelled by Option. */
module Wrappers {

  datatype Option<+T> = None | Some(value: T) {

    /** The value, or `default` when absent (C#'s `??`). */
    function GetOr(default: T): T {
      match this
      case Some(v) => v
      case None => default
    }
  }

  /** An operation that either produces a value or raises one of the
      source's exceptions. */
  datatype Result<+T, +E> = Success(value: T) | Failure(error: E)
}
